=== FILE: README.md ===
# Household expense tracker, modelled in Dafny

This project models the household expense tracker: a set of scripts that
record the expenses of three accounts (Commun, Luc, Laura) in a CSV file and
report on them.

- `ExpenseTracker` (src/expense_tracker.py) creates the files, takes one
  expense through its prompts and appends it as a CSV row. It also lists the
  latest expenses, prints the monthly summary and saves it per account, and
  archives the month.
- `DataAnalyzer` (src/data_analyzer.py) loads the live file, the fixed
  charges and the history files. It reports spending trends, category
  statistics, the account comparison with its category-by-account pivot
  table, and spending insights.
- `BudgetTracker` (src/budget_tracker.py) reads the category and subcategory
  taxonomy from the initial budget JSON. It sums a month's expenses into that
  grid and names the summary file. Its menu asks for the month.
- add_new_expense.py is the older one-shot entry script that appends a raw
  line.
- monthly_expenses_monitor.py writes one summary per month for the
  "Personal" and "Shared" accounts of an English-schema file.

Files are a map from path to rows (`Store.Files`). Rows are parsed records
(`Records.Expense`, `Records.Movement`). Amounts are exact `real`s. Dates are
`Dates.Date` values with Python's `toordinal`. Keyboard input is a sequence
of answer lines, and running out of answers stands for end of input. The
clock is a parameter (`today`, `now`).

Each pandas group-by is a fold into a key-sorted association list
(`Grouping.GroupSum`). It is proved against an independent per-key sum
(`Grouping.SumFor`). Each prompt loop is `Prompts.FirstAccepted`, with lemmas
saying which answer it takes and that every earlier one was refused.

Modules follow the program:

| module | covers |
|---|---|
| Text, Numbers, Dates, CsvRow | `str.strip`/`split`/`replace`, `int()`/`float()`/`:.2f`, `strptime`/`strftime`/`to_period`, `csv.writer` |
| Records | the record types and the fixed account and category lists |
| Grouping, Orders | group-by sums, descending sorts, `head`, `idxmax`, filters, string order |
| Prompts, Entry, Store | `_get_user_input`, `add_expense`, `_initialize_files`, `archive_month` |
| Reports | `view_recent_expenses`, `monthly_summary`, `_save_monthly_summary` |
| Analyzer, Statistics, Comparison, Insights | the `DataAnalyzer` reports |
| Budget | `BudgetTracker` |
| LegacyEntry, Monitor | add_new_expense.py and monthly_expenses_monitor.py |

## Model

| member | source | states |
|---|---|---|
| Records.ListsCommaFree | src/expense_tracker.py:30-48 | No account or category name contains a comma, so `csv.writer` never quotes one. |
| Records.NoDescriptionShape | src/expense_tracker.py:147-148 | The fallback description "No description" is non-empty, comma-free and already stripped. |
| Text.StripIsStripped | src/expense_tracker.py:91 | After `.strip()` there is no white space at either end. |
| Text.RemoveAllAppend | src/add_new_expense.py:54 | `.replace(',', '')` on two texts put together is its result on each, in order. |
| Numbers.ParseIntText | src/expense_tracker.py:119 | `int(str(n)) == n` for every integer `n`. |
| Numbers.ParseIntRoundTrip | src/expense_tracker.py:119 | White space around a number's text does not change what `int()` reads. |
| Numbers.ParseIntNeedsDigit | src/expense_tracker.py:125-126 | Text without a digit is refused, which is the `ValueError` branch. |
| Numbers.ParseCentsText | src/expense_tracker.py:83 | `float()` reads every "d.dd" text back as exactly its value in cents / 100. |
| Numbers.ParseNegatedDecimal | src/expense_tracker.py:83 | A leading minus negates the value of the numeral that follows, and is refused with it. |
| Numbers.FormatFixed2NonNegative | src/expense_tracker.py:161 | A non-negative amount is written with `:.2f` as unsigned whole-cents text. |
| Numbers.FormatFixed2RoundTrip | src/expense_tracker.py:161 | Reading back the `:.2f` text of a whole-cent amount gives that amount. |
| CsvRow.EncodeField | src/expense_tracker.py:159-161 | Quoting a field keeps its commas exactly: the written field has a comma iff the value has one. |
| CsvRow.FieldRoundTrip | src/expense_tracker.py:159-161 | Quoting a field and reading it back gives the field. |
| CsvRow.LineRoundTrip | src/expense_tracker.py:159-161 | A row of comma-free fields, once written as a CSV line, splits back into exactly those fields. |
| Dates.ParseDayFirst | src/expense_tracker.py:72-78 | A text `strptime("%d/%m/%Y")` accepts always names a real calendar date. |
| Dates.DayFirstRoundTrip | src/expense_tracker.py:105-110 | The default date `strftime("%d/%m/%Y")` is accepted back as the same date. |
| Dates.LeapDay | src/expense_tracker.py:72-78 | "29/02/yyyy" is accepted iff yyyy is a leap year. |
| Dates.ParseYearMonth | src/budget_tracker.py:98-99 | An accepted "%Y-%m" text names a year in 1..9999 and a month in 1..12. |
| Dates.MonthKeyParses | src/budget_tracker.py:69 | Every "YYYY-MM" month key parses back as the month it names. |
| Dates.MonthKeyChronological | src/data_analyzer.py:76 | Month keys in string order are in chronological order. |
| Dates.MonthKeyInjective | src/budget_tracker.py:45-48 | Two months have the same key iff they are the same month. |
| Dates.DateLessIsStrictTotalOrder | src/expense_tracker.py:185-186 | The date order used for sorting is a strict total order. |
| Dates.OrdinalMonotonic | src/data_analyzer.py:234 | A later real date has a larger day number. |
| Dates.OrdinalInjective | src/data_analyzer.py:234 | Distinct real dates have distinct day numbers. |
| Prompts.FirstAccepted | src/expense_tracker.py:88-96 | The value the prompt returns is what the validator made of the answer it stopped at. |
| Prompts.FirstAcceptedSkips | src/expense_tracker.py:88-96 | Every answer before the accepted one was refused. |
| Prompts.FirstAcceptedNone | src/expense_tracker.py:88-96 | The prompt runs out of input iff the validator refuses every answer. |
| Prompts.FirstAcceptedIgnoresLater | src/expense_tracker.py:88-96 | Answers after the accepted one are not read. |
| Prompts.FirstAcceptedHead | src/expense_tracker.py:88-96 | An acceptable first answer is taken at once. |
| Entry.ValidateDate | src/expense_tracker.py:72-78 | An accepted date text contains no comma. |
| Entry.ValidateFormattedDate | src/expense_tracker.py:105-110 | The default date passes the date validator. |
| Entry.ValidateAmount | src/expense_tracker.py:80-86 | An accepted amount is never negative. |
| Entry.AmountReadsCents | src/expense_tracker.py:80-86 | A "d.dd" amount is accepted with exactly its value. |
| Entry.AmountDecimalComma | src/expense_tracker.py:83 | "w,f" is read like "w.f", as whole part plus fraction. |
| Entry.AmountWithComma | src/expense_tracker.py:83 | A decimal comma and a decimal point give the same result, whether accepted or refused. |
| Entry.AmountRefusesNegative | src/expense_tracker.py:84 | A negative amount is refused. |
| Entry.DateAnswer | src/expense_tracker.py:88-110 | A blank answer gives today's date. Otherwise the stripped answer is taken when it is a valid date. Every accepted answer passes the validator. |
| Entry.DateAnswerOfFormatted | src/expense_tracker.py:88-110 | A typed "dd/mm/yyyy" of a real date is taken as typed. |
| Entry.MenuAnswer | src/expense_tracker.py:117-126 | A menu choice is always one of the menu's items. |
| Entry.MenuPicks | src/expense_tracker.py:117-126 | Typing k picks item k iff 1 ≤ k ≤ the number of items. Any other number is refused. |
| Entry.MenuRefusesWords | src/expense_tracker.py:125-126 | An answer without a digit is refused. |
| Entry.AccountAnswer | src/expense_tracker.py:117-122 | An accepted account is one of the three accounts. |
| Entry.CategoryAnswer | src/expense_tracker.py:134-139 | An accepted category is one of the fourteen categories. |
| Entry.CleanDescription | src/expense_tracker.py:146-148 | The stored description is non-empty, comma-free and stripped. |
| Entry.DescriptionKept | src/expense_tracker.py:146 | A description that is already clean is stored unchanged. |
| Entry.DescriptionCommas | src/expense_tracker.py:146 | Inner commas become spaces and nothing else changes. |
| Entry.AmountAnswer | src/expense_tracker.py:151-156 | The amount loop only ends on a non-negative amount. |
| Entry.AmountAnswerOfCents | src/expense_tracker.py:151-156 | A "d.dd" answer ends the amount loop with that value. |
| Entry.EntryAmountReads | src/expense_tracker.py:161 | The stored amount field is comma-free and passes the amount validator again. |
| Entry.EntryRowRoundTrip | src/expense_tracker.py:159-161 | A stored row, written as a CSV line, reads back as the same five fields. |
| Entry.StoredRowWellFormed | src/expense_tracker.py:159-161 | Validated answers make a well-formed row: a valid date, a listed account and category, a clean description and a whole-cents amount. |
| Entry.Menus | src/expense_tracker.py:117-143 | The two menus give a listed account and a listed category, and consume at least two answers. |
| Entry.MenusFirstTry | src/expense_tracker.py:117-143 | Two valid menu answers are taken at once. |
| Entry.EnterDetails | src/expense_tracker.py:146-156 | The description and amount steps consume at least two answers and give a non-negative amount. |
| Entry.EnterDetailsFirstTry | src/expense_tracker.py:146-161 | A description and a valid amount make the row at once, with the amount formatted by `:.2f`. |
| Entry.EnterDetailsWellFormed | src/expense_tracker.py:146-161 | The row built from the details is well-formed, keeps the date, and stores the rounded amount. |
| Entry.EnterAfterDate | src/expense_tracker.py:112-156 | Everything after the date consumes at least four answers and gives a non-negative amount. |
| Entry.EnterAfterDateWellFormed | src/expense_tracker.py:112-161 | The row built after the date is well-formed and keeps the date. |
| Entry.AddExpense | src/expense_tracker.py:98-161 | A completed entry consumes at least five answers and has a non-negative amount. |
| Entry.AddExpenseDate | src/expense_tracker.py:104-110 | The date of a completed entry passes the date validator. |
| Entry.AddExpenseWellFormed | src/expense_tracker.py:98-161 | Every row `add_expense` writes is well-formed, and its amount field is the `:.2f` of the amount read. |
| Entry.AddExpenseFirstTry | src/expense_tracker.py:98-161 | Five valid answers give exactly the row of those answers and use exactly five lines. |
| Store.InitializeFile | src/expense_tracker.py:57-60 | A missing file is created holding the header. An existing file and every other file are left alone. |
| Store.InitializeFiles | src/expense_tracker.py:17-70 | Start-up crashes iff budget/ is missing and a budget file is still to be created. The live file is created first either way. Existing files are unchanged, and new ones hold only the header. |
| Store.InitializeFilesIdempotent | src/expense_tracker.py:53-70 | Running start-up a second time changes nothing. |
| Store.AppendRow | src/expense_tracker.py:159-161 | Appending adds the row at the end of that one file and leaves every other file unchanged. |
| Store.ArchivePath | src/expense_tracker.py:251-252 | The history file of a month is never the live file. |
| Store.ArchiveMonth | src/expense_tracker.py:245-264 | Without a live file nothing changes. Otherwise the live rows go to the month's history file and the live file is reset to the header. Every other file is unchanged. |
| Store.ArchiveTwiceOverwrites | src/expense_tracker.py:251-261 | A second archive in the same month replaces the first, so only rows entered in between survive. |
| Store.AddExpenseToFiles | src/expense_tracker.py:98-161 | The files change iff an entry is completed. |
| Store.AddExpenseAppends | src/expense_tracker.py:159-161 | `add_expense` appends exactly one well-formed row to the live file, and that row reads back unchanged. Every other file is untouched. |
| Reports.DateRankOrder | src/expense_tracker.py:185-186 | The sort key orders real dates chronologically and ties only equal dates. |
| Reports.ViewRecent | src/expense_tracker.py:170-186 | Nothing is shown without a file or without rows. Otherwise, for a non-negative limit, exactly min(limit, number of rows) rows are shown. |
| Reports.RecentNewestFirst | src/expense_tracker.py:185-186 | The rows shown are newest first. |
| Reports.RecentFromFile | src/expense_tracker.py:185-186 | The rows shown are rows of the file, each at most as often as it occurs there. |
| Reports.RecentAreLatest | src/expense_tracker.py:185-186 | No row left out is newer than any row shown. |
| Reports.LeftOutNotNewer | src/expense_tracker.py:186 | After a newest-first sort, nothing past the cut is newer than anything before it. |
| Reports.AccountRows | src/expense_tracker.py:214-215 | An account's rows all belong to it, and there are none iff no row of the file does. |
| Reports.AccountTotalIsSum | src/expense_tracker.py:216 | An account's total is the per-key sum of the amounts grouped by account. |
| Reports.OverallIsSumOfAccounts | src/expense_tracker.py:213-226 | When every row belongs to a listed account, the overall total is the sum of the three account totals. |
| Reports.SameAmounts | src/expense_tracker.py:216-226 | Grouping by category and grouping by account add up to the same total. |
| Reports.CategoryBreakdownSize | src/expense_tracker.py:220 | The category breakdown is empty iff there are no rows. |
| Reports.CategoryBreakdownTotal | src/expense_tracker.py:220 | An account's category breakdown adds up to the account's total. |
| Reports.UnpackAmounts | src/expense_tracker.py:221 | Unpacking bare amounts into (category, amount) succeeds only when there is no amount to unpack. |
| Reports.AsWrittenFails | src/expense_tracker.py:213-223 | The summary's account loop as written fails iff some row belongs to a listed account. |
| Reports.AsWrittenFailsOnOneRow | src/expense_tracker.py:213-230 | A file with a single row of account Commun makes the summary fail as written, although the corrected summary has a section for it. |
| Reports.AsWrittenAgreesWhenNoRows | src/expense_tracker.py:213-230 | When no row belongs to a listed account, the summary as written agrees with the corrected one, and it has no sections. |
| Reports.NoSections | src/expense_tracker.py:213-215 | With no row of the listed accounts, the written and the corrected loop both give no section. |
| Reports.AccountLines | src/expense_tracker.py:220-223 | Corrected half of the second finding: one line per category of the account. |
| Reports.AccountSharesAddUp | src/expense_tracker.py:220-223 | Corrected half of the second finding: with a non-zero account total, the category shares add up to 100 percent. |
| Reports.AccountSections | src/expense_tracker.py:213-223 | Corrected half of the second finding: at most one section per listed account, and only for accounts that have rows. |
| Reports.SavedPaths | src/expense_tracker.py:236-242 | Exactly one summary file is written for each listed account that has rows, named after the month and the account. |
| Reports.SummaryPathsDistinct | src/expense_tracker.py:240 | The three accounts' summary files have distinct names, so none overwrites another. |
| Reports.SavedTableFor | src/expense_tracker.py:236-242 | Each account's file holds that account's (month, category) table. |
| Reports.SavedTables | src/expense_tracker.py:236-242 | For the three accounts, each saved file holds its account's table. |
| Reports.SavedTableSums | src/expense_tracker.py:239 | The saved table has a line for exactly the (month, category) pairs of the account's rows, sorted by (month, category), each holding the sum of those rows. |
| Grouping.GroupSumKeys | src/data_analyzer.py:224 | A group-by sum has one key for every key that occurs, and no other. |
| Grouping.GroupSumSorted | src/data_analyzer.py:224 | The group-by result is sorted by key. |
| Grouping.GroupSumLookup | src/data_analyzer.py:224 | The group-by value of every key is the sum of that key's amounts (0 for an absent key). |
| Grouping.GroupSumTotal | src/data_analyzer.py:224 | Grouping neither loses nor duplicates an amount. |
| Grouping.SortDescPermutes | src/data_analyzer.py:137 | `sort_values(ascending=False)` is a permutation of its input. |
| Grouping.SortDescSorted | src/data_analyzer.py:137 | The sorted result is in descending order of value. |
| Grouping.Head | src/data_analyzer.py:89 | `head(n)` is a prefix of min(n, length) items. A negative n drops that many items from the end. |
| Grouping.ArgMax | src/data_analyzer.py:219 | `idxmax` picks a maximum, and the first one: every earlier value is strictly smaller. |
| Grouping.ArgMaxOfGroupSum | src/data_analyzer.py:224-226 | The `idxmax` of a group-by sum is a key that occurs, with the largest sum, and the first such key in key order. |
| Grouping.Mean | src/data_analyzer.py:230 | The mean times the count is the total. |
| Grouping.ByValueEntries | src/data_analyzer.py:88 | The sorted group-by has every occurring key, each with its sum, largest first, and the same total. |
| Grouping.ByValueDistinct | src/data_analyzer.py:88 | The sorted group-by lists each key exactly once. |
| Grouping.ByValueTop | src/data_analyzer.py:88-89 | The top n entries are distinct keys with their sums, largest first. Any key whose sum beats a listed one is itself listed. |
| Grouping.TotalShares | src/data_analyzer.py:90 | The percentages of a breakdown add up to its total as a percentage of the divisor. |
| Grouping.FilterMembers | src/data_analyzer.py:249 | A boolean-mask filter keeps exactly the rows that satisfy the mask. |
| Grouping.Unique | src/monthly_expenses_monitor.py:14 | `unique()` lists every value that occurs, each exactly once. |
| Analyzer.NonEmpty | src/data_analyzer.py:32-48 | Only files with at least one row are kept. |
| Analyzer.NonEmptyKeepsRows | src/data_analyzer.py:27-53 | Skipping empty files loses no row and adds none. |
| Analyzer.AllRowsEmpty | src/data_analyzer.py:50-51 | The combined data is empty iff every file is missing or empty. |
| Analyzer.LoadAllDataRows | src/data_analyzer.py:27-55 | The loaded data is the live rows, then the fixed charges, then the history files, in that order. It is empty iff all of them are. |
| Analyzer.InWindowDays | src/data_analyzer.py:65-66 | A date is in the window iff its day is after the cutoff day, or on it when the clock reads exactly midnight. |
| Analyzer.RecentWindowRows | src/data_analyzer.py:64-66 | The recent rows are exactly the rows dated on or after the cutoff. |
| Analyzer.MaxOrdinalIsLastDay | src/data_analyzer.py:65 | The largest day number `datetime` allows is that of 31/12/9999. |
| Analyzer.SpendingTrends | src/data_analyzer.py:57-98 | It reports no data iff there are no rows. It reports an overflow iff the cutoff falls outside 0001-01-01..9999-12-31 (before year 1 for the menu's non-negative month counts, after year 9999 for a large negative one). It reports no recent data iff the window is empty. Otherwise it reports the trends of the recent rows. |
| Analyzer.PeriodKeyChronological | src/data_analyzer.py:76-80 | Monthly totals print in chronological order, because month keys sort that way. |
| Analyzer.MonthlyTotals | src/data_analyzer.py:76 | The monthly totals are sorted by month, with one entry per occurring month holding that month's sum. |
| Analyzer.DailyAverage | src/data_analyzer.py:83 | The daily average is the recent total divided by the number of distinct days. |
| Analyzer.PercentOfTotal | src/data_analyzer.py:95-98 | Shares exist iff the total is non-zero, and each one is its amount over the total times 100. |
| Analyzer.TopCategories | src/data_analyzer.py:88-91 | The top list has min(5, number of categories) distinct categories with their sums, largest first. No omitted category beats a listed one. Its percentages are of the recent total. |
| Analyzer.AccountSharesTotal | src/data_analyzer.py:95-98 | The account percentages add up to 100. |
| Statistics.StatOf | src/data_analyzer.py:111-115 | A category's line carries its row count, and the average times the count is the total. |
| Statistics.StatLines | src/data_analyzer.py:111-116 | There is one statistics line per occurring category. |
| Statistics.CategoryAnalysis | src/data_analyzer.py:100-105 | There is no analysis iff there are no rows. |
| Statistics.StatLineHolds | src/data_analyzer.py:111-115 | Each line has count ≥ 1 equal to the category's rows, total equal to their sum, and average × count = total. |
| Statistics.StatLinesCategories | src/data_analyzer.py:111 | A category has a line iff some row has that category. |
| Statistics.StatLinesHold | src/data_analyzer.py:111-116 | Every line is correct, and the categories with a line are exactly those that occur. |
| Statistics.CategoryStats | src/data_analyzer.py:111-116 | The analysis is sorted by total, largest first, with a correct line for exactly the occurring categories. |
| Comparison.AccountComparison | src/data_analyzer.py:126-153 | There is no comparison iff there are no rows. |
| Comparison.AccountTotals | src/data_analyzer.py:137 | The account totals list every occurring account once, each with the sum of its amounts, largest first. |
| Comparison.AccountPivot | src/data_analyzer.py:145-151 | The pivot has a row for each occurring category and, in every row, a column for each occurring account. |
| Comparison.PivotCells | src/data_analyzer.py:145-151 | Each cell is the sum of that category's and that account's amounts, and 0 where no row has both. |
| Comparison.AccountColumns | src/data_analyzer.py:145-151 | The columns are the occurring accounts, each once. |
| Comparison.PivotRowIsCategoryTotal | src/data_analyzer.py:145-151 | A pivot row summed across the columns gives the total of that category's rows. |
| Comparison.PivotRowSum | src/data_analyzer.py:145-151 | Each pivot row adds up to its category's total, so no amount is lost or counted twice. |
| Insights.SpendingInsights | src/data_analyzer.py:207-212 | There are no insights iff there are no rows. |
| Insights.MostExpensiveDay | src/data_analyzer.py:218-220 | The most expensive day is a day with rows, holding that day's sum. No day has more, and every earlier day has strictly less. |
| Insights.MostExpensiveCategory | src/data_analyzer.py:224-226 | The most expensive category occurs, holding its sum. No category has more, and every category before it in order has strictly less. |
| Insights.AverageTransaction | src/data_analyzer.py:230 | The average transaction times the number of rows is the overall total. |
| Insights.DailyDaysOccur | src/data_analyzer.py:218 | Every day in the daily totals is the date of some row. |
| Insights.RowDaysListed | src/data_analyzer.py:218 | Every row's date is in the daily totals. |
| Insights.DaySpanEnds | src/data_analyzer.py:234 | The span's first and last days are row dates, and no row is dated outside them. |
| Insights.DaySpanCoversDays | src/data_analyzer.py:234-236 | The span is (last − first).days + 1 ≥ 1, and it is at least the number of distinct days. |
| Insights.DistinctDays | src/data_analyzer.py:235 | The number of daily totals is the number of distinct row dates. |
| Insights.Percent | src/data_analyzer.py:236-242 | n days out of a span of s days is in (0, 100] percent, and above 80 iff 5n > 4s. |
| Insights.Frequency | src/data_analyzer.py:234-236 | The spending frequency lies in (0, 100]. |
| Insights.AlmostDailyAdvice | src/data_analyzer.py:242-243 | The "almost every day" advice is given iff 5 × distinct days > 4 × span. |
| Insights.LargeAverageAdvice | src/data_analyzer.py:245-246 | The "high average" advice is given iff the total exceeds 50 × the number of rows. |
| Insights.SmallTotalIsSum | src/data_analyzer.py:249-252 | A small-expense total exists iff some amount is below 10, and it is the sum of exactly those amounts. |
| Budget.LoadInitialBudget | src/budget_tracker.py:25-34 | A decoded budget gives its members. A missing or undecodable file gives no members. |
| Budget.NoBudgetNoCategories | src/budget_tracker.py:25-34 | Without a usable budget file there are no categories at all. |
| Budget.Shape | src/budget_tracker.py:21-23 | The categories are exactly the budget's member names. |
| Budget.ShapeSubcategories | src/budget_tracker.py:23 | A category's subcategories are the member names of its last object, as `json.load` keeps them. |
| Budget.ZeroGrid | src/budget_tracker.py:51 | The starting grid has exactly the budget's categories and subcategories, all at 0. |
| Budget.Route | src/budget_tracker.py:52-62 | A row is only ever counted in a cell of the grid, and never when its category is unknown. |
| Budget.SumRows | src/budget_tracker.py:51-62 | Summing keeps the grid's shape. |
| Budget.SumRowsCells | src/budget_tracker.py:51-63 | Every cell holds the sum of the rows routed to it. |
| Budget.UnknownCategoryIgnored | src/budget_tracker.py:56 | A row of an unknown category changes nothing. |
| Budget.ListedSubcategoryCell | src/budget_tracker.py:57-58 | A row with a listed subcategory adds its amount to that cell and to no other. |
| Budget.NoColumnGoesToAutre | src/budget_tracker.py:59-62 | Without a subcategory column, a row goes to its category's "autre" cell, or nowhere when there is none. |
| Budget.ExpensesByCategory | src/budget_tracker.py:36-63 | There is no grid at all without a file or without rows. Otherwise the grid has the budget's shape. |
| Budget.FiltersKeepExactly | src/budget_tracker.py:45-50 | The rows counted are exactly those of the month and of the account. An absent month or account does not filter. |
| Budget.SaveExpensesSummary | src/budget_tracker.py:65-77 | The file is named after the account (or "all") and the month, which defaults to the current one. With live rows, each cell of the saved grid is the sum of the month's and the account's rows routed to it. Without them, the saved grid is empty. |
| Budget.SummaryCountsCurrentMonth | src/budget_tracker.py:69-70 | Without a month, exactly the rows of the current calendar month (and of the account) are counted. |
| Budget.MonthChoiceAsWritten | src/budget_tracker.py:94-102 | As written, an accepted month is passed on exactly as typed, and a blank answer means the current month. |
| Budget.OneDigitMonthAccepted | src/budget_tracker.py:98-99 | `strptime("2024-1", "%Y-%m")` is accepted as January 2024. |
| Budget.AsWrittenMonthMatchesNothing | src/budget_tracker.py:98-99 | As written, "2024-1" is passed on, and no row's month text equals it. |
| Budget.MonthChoice | src/budget_tracker.py:94-102 | Corrected half of the first finding: an accepted month is passed on as a "YYYY-MM" key. |
| Budget.MonthChoiceKeepsItsMonth | src/budget_tracker.py:94-103 | Corrected half of the first finding: the key passed on matches a row iff the row is in the month typed. |
| LegacyEntry.LegacyDate | src/add_new_expense.py:3-6 | A blank answer gives today's date. Anything else is kept stripped and unchecked. |
| LegacyEntry.LegacyDateAgrees | src/add_new_expense.py:3-6 | Where the tracker's date prompt accepts an answer, the old script takes the same date. |
| LegacyEntry.LegacyAccount | src/add_new_expense.py:14-19 | The account is always listed, and it is the answer iff the answer is a listed account. Otherwise it is "Commun". |
| LegacyEntry.LegacyAccountIdempotent | src/add_new_expense.py:14-19 | Feeding the chosen account back in chooses it again. |
| LegacyEntry.LegacyCategory | src/add_new_expense.py:42-52 | The category is always one of the fourteen. |
| LegacyEntry.LegacyCategoryIsMenuOrAutre | src/add_new_expense.py:42-52 | The category is the menu's pick when there is one, and "Autre" otherwise. |
| LegacyEntry.LegacyCategoryPicks | src/add_new_expense.py:43-52 | Typing k gives category k for 1 ≤ k ≤ 14 and "Autre" for any other number. |
| LegacyEntry.LegacyDescription | src/add_new_expense.py:54 | The description has no comma, and holds every other character of the stripped answer as often as the answer does. |
| LegacyEntry.LegacyDescriptionInOrder | src/add_new_expense.py:54 | Deleting commas keeps the rest in order: for a stripped answer t + u, the description is t's remains followed by u's. |
| LegacyEntry.LegacyDescriptionJoined | src/add_new_expense.py:54 | A stripped answer made of comma-free pieces joined by commas is stored as those pieces glued together in order. |
| LegacyEntry.LegacyDescriptionKept | src/add_new_expense.py:54 | A clean description is kept unchanged. |
| LegacyEntry.LegacyLine | src/add_new_expense.py:58-59 | The appended text starts with a line break. |
| LegacyEntry.LegacyLineSplits | src/add_new_expense.py:59 | With comma-free date, description and amount, the line splits back into exactly the five fields. |
| LegacyEntry.AddNewExpense | src/add_new_expense.py:1-59 | The script writes a line iff all five answers were given. |
| LegacyEntry.AddNewExpenseSplits | src/add_new_expense.py:3-59 | With comma-free date and amount answers, the written line has five fields, a listed account and category, a comma-free description, and the amount as typed. |
| Monitor.MonitorTableSums | src/monthly_expenses_monitor.py:12-13 | An account's table is sorted by (month, category). It has exactly the occurring pairs, each with the sum of its amounts. |
| Monitor.MonitorKeys | src/monthly_expenses_monitor.py:7-13 | (month, category) is in the table iff some movement of the account has that month and category. |
| Monitor.OtherAccountIgnored | src/monthly_expenses_monitor.py:11-12 | A movement of any account other than "Personal" and "Shared" changes no output. |
| Monitor.MonitorPath | src/monthly_expenses_monitor.py:15-18 | A file name exists iff the month text names a month. |
| Monitor.MonitorPathOfDate | src/monthly_expenses_monitor.py:15-17 | A row's month gives "Summary/<Month>_<Year>_summary_<account in lower case>.csv". |
| Monitor.AccountOutputs | src/monthly_expenses_monitor.py:14-18 | One file is written per distinct month of the account's table. |
| Monitor.AccountOutputsSplit | src/monthly_expenses_monitor.py:14-18 | Each file holds exactly its month's table rows, the months are distinct, and every table row is in the file of its month. |

## Left out

- Entry.ValidateAmount: reads only decimal numerals (an optional sign, digits, an optional fraction, with a decimal comma read as a point). Python's `float()` also accepts exponents ("1e3"), digit-group underscores ("1_000"), "inf", "nan" and non-ASCII digits. These are refused here. The source accepts "1e3" as 1000 and "inf" as infinity, and would write "inf" into the file. So `Entry.AddExpenseWellFormed` and `Store.AddExpenseAppends` hold only for amounts typed as decimal numerals.
- Numbers.ParseInt: refuses "1_0" and non-ASCII digits, which `int()` accepts. A menu answer of that form is asked again here.
- Numbers.RoundCents: rounds half up on the exact decimal value. `:.2f` rounds the binary float half to even. "-0" is written "-0.00" by the source and "0.00" here.
- Dates.MonthName: English month names as in the C locale. `strftime("%B")` follows the process locale.
- Dates.FormatDayFirst: pads the year to four digits. glibc's `%Y` does not pad years below 1000.
- Dates.ParseDayFirst: ASCII digits only. `strptime` also takes other Unicode digits.
- Budget.LoadInitialBudget: the budget is taken to be a JSON object of objects. Any other JSON value makes the source fail when it builds the categories, and the model does not represent that failure. A file that is not UTF-8 raises `UnicodeDecodeError`, which the source does not catch. The model treats it like an undecodable file, with no categories.
- Budget.Route: subcategory cells are text or blank. A blank cell is read by pandas as NaN, which is truthy and matches no subcategory name, so the row counts nowhere; the model's `Blank` case does the same. A subcategory column that pandas reads as numbers is not modelled.
- Budget.ExpensesByCategory: the file arrives as parsed rows. A date `pd.to_datetime` cannot read, which raises in the source, is not modelled.
- Insights.SpendingInsights: requires parsed dates. `pd.to_datetime` raises on an unreadable date before any insight is computed.
- Comparison.AccountColumns: states which accounts are columns, each once, but not their order. `pivot_table` sorts the columns; output layout is left out below.
- Grouping.SortDescSorted: ties in `sort_values` keep the group-by (ascending key) order. pandas' default sort does not promise any order for ties.
- Analyzer.LoadAllDataRows: the order of the history files is the `history` parameter. `glob` order is left to the file system.
- Store.InitializeFiles: models only files. Creating Expenses/, Summary/ and History/ always succeeds and is not represented. Whether budget/ exists is the `budgetDir` parameter.
- Amounts are exact reals throughout. Binary floating-point rounding in sums, means and percentages is not modelled.
- Output formatting (the printed tables, emojis, `round(2)` of the pivot, `to_csv` and `json.dump` layout and key order) is left out. The model states what is computed and to which file it goes.
- `generate_charts` (matplotlib and seaborn plotting), `show_menu` and the `main` menu loops of the three interactive scripts are left out. They only dispatch, print and draw.
- The readers' file paths differ from the writer's. The analyzer reads Expenses/expenses_working.txt and fixed_charges.csv, the monitor reads ../expenses_working.txt, and `BudgetTracker` reads expenses/expenses_working.csv (lower-case directory) and saves into summary/ rather than Summary/; the tracker writes Expenses/expenses_working.csv and budget/charges_fixes.csv. Each reader is given its file's rows as a parameter and `Budget.SummaryName` gives only the file name, so this mismatch is not modelled.
- The monitor reads an English-schema file (Date, Account, Category, Amount). It is modelled as its own record type, `Records.Movement`.
- The fixed-charges and history files are taken to have the live file's schema.
- Reading a file (`pd.read_csv`) is not modelled. Records arrive parsed, and the CSV layer is modelled only for the rows `add_expense` writes.

## Findings

| source | as written | input that shows it | evidently intended | confidence | as-written member | corrected member |
|---|---|---|---|---|---|---|
| src/budget_tracker.py:98-99 | The month prompt accepts any text `strptime(month, "%Y-%m")` accepts, including a one-digit month, and passes it on as typed. | "2024-1" is accepted, but every row's month text is "2024-01", so the summary "summary_all_2024-1.json" counts no row. | Pass the accepted month on as its "YYYY-MM" key. | high; not executed | Budget.MonthChoiceAsWritten, Budget.AsWrittenMonthMatchesNothing | Budget.MonthChoice, Budget.MonthChoiceKeepsItsMonth |
| src/expense_tracker.py:220-223 | The category loop iterates over the Series of amounts and unpacks each float into (category, amount), which raises `TypeError`. The overall total and `_save_monthly_summary` are never reached. | A live file with one row of account "Commun": `monthly_summary` stops with `TypeError` after printing that account's total. | Iterate over `category_summary['Montant'].items()`, printing each category with its amount and share. | high; not executed | Reports.AsWrittenFails, Reports.AsWrittenFailsOnOneRow | Reports.AccountSections, Reports.AccountSharesAddUp |

=== FILE: analyzer.dfy ===
/** `DataAnalyzer`: the combined expense data and the spending-trends report
    over a recent window. */
module Analyzer {
  import opened Options
  import opened Orders
  import opened Dates
  import opened Records
  import opened Grouping
  import opened Reports

  /** The rows of one file read, nothing when the file does not exist. */
  function Present(source: Option<seq<Expense>>): seq<Expense> {
    if source.Some? then source.value else []
  }

  /** The files that exist and hold rows, in the order they are read. */
  function NonEmpty(sources: seq<Option<seq<Expense>>>): (r: seq<seq<Expense>>)
    ensures forall i :: 0 <= i < |r| ==> |r[i]| > 0
  {
    if |sources| == 0 then []
    else
      var init := NonEmpty(sources[..|sources| - 1]);
      var s := Present(sources[|sources| - 1]);
      if |s| > 0 then init + [s] else init
  }

  /** The loaded tables' rows, one table after another. */
  function Concat(parts: seq<seq<Expense>>): seq<Expense> {
    if |parts| == 0 then [] else Concat(parts[..|parts| - 1]) + parts[|parts| - 1]
  }

  /** `load_all_data`: the live file, then the fixed charges, then each
      history file in the order the directory listing gives them; a file
      that is missing or empty is skipped, and with none left the result
      is empty. */
  function LoadAllData(live: Option<seq<Expense>>, fixed: Option<seq<Expense>>, history: seq<Option<seq<Expense>>>): seq<Expense> {
    Concat(NonEmpty([live, fixed] + history))
  }

  /** Every row of every existing file, in reading order: the reference the
      skipping of empty files is measured against. */
  function AllRows(sources: seq<Option<seq<Expense>>>): seq<Expense> {
    if |sources| == 0 then [] else AllRows(sources[..|sources| - 1]) + Present(sources[|sources| - 1])
  }

  /** Skipping empty files loses no row and adds none. */
  lemma {:induction false} NonEmptyKeepsRows(sources: seq<Option<seq<Expense>>>)
    ensures Concat(NonEmpty(sources)) == AllRows(sources)
    decreases |sources|
  {
    if |sources| > 0 {
      var init := sources[..|sources| - 1];
      var s := Present(sources[|sources| - 1]);
      NonEmptyKeepsRows(init);
      var ne := NonEmpty(init);
      if |s| > 0 {
        assert (ne + [s])[..|ne|] == ne;
      } else {
        assert AllRows(sources) == AllRows(init) + s;
        assert s == [];
        assert AllRows(init) + s == AllRows(init);
      }
    }
  }

  /** There is no data exactly when every file is missing or empty. */
  lemma {:induction false} AllRowsEmpty(sources: seq<Option<seq<Expense>>>)
    ensures |AllRows(sources)| == 0 <==> forall i :: 0 <= i < |sources| ==> |Present(sources[i])| == 0
    decreases |sources|
  {
    if |sources| > 0 {
      var init := sources[..|sources| - 1];
      AllRowsEmpty(init);
      assert forall i :: 0 <= i < |init| ==> init[i] == sources[i];
    }
  }

  /** The combined data is every row of every file, and it is empty exactly
      when no file holds a row. */
  lemma LoadAllDataRows(live: Option<seq<Expense>>, fixed: Option<seq<Expense>>, history: seq<Option<seq<Expense>>>)
    ensures LoadAllData(live, fixed, history) == AllRows([live, fixed] + history)
    ensures |LoadAllData(live, fixed, history)| == 0 <==>
            |Present(live)| == 0 && |Present(fixed)| == 0 && forall i :: 0 <= i < |history| ==> |Present(history[i])| == 0
  {
    var sources := [live, fixed] + history;
    NonEmptyKeepsRows(sources);
    AllRowsEmpty(sources);
    assert sources[0] == live && sources[1] == fixed;
    assert forall i :: 0 <= i < |history| ==> sources[i + 2] == history[i];
  }

  /** `date.toordinal()` of a parsed date; 0 for a month no date has. */
  function DayNumber(d: Date): int {
    if 1 <= d.month <= 12 then Ordinal(d) else 0
  }

  /** A date is in the window when it is not before the moment `30 * months`
      days before now: a parsed date stands for its midnight, and both sides are counted in
      microseconds. */
  predicate InWindow(d: Date, now: Moment, months: int) {
    DayNumber(d) * DayMicros >= (DayNumber(now.date) - 30 * months) * DayMicros + now.micros
  }

  /** The rows of the trend window. */
  function RecentWindow(rows: seq<Expense>, now: Moment, months: int): seq<Expense> {
    Filter(rows, (e: Expense) => InWindow(e.date, now, months))
  }

  /** The window, counted in days: a date is in it when it is after the
      cutoff day, or is the cutoff day itself and `now` is exactly
      midnight. */
  lemma InWindowDays(d: Date, now: Moment, months: int)
    requires IsMoment(now)
    ensures var cut := DayNumber(now.date) - 30 * months;
            InWindow(d, now, months) <==> DayNumber(d) > cut || (DayNumber(d) == cut && now.micros == 0)
  {
    var cut := DayNumber(now.date) - 30 * months;
    var x := DayNumber(d) - cut;
    assert DayNumber(d) * DayMicros - cut * DayMicros == x * DayMicros;
    if x >= 1 {
      assert x * DayMicros >= DayMicros;
    } else if x <= -1 {
      assert x * DayMicros <= -DayMicros;
    }
  }

  /** The window keeps exactly the rows dated after the cutoff day (or on
      it, at midnight). */
  lemma RecentWindowRows(rows: seq<Expense>, now: Moment, months: int)
    requires IsMoment(now)
    ensures var cut := DayNumber(now.date) - 30 * months;
            forall e :: e in RecentWindow(rows, now, months) <==>
              e in rows && (DayNumber(e.date) > cut || (DayNumber(e.date) == cut && now.micros == 0))
  {
    FilterMembers(rows, (e: Expense) => InWindow(e.date, now, months));
    forall e | e in rows {
      InWindowDays(e.date, now, months);
    }
  }

  /** Each row's ("YYYY-MM" month, amount). */
  function MonthPairs(rows: seq<Expense>): seq<(string, real)> {
    Pairs(rows, (e: Expense) => PeriodKey(e.date), (e: Expense) => e.amount)
  }

  /** Each row's (day, amount). */
  function DayPairs(rows: seq<Expense>): seq<(Date, real)> {
    Pairs(rows, (e: Expense) => e.date, (e: Expense) => e.amount)
  }

  /** The days with expenses, earliest first, each with its total. */
  function DailyTotals(rows: seq<Expense>): seq<(Date, real)> {
    GroupSum(DayPairs(rows), DateLess)
  }

  /** Each value as a percentage of the list's total; none when the total
      is 0 (pandas divides to NaN or infinity there). */
  function PercentOfTotal(al: seq<(string, real)>): (r: Option<seq<(string, real)>>)
    ensures r.Some? <==> Total(al) != 0.0
    ensures r.Some? ==> |r.value| == |al| && forall i :: 0 <= i < |al| ==> r.value[i] == (al[i].0, al[i].1 / Total(al) * 100.0)
  {
    if Total(al) == 0.0 then None else Some(Shares(al, Total(al)))
  }

  datatype Trends = Trends(
    monthly: seq<(string, real)>,
    dailyAverage: real,
    top: seq<(string, real)>,
    topPercents: Option<seq<(string, real)>>,
    accounts: seq<(string, real)>,
    accountPercents: Option<seq<(string, real)>>)

  /** What `spending_trends` reports: no data at all, a cutoff instant
      `datetime` cannot hold (the subtraction raises `OverflowError`),
      nothing in the window, or the figures. */
  datatype TrendReport = NoData | Overflow | NoRecentData | TrendFigures(trends: Trends)

  /** The day number of 9999-12-31, the last day `datetime` can hold. */
  const MaxOrdinal: int := 3_652_059

  lemma MaxOrdinalIsLastDay()
    ensures Ordinal(Date(9999, 12, 31)) == MaxOrdinal && IsRealDate(Date(9999, 12, 31))
  {
  }

  /** `now - timedelta(days=30 * months)` is a `datetime`: its day lies
      between 0001-01-01 and 9999-12-31. */
  predicate CutoffInRange(now: Moment, months: int) {
    1 <= DayNumber(now.date) - 30 * months <= MaxOrdinal
  }

  /** The mean of the daily totals. */
  function DailyMean(recent: seq<Expense>): real
    requires |recent| > 0
  {
    var daily := DailyTotals(recent);
    GroupSumKeys(DayPairs(recent), DateLess);
    assert DayPairs(recent)[0].0 in KeysOf(daily);
    Mean(Total(daily), |daily|)
  }

  /** Each account that occurs with the sum of its amounts, largest sum
      first. */
  function AccountBreakdown(rows: seq<Expense>): seq<(string, real)> {
    SortDesc(GroupSum(AccountPairs(rows), StrLess), Value)
  }

  /** The first five categories of the breakdown. */
  function TopFive(recent: seq<Expense>): seq<(string, real)> {
    Head(CategoryBreakdown(recent), 5)
  }

  /** Their shares of the sum over all categories. */
  function TopFivePercents(recent: seq<Expense>): Option<seq<(string, real)>> {
    var all := PercentOfTotal(CategoryBreakdown(recent));
    if all.Some? then Some(Head(all.value, 5)) else None
  }

  /** The figures of a non-empty window. */
  function TrendsOf(recent: seq<Expense>): Trends
    requires |recent| > 0
  {
    Trends(
      GroupSum(MonthPairs(recent), StrLess),
      DailyMean(recent),
      TopFive(recent),
      TopFivePercents(recent),
      AccountBreakdown(recent),
      PercentOfTotal(AccountBreakdown(recent)))
  }

  /** `spending_trends(months)` at the instant `now`: the monthly totals in
      month order, the mean of the daily totals, the five largest
      categories with their share of all categories, and every account,
      largest first, with its share. */
  function SpendingTrends(rows: seq<Expense>, now: Moment, months: int): (r: TrendReport)
    ensures r == NoData <==> |rows| == 0
    ensures r == Overflow <==> |rows| > 0 && !CutoffInRange(now, months)
    ensures r == NoRecentData <==> |rows| > 0 && CutoffInRange(now, months) && |RecentWindow(rows, now, months)| == 0
    ensures r.TrendFigures? ==> |RecentWindow(rows, now, months)| > 0 && r.trends == TrendsOf(RecentWindow(rows, now, months))
  {
    var recent := RecentWindow(rows, now, months);
    if |rows| == 0 then NoData
    else if !CutoffInRange(now, months) then Overflow
    else if |recent| == 0 then NoRecentData
    else TrendFigures(TrendsOf(recent))
  }

  /** Month keys of real dates sort as the months do. */
  lemma PeriodKeyChronological(a: Date, b: Date)
    requires IsRealDate(a) && IsRealDate(b)
    ensures StrLess(PeriodKey(a), PeriodKey(b)) <==> a.year < b.year || (a.year == b.year && a.month < b.month)
  {
    MonthKeyChronological(a.year, a.month, b.year, b.month);
  }

  /** The monthly totals: one entry per month with rows in the window, in
      increasing month order, each the sum of that month's amounts. */
  lemma MonthlyTotals(recent: seq<Expense>)
    requires |recent| > 0
    ensures var m := TrendsOf(recent).monthly;
            KeySorted(m, StrLess) && KeysOf(m) == KeysOf(MonthPairs(recent)) &&
            forall i :: 0 <= i < |m| ==> m[i].1 == SumFor(MonthPairs(recent), m[i].0)
  {
    var ps := MonthPairs(recent);
    StrLessIsStrictTotalOrder();
    GroupSumSorted(ps, StrLess);
    GroupSumKeys(ps, StrLess);
    GroupSumEntries(ps, StrLess);
  }

  /** The daily average is the window's total spread over the days that
      have expenses, each such day counted once. */
  lemma DailyAverage(recent: seq<Expense>)
    requires |recent| > 0
    ensures |KeysOf(DayPairs(recent))| > 0
    ensures DailyMean(recent) == Mean(Total(DayPairs(recent)), |KeysOf(DayPairs(recent))|)
  {
    var ps := DayPairs(recent);
    DateLessIsStrictTotalOrder();
    GroupSumCount(ps, DateLess);
    assert ps[0].0 in KeysOf(ps);
  }

  /** The five largest categories (all of them when there are fewer), each
      once, largest first, each with its sum; a category larger than a
      listed one is listed too. Each share is of the sum over all
      categories, which is the window's total. */
  lemma TopCategories(recent: seq<Expense>)
    ensures var top := TopFive(recent);
            var ps := CategoryPairs(recent);
            |top| == (if 5 < |KeysOf(ps)| then 5 else |KeysOf(ps)|) && Descending(top, Value) &&
            (forall i, j :: 0 <= i < j < |top| ==> top[i].0 != top[j].0) &&
            (forall i :: 0 <= i < |top| ==> top[i].1 == SumFor(ps, top[i].0)) &&
            (forall c, j :: c in KeysOf(ps) && 0 <= j < |top| && SumFor(ps, c) > top[j].1 ==>
               exists i :: 0 <= i < |top| && top[i].0 == c)
    ensures Total(CategoryPairs(recent)) == 0.0 ==> TopFivePercents(recent).None?
    ensures Total(CategoryPairs(recent)) != 0.0 ==>
              TopFivePercents(recent) == Some(Shares(TopFive(recent), Total(CategoryPairs(recent))))
  {
    var cats := CategoryBreakdown(recent);
    StrLessIsStrictTotalOrder();
    ByValueEntries(CategoryPairs(recent), StrLess);
    ByValueTop(CategoryPairs(recent), StrLess, 5);
    if Total(cats) != 0.0 {
      HeadShares(cats, Total(cats), 5);
    }
  }

  /** The account shares are of the sum of the account totals, so they add
      up to 100 percent. */
  lemma AccountSharesTotal(recent: seq<Expense>)
    requires PercentOfTotal(AccountBreakdown(recent)).Some?
    ensures Total(PercentOfTotal(AccountBreakdown(recent)).value) == 100.0
  {
    var a := AccountBreakdown(recent);
    TotalShares(a, Total(a));
  }
}

=== FILE: budget.dfy ===
/** `BudgetTracker`: the category taxonomy read from the initial budget, the
    category/subcategory spending grid, the summary file name, and the
    month prompt of the menu. */
module Budget {
  import opened Options
  import opened Text
  import opened Dates
  import opened Records
  import opened Grouping
  import opened Reports

  /** The initial budget file: missing, not valid JSON, or an object whose
      members map each category name to an object whose member names are
      that category's subcategories (the amounts in it are not used). */
  datatype BudgetFile = Missing | Undecodable | Decoded(members: seq<(string, seq<string>)>)

  /** `_load_initial_budget`: the decoded members, or none at all when the
      file is missing or undecodable. */
  function LoadInitialBudget(f: BudgetFile): (r: seq<(string, seq<string>)>)
    ensures f.Decoded? ==> r == f.members
    ensures !f.Decoded? ==> r == []
  {
    if f.Decoded? then f.members else []
  }

  /** A category's members as `json.load` keeps them: the last member with
      that name wins. */
  function LastValue(members: seq<(string, seq<string>)>, c: string): seq<string> {
    if |members| == 0 then []
    else if members[|members| - 1].0 == c then members[|members| - 1].1
    else LastValue(members[..|members| - 1], c)
  }

  /** The member names in file order; `list(d.keys())` is their `Unique`. */
  function MemberNames(members: seq<(string, seq<string>)>): seq<string> {
    seq(|members|, i requires 0 <= i < |members| => members[i].0)
  }

  /** `self.categories`, `self.subcategories`: the grid's shape, each
      category with the set of its subcategory names. */
  function Shape(members: seq<(string, seq<string>)>): (shape: map<string, set<string>>)
    ensures forall c :: c in shape <==> exists i :: 0 <= i < |members| && members[i].0 == c
  {
    var cats := Unique(MemberNames(members));
    assert forall c :: c in cats <==> c in MemberNames(members);
    assert forall c :: c in MemberNames(members) <==> exists i :: 0 <= i < |members| && members[i].0 == c by {
      forall c | c in MemberNames(members) ensures exists i :: 0 <= i < |members| && members[i].0 == c {
        var i :| 0 <= i < |members| && MemberNames(members)[i] == c;
        assert members[i].0 == c;
      }
      forall c | exists i :: 0 <= i < |members| && members[i].0 == c ensures c in MemberNames(members) {
        var i :| 0 <= i < |members| && members[i].0 == c;
        assert MemberNames(members)[i] == c;
      }
    }
    map c | c in cats :: (set s | s in Unique(LastValue(members, c)))
  }

  /** A missing or undecodable budget has no categories. */
  lemma NoBudgetNoCategories(f: BudgetFile)
    requires !f.Decoded?
    ensures Shape(LoadInitialBudget(f)) == map[]
  {
  }

  /** Each category's subcategories are the member names of its (last)
      object. */
  lemma ShapeSubcategories(members: seq<(string, seq<string>)>, c: string)
    requires c in Shape(members)
    ensures forall s :: s in Shape(members)[c] <==> s in LastValue(members, c)
  {
  }

  type Grid = map<string, map<string, real>>

  /** The grid before any row: every cell of the shape at 0. */
  function ZeroGrid(shape: map<string, set<string>>): (g: Grid)
    ensures g.Keys == shape.Keys
    ensures forall c :: c in g ==> g[c].Keys == shape[c] && forall s :: s in g[c] ==> g[c][s] == 0.0
  {
    map c | c in shape :: map s | s in shape[c] :: 0.0
  }

  /** The cell a row is counted in: its subcategory when that is listed
      under its category, the category's "autre" cell when the file has no
      subcategory column, and nowhere otherwise (an unknown category, an
      unlisted subcategory, or a blank cell, which pandas reads as NaN). */
  function Route(shape: map<string, set<string>>, e: Expense): (r: Option<(string, string)>)
    ensures r.Some? ==> r.value.0 in shape && r.value.1 in shape[r.value.0]
    ensures e.category !in shape ==> r == None
  {
    if e.category !in shape then None
    else
      match e.subcategory
      case Named(s) => if s != "" && s in shape[e.category] then Some((e.category, s)) else None
      case NoColumn => if "autre" in shape[e.category] then Some((e.category, "autre")) else None
      case Blank => None
  }

  /** The body of the row loop: the row's amount added to its cell. */
  function AddRow(shape: map<string, set<string>>, g: Grid, e: Expense): Grid
    requires g.Keys == shape.Keys && forall c :: c in g ==> g[c].Keys == shape[c]
  {
    match Route(shape, e)
    case None => g
    case Some((c, s)) => g[c := g[c][s := g[c][s] + e.amount]]
  }

  /** The loop over the rows, in file order. */
  function SumRows(shape: map<string, set<string>>, rows: seq<Expense>): (g: Grid)
    ensures g.Keys == shape.Keys && forall c :: c in g ==> g[c].Keys == shape[c]
  {
    if |rows| == 0 then ZeroGrid(shape)
    else AddRow(shape, SumRows(shape, rows[..|rows| - 1]), rows[|rows| - 1])
  }

  /** The amounts of the rows routed to cell (c, s): the reference meaning
      of a grid cell. */
  function CellSum(shape: map<string, set<string>>, rows: seq<Expense>, c: string, s: string): real {
    if |rows| == 0 then 0.0
    else
      var last := rows[|rows| - 1];
      CellSum(shape, rows[..|rows| - 1], c, s) + (if Route(shape, last) == Some((c, s)) then last.amount else 0.0)
  }

  /** Every cell holds the sum of the rows routed to it. */
  lemma {:induction false} SumRowsCells(shape: map<string, set<string>>, rows: seq<Expense>)
    ensures forall c, s :: c in shape && s in shape[c] ==> SumRows(shape, rows)[c][s] == CellSum(shape, rows, c, s)
    decreases |rows|
  {
    if |rows| > 0 {
      SumRowsCells(shape, rows[..|rows| - 1]);
    }
  }

  /** A row of an unknown category changes nothing. */
  lemma UnknownCategoryIgnored(shape: map<string, set<string>>, rows: seq<Expense>, e: Expense)
    requires e.category !in shape
    ensures SumRows(shape, rows + [e]) == SumRows(shape, rows)
  {
    assert (rows + [e])[..|rows|] == rows;
  }

  /** A row with a listed subcategory adds its amount to that one cell and
      to no other. */
  lemma ListedSubcategoryCell(shape: map<string, set<string>>, rows: seq<Expense>, e: Expense, s: string)
    requires e.category in shape && e.subcategory == Named(s) && s != "" && s in shape[e.category]
    ensures forall c, t :: c in shape && t in shape[c] ==>
              SumRows(shape, rows + [e])[c][t] == SumRows(shape, rows)[c][t] + (if (c, t) == (e.category, s) then e.amount else 0.0)
  {
    assert (rows + [e])[..|rows|] == rows;
  }

  /** Without a subcategory column a row goes to "autre" when its category
      has that cell, and is dropped when it has not. */
  lemma NoColumnGoesToAutre(shape: map<string, set<string>>, rows: seq<Expense>, e: Expense)
    requires e.category in shape && e.subcategory == NoColumn
    ensures "autre" in shape[e.category] ==>
              SumRows(shape, rows + [e])[e.category]["autre"] == SumRows(shape, rows)[e.category]["autre"] + e.amount
    ensures "autre" !in shape[e.category] ==> SumRows(shape, rows + [e]) == SumRows(shape, rows)
  {
    assert (rows + [e])[..|rows|] == rows;
  }

  /** The month filter: `Month == month`, skipped when `month` is empty. */
  function MonthFilter(rows: seq<Expense>, month: string): seq<Expense> {
    if month == "" then rows else Filter(rows, (e: Expense) => PeriodKey(e.date) == month)
  }

  /** The account filter: `Compte == account`, skipped when `account` is
      empty. */
  function AccountFilter(rows: seq<Expense>, account: string): seq<Expense> {
    if account == "" then rows else Filter(rows, (e: Expense) => e.account == account)
  }

  /** `get_expenses_by_category`: no grid at all (`{}`) without a file or
      without rows; otherwise the filtered rows summed into the zero grid.
      An empty `account` or `month` stands for Python's `None` and `""`,
      both of which skip their filter. */
  function ExpensesByCategory(shape: map<string, set<string>>, live: Option<seq<Expense>>, account: string, month: string): (g: Grid)
    ensures live.None? || |live.value| == 0 ==> g == map[]
    ensures live.Some? && |live.value| > 0 ==> g.Keys == shape.Keys && forall c :: c in g ==> g[c].Keys == shape[c]
  {
    match live
    case None => map[]
    case Some(rows) =>
      if |rows| == 0 then map[]
      else SumRows(shape, AccountFilter(MonthFilter(rows, month), account))
  }

  /** The rows a grid counts are exactly those of the month and account. */
  lemma FiltersKeepExactly(rows: seq<Expense>, account: string, month: string)
    ensures forall e :: e in AccountFilter(MonthFilter(rows, month), account) <==>
              e in rows && (month == "" || PeriodKey(e.date) == month) && (account == "" || e.account == account)
  {
    FilterMembers(rows, (e: Expense) => PeriodKey(e.date) == month);
    FilterMembers(MonthFilter(rows, month), (e: Expense) => e.account == account);
  }

  /** The summary file name: "summary_", the account (or "all"), "_", the
      month and ".json". */
  function SummaryName(account: string, month: string): string {
    "summary_" + (if account == "" then "all" else account) + "_" + month + ".json"
  }

  /** The month `save_expenses_summary` reports on: the one given, or the
      current one. */
  function SummaryMonth(month: Option<string>, today: Date): string
    requires IsRealDate(today)
  {
    if month.None? then MonthKey(today) else month.value
  }

  /** `save_expenses_summary`: the month defaults to the current one (and is
      then also the filter), and the grid is saved under the summary name.
      With live rows, every cell of the saved grid holds the amounts of the
      month's and the account's rows routed to it; otherwise the grid is
      empty. */
  function SaveExpensesSummary(shape: map<string, set<string>>, live: Option<seq<Expense>>, account: string, month: Option<string>, today: Date): (out: (string, Grid))
    requires IsRealDate(today)
    ensures out.0 == SummaryName(account, SummaryMonth(month, today))
    ensures live.None? || |live.value| == 0 ==> out.1 == map[]
    ensures live.Some? && |live.value| > 0 ==>
              out.1.Keys == shape.Keys &&
              forall c, s :: c in shape && s in shape[c] ==>
                s in out.1[c] &&
                out.1[c][s] == CellSum(shape, AccountFilter(MonthFilter(live.value, SummaryMonth(month, today)), account), c, s)
  {
    var current := SummaryMonth(month, today);
    var rows := if live.Some? then live.value else [];
    SumRowsCells(shape, AccountFilter(MonthFilter(rows, current), account));
    (SummaryName(account, current), ExpensesByCategory(shape, live, account, current))
  }

  /** Without a month, the summary counts exactly the rows of the current
      calendar month (and of the account, when one is given). */
  lemma SummaryCountsCurrentMonth(rows: seq<Expense>, account: string, today: Date)
    requires IsRealDate(today) && ParsedDates(rows)
    ensures forall e :: e in AccountFilter(MonthFilter(rows, SummaryMonth(None, today)), account) <==>
              e in rows && e.date.year == today.year && e.date.month == today.month &&
              (account == "" || e.account == account)
  {
    var m := SummaryMonth(None, today);
    assert m != "" by {
      assert |MonthKeyOf(today.year, today.month)| == 7;
    }
    FiltersKeepExactly(rows, account, m);
    forall e | e in rows
      ensures PeriodKey(e.date) == m <==> e.date.year == today.year && e.date.month == today.month
    {
      var i :| 0 <= i < |rows| && rows[i] == e;
      assert IsRealDate(rows[i].date);
      MonthKeyInjective(e.date.year, e.date.month, today.year, today.month);
    }
  }

  /** The menu's month prompt as written: a blank answer or one
      `strptime(month, "%Y-%m")` refuses means the current month (`None`);
      an accepted answer is passed on exactly as typed. */
  function MonthChoiceAsWritten(answer: string): (r: Option<string>)
    ensures r.Some? ==> ParseYearMonth(Strip(answer)).Some? && r.value == Strip(answer)
    ensures Strip(answer) == "" ==> r == None
  {
    var m := Strip(answer);
    if m == "" then None
    else if ParseYearMonth(m).Some? then Some(m)
    else None
  }

  /** The month prompt corrected: an accepted answer is passed on as the
      "YYYY-MM" key of the month it names, the form the Month column has. */
  function MonthChoice(answer: string): (r: Option<string>)
    ensures r.Some? ==> exists y, m :: 1 <= y <= 9999 && 1 <= m <= 12 && r.value == MonthKeyOf(y, m)
    ensures Strip(answer) == "" ==> r == None
  {
    var m := Strip(answer);
    if m == "" then None
    else
      match ParseYearMonth(m)
      case Some((y, mo)) => Some(MonthKeyOf(y, mo))
      case None => None
  }

  /** strptime accepts a one-digit month: "2024-1" names January 2024. */
  lemma OneDigitMonthAccepted()
    ensures ParseYearMonth("2024-1") == Some((2024, 1))
  {
    var yy, mm := "2024", "1";
    assert DigitsValue(yy) == 2024 by {
      assert DigitsValue("") == 0;
      assert "2"[..0] == "" && DigitsValue("2") == 2;
      assert "20"[..1] == "2" && DigitsValue("20") == 20;
      assert "202"[..2] == "20" && DigitsValue("202") == 202;
      assert yy[..3] == "202";
    }
    assert DigitsValue(mm) == 1 by {
      assert mm[..0] == "";
    }
    assert '-' !in yy && '-' !in mm;
    JoinTwo(yy, mm, '-');
    assert yy + ['-'] + mm == "2024-1";
    SplitJoin([yy, mm], '-');
  }

  /** As written, choosing "2024-1" sets the month filter to "2024-1", which
      no row's month key equals: a January 2024 expense is not counted. */
  lemma AsWrittenMonthMatchesNothing(d: Date)
    requires IsRealDate(d)
    ensures MonthChoiceAsWritten("2024-1") == Some("2024-1")
    ensures PeriodKey(d) != "2024-1"
  {
    OneDigitMonthAccepted();
    assert IsStripped("2024-1");
    StripStripped("2024-1");
  }

  /** Corrected, the filter keeps exactly the rows of the month the answer
      names, however it was typed. */
  lemma MonthChoiceKeepsItsMonth(answer: string, d: Date)
    requires IsRealDate(d) && ParseYearMonth(Strip(answer)).Some?
    ensures var ym := ParseYearMonth(Strip(answer)).value;
            MonthChoice(answer).Some? &&
            (PeriodKey(d) == MonthChoice(answer).value <==> d.year == ym.0 && d.month == ym.1)
  {
    var ym := ParseYearMonth(Strip(answer)).value;
    MonthKeyInjective(d.year, d.month, ym.0, ym.1);
  }
}

=== FILE: comparison.dfy ===
/** `DataAnalyzer.account_comparison`: each account's total, largest first,
    and the category-by-account table of sums with empty cells at 0. */
module Comparison {
  import opened Options
  import opened Orders
  import opened Records
  import opened Grouping
  import opened Reports
  import opened Analyzer

  /** A category-by-account table: one row per category, one column per
      account. */
  type Pivot = map<string, map<string, real>>

  predicate IsCategory(c: string, e: Expense) {
    e.category == c
  }

  /** The rows of one category, in their order. */
  function CategoryRows(rows: seq<Expense>, c: string): seq<Expense> {
    Filter(rows, (e: Expense) => IsCategory(c, e))
  }

  /** Each row's ((category, account), amount): the cell it falls in. */
  function CellPairs(rows: seq<Expense>): seq<((string, string), real)> {
    Pairs(rows, (e: Expense) => (e.category, e.account), (e: Expense) => e.amount)
  }

  /** The pivot table of the amounts summed by category and account, with
      `fill_value=0`: a row for every category that occurs and, in every
      row, a column for every account that occurs. A cell is the account's
      sum within the category's rows. */
  function AccountPivot(rows: seq<Expense>): (p: Pivot)
    ensures p.Keys == KeysOf(CategoryPairs(rows))
    ensures forall c :: c in p ==> p[c].Keys == KeysOf(AccountPairs(rows))
  {
    map c | c in KeysOf(CategoryPairs(rows)) ::
      map a | a in KeysOf(AccountPairs(rows)) :: Lookup(GroupSum(AccountPairs(CategoryRows(rows, c)), StrLess), a)
  }

  /** What `account_comparison` shows: the account totals, largest first,
      and the pivot table. */
  datatype AccountReport = AccountReport(totals: seq<(string, real)>, pivot: Pivot)

  /** `account_comparison`: nothing without data. */
  function AccountComparison(rows: seq<Expense>): (r: Option<AccountReport>)
    ensures r.None? <==> |rows| == 0
  {
    if |rows| == 0 then None else Some(AccountReport(AccountBreakdown(rows), AccountPivot(rows)))
  }

  /** The account totals: every account that occurs once, largest first,
      each the sum of that account's amounts. */
  lemma AccountTotals(rows: seq<Expense>)
    ensures var t := AccountBreakdown(rows);
            Descending(t, Value) &&
            (forall i, j :: 0 <= i < j < |t| ==> t[i].0 != t[j].0) &&
            (forall i :: 0 <= i < |t| ==> t[i].1 == AccountTotal(rows, t[i].0)) &&
            (forall a :: a in KeysOf(AccountPairs(rows)) <==> exists i :: 0 <= i < |t| && t[i].0 == a)
  {
    var t := AccountBreakdown(rows);
    StrLessIsStrictTotalOrder();
    ByValueEntries(AccountPairs(rows), StrLess);
    ByValueDistinct(AccountPairs(rows), StrLess);
    forall i | 0 <= i < |t| ensures t[i].1 == AccountTotal(rows, t[i].0) {
      AccountTotalIsSum(rows, t[i].0);
    }
  }

  /** Every cell is the sum of the amounts of the rows of that category and
      that account, and 0 when there is no such row. */
  lemma PivotCells(rows: seq<Expense>, c: string, a: string)
    requires c in KeysOf(CategoryPairs(rows)) && a in KeysOf(AccountPairs(rows))
    ensures AccountPivot(rows)[c][a] == SumFor(CellPairs(rows), (c, a))
    ensures (forall i :: 0 <= i < |rows| ==> rows[i].category != c || rows[i].account != a) ==>
              AccountPivot(rows)[c][a] == 0.0
  {
    var qs := AccountPairs(CategoryRows(rows, c));
    StrLessIsStrictTotalOrder();
    GroupSumLookup(qs, StrLess);
    FilterSum(rows, (e: Expense) => IsCategory(c, e), (e: Expense) => e.account, a,
              (e: Expense) => (e.category, e.account), (c, a), (e: Expense) => e.amount);
    if forall i :: 0 <= i < |rows| ==> rows[i].category != c || rows[i].account != a {
      assert (c, a) !in KeysOf(CellPairs(rows));
      SumForAbsent(CellPairs(rows), (c, a));
    }
  }

  /** The accounts that occur, each once: the pivot's columns. `pivot_table`
      sorts them; their order is not stated here. */
  function AccountColumns(rows: seq<Expense>): (cols: seq<string>)
    ensures Distinct(cols)
    ensures forall a :: a in cols <==> a in KeysOf(AccountPairs(rows))
  {
    var names := seq(|rows|, i requires 0 <= i < |rows| => rows[i].account);
    assert forall a :: a in names <==> a in KeysOf(AccountPairs(rows)) by {
      forall a | a in KeysOf(AccountPairs(rows)) ensures a in names {
        var i :| 0 <= i < |rows| && AccountPairs(rows)[i].0 == a;
        assert names[i] == a;
      }
    }
    Unique(names)
  }

  /** A pivot row added up across the columns `cols`. */
  function RowSum(row: map<string, real>, cols: seq<string>): real {
    if |cols| == 0 then 0.0
    else RowSum(row, cols[..|cols| - 1]) + (if cols[|cols| - 1] in row then row[cols[|cols| - 1]] else 0.0)
  }

  /** A row whose cells are the per-key sums of `qs` adds up to those sums. */
  lemma {:induction false} RowSumOfSums(row: map<string, real>, qs: seq<(string, real)>, cols: seq<string>)
    requires forall i :: 0 <= i < |cols| ==> cols[i] in row && row[cols[i]] == SumFor(qs, cols[i])
    ensures RowSum(row, cols) == SumOverKeys(qs, cols)
    decreases |cols|
  {
    if |cols| > 0 {
      RowSumOfSums(row, qs, cols[..|cols| - 1]);
    }
  }

  /** The accounts of one category's rows are among the pivot's columns. */
  lemma CategoryAccountsAreColumns(rows: seq<Expense>, c: string)
    ensures var qs := AccountPairs(CategoryRows(rows, c));
            forall i :: 0 <= i < |qs| ==> qs[i].0 in AccountColumns(rows)
  {
    var cr := CategoryRows(rows, c);
    var qs := AccountPairs(cr);
    FilterMembers(rows, (e: Expense) => IsCategory(c, e));
    forall i | 0 <= i < |qs| ensures qs[i].0 in AccountColumns(rows) {
      assert cr[i] in rows;
      var j :| 0 <= j < |rows| && rows[j] == cr[i];
      assert AccountPairs(rows)[j].0 == qs[i].0;
    }
  }

  /** A pivot row, added up across the columns, is the total of the
      category's rows. */
  lemma PivotRowIsCategoryTotal(rows: seq<Expense>, c: string)
    requires c in KeysOf(CategoryPairs(rows))
    ensures RowSum(AccountPivot(rows)[c], AccountColumns(rows)) == Total(AccountPairs(CategoryRows(rows, c)))
  {
    var p := AccountPivot(rows);
    var cols := AccountColumns(rows);
    var qs := AccountPairs(CategoryRows(rows, c));
    StrLessIsStrictTotalOrder();
    GroupSumLookup(qs, StrLess);
    assert forall i :: 0 <= i < |cols| ==> cols[i] in p[c] && p[c][cols[i]] == SumFor(qs, cols[i]);
    RowSumOfSums(p[c], qs, cols);
    CategoryAccountsAreColumns(rows, c);
    TotalByKeys(qs, cols);
  }

  /** Each pivot row adds up, across all accounts, to its category's total:
      no amount is lost or counted twice. */
  lemma PivotRowSum(rows: seq<Expense>, c: string)
    requires c in KeysOf(CategoryPairs(rows))
    ensures RowSum(AccountPivot(rows)[c], AccountColumns(rows)) == SumFor(CategoryPairs(rows), c)
  {
    PivotRowIsCategoryTotal(rows, c);
    FilterTotal(rows, (e: Expense) => IsCategory(c, e), (e: Expense) => e.account,
                (e: Expense) => e.category, c, (e: Expense) => e.amount);
  }
}

=== FILE: csv_row.dfy ===
/** One line of a CSV file as Python's `csv.writer` writes it (comma
    delimiter, '"' quote character, doubled quotes, QUOTE_MINIMAL, "\r\n"
    terminator), and the reading that splits it back into fields. */
module CsvRow {
  import opened Text

  /** QUOTE_MINIMAL quotes a field holding the delimiter, the quote
      character or a line break. */
  predicate NeedsQuotes(f: string) {
    ',' in f || '"' in f || '\r' in f || '\n' in f
  }

  /** Every '"' written twice. */
  function DoubleQuotes(f: string): (r: string)
    ensures forall c :: c in r <==> c in f
  {
    if |f| == 0 then ""
    else (if f[0] == '"' then "\"\"" else [f[0]]) + DoubleQuotes(f[1..])
  }

  /** Every '""' read as one '"'. */
  function UndoubleQuotes(g: string): string {
    if |g| == 0 then ""
    else if |g| >= 2 && g[0] == '"' && g[1] == '"' then "\"" + UndoubleQuotes(g[2..])
    else [g[0]] + UndoubleQuotes(g[1..])
  }

  lemma {:induction false} UndoubleDouble(f: string)
    ensures UndoubleQuotes(DoubleQuotes(f)) == f
    decreases |f|
  {
    if |f| > 0 {
      UndoubleDouble(f[1..]);
      var g := DoubleQuotes(f);
      if f[0] == '"' {
        assert g[2..] == DoubleQuotes(f[1..]);
      } else {
        assert g[1..] == DoubleQuotes(f[1..]);
      }
      assert f == [f[0]] + f[1..];
    }
  }

  function EncodeField(f: string): (g: string)
    ensures ',' in g <==> ',' in f
  {
    if NeedsQuotes(f) then "\"" + DoubleQuotes(f) + "\"" else f
  }

  function DecodeField(g: string): string {
    if |g| >= 2 && g[0] == '"' && g[|g| - 1] == '"' then UndoubleQuotes(g[1..|g| - 1]) else g
  }

  lemma FieldRoundTrip(f: string)
    ensures DecodeField(EncodeField(f)) == f
  {
    if NeedsQuotes(f) {
      var g := EncodeField(f);
      assert g[1..|g| - 1] == DoubleQuotes(f);
      UndoubleDouble(f);
    } else if |f| >= 2 {
      assert f[0] != '"';
    }
  }

  function EncodeAll(fields: seq<string>): (gs: seq<string>)
    ensures |gs| == |fields|
    ensures forall i :: 0 <= i < |fields| ==> gs[i] == EncodeField(fields[i])
  {
    if |fields| == 0 then [] else [EncodeField(fields[0])] + EncodeAll(fields[1..])
  }

  function DecodeAll(gs: seq<string>): (fields: seq<string>)
    ensures |fields| == |gs|
    ensures forall i :: 0 <= i < |gs| ==> fields[i] == DecodeField(gs[i])
  {
    if |gs| == 0 then [] else [DecodeField(gs[0])] + DecodeAll(gs[1..])
  }

  const Terminator: string := "\r\n"

  /** `csv.writer(f).writerow(fields)`: what one call appends to the file. */
  function FormatLine(fields: seq<string>): string {
    Join(EncodeAll(fields), ',') + Terminator
  }

  /** One line read back: terminator dropped, cut at every comma, quotes
      undone. */
  function ParseLine(line: string): seq<string> {
    var body := if |line| >= 2 && line[|line| - 2..] == Terminator then line[..|line| - 2] else line;
    DecodeAll(Split(body, ','))
  }

  predicate CommaFree(fields: seq<string>) {
    forall i :: 0 <= i < |fields| ==> ',' !in fields[i]
  }

  /** A written line whose fields hold no comma splits back into exactly
      those fields: as many pieces as fields, each piece the field. */
  lemma LineRoundTrip(fields: seq<string>)
    requires |fields| >= 1 && CommaFree(fields)
    ensures |Split(FormatLine(fields)[..|FormatLine(fields)| - 2], ',')| == |fields|
    ensures ParseLine(FormatLine(fields)) == fields
  {
    var gs := EncodeAll(fields);
    var line := FormatLine(fields);
    assert line[..|line| - 2] == Join(gs, ',');
    assert line[|line| - 2..] == Terminator;
    SplitJoin(gs, ',');
    forall i | 0 <= i < |fields| ensures DecodeField(gs[i]) == fields[i] {
      FieldRoundTrip(fields[i]);
    }
  }
}

=== FILE: dates.dfy ===
/** Calendar dates as the scripts see them: `strptime` with "%d/%m/%Y" and
    "%Y-%m", `strftime`, pandas' month periods ("YYYY-MM") and day arithmetic. */
module Dates {
  import opened Options
  import opened Text
  import opened Orders

  datatype Date = Date(year: int, month: int, day: int)

  /** The current instant: a date and the microseconds elapsed since its
      midnight, standing in for `datetime.now()`. */
  datatype Moment = Moment(date: Date, micros: int)

  const DayMicros: int := 86_400_000_000

  predicate IsLeapYear(y: int) {
    y % 4 == 0 && (y % 100 != 0 || y % 400 == 0)
  }

  function DaysInMonth(y: int, m: int): int
    requires 1 <= m <= 12
  {
    if m == 2 then (if IsLeapYear(y) then 29 else 28)
    else if m == 4 || m == 6 || m == 9 || m == 11 then 30
    else 31
  }

  /** A date Python's `datetime` can hold: years 1 to 9999, a real month and
      a day that month has. */
  predicate IsRealDate(d: Date) {
    1 <= d.year <= 9999 && 1 <= d.month <= 12 && 1 <= d.day <= DaysInMonth(d.year, d.month)
  }

  predicate IsMoment(now: Moment) {
    IsRealDate(now.date) && 0 <= now.micros < DayMicros
  }

  /** The `%d` field: "01" to "31", a single non-zero digit, or a space then one. */
  predicate IsDayToken(t: string) {
    || (|t| == 2 && AllDigits(t) && 1 <= DigitsValue(t) <= 31)
    || (|t| == 1 && IsDigit(t[0]) && t[0] != '0')
    || (|t| == 2 && t[0] == ' ' && IsDigit(t[1]) && t[1] != '0')
  }

  function DayTokenValue(t: string): int
    requires IsDayToken(t)
  {
    if t[0] == ' ' then DigitsValue(t[1..]) else DigitsValue(t)
  }

  /** The `%m` field: "01" to "12", or a single non-zero digit. */
  predicate IsMonthToken(t: string) {
    || (|t| == 2 && AllDigits(t) && 1 <= DigitsValue(t) <= 12)
    || (|t| == 1 && IsDigit(t[0]) && t[0] != '0')
  }

  /** The `%Y` field: exactly four digits. */
  predicate IsYearToken(t: string) {
    |t| == 4 && AllDigits(t)
  }

  /** `datetime.strptime(s, "%d/%m/%Y")`: three fields separated by '/', each
      of its directive's shape, naming a date `datetime` accepts. `None` is
      the `ValueError`. */
  function ParseDayFirst(s: string): (r: Option<Date>)
    ensures r.Some? ==> IsRealDate(r.value)
  {
    var parts := Split(s, '/');
    if |parts| == 3 && IsDayToken(parts[0]) && IsMonthToken(parts[1]) && IsYearToken(parts[2]) then
      var d := Date(DigitsValue(parts[2]), DigitsValue(parts[1]), DayTokenValue(parts[0]));
      if IsRealDate(d) then Some(d) else None
    else None
  }

  /** "dd/mm/yyyy" for any day, month and year fields in range, whether or
      not they name a real date. */
  function DayFirstText(year: nat, month: nat, day: nat): string
    requires year <= 9999 && month <= 99 && day <= 99
  {
    PadDigits(day, 2) + "/" + PadDigits(month, 2) + "/" + PadDigits(year, 4)
  }

  /** `strftime("%d/%m/%Y")` (the year zero-padded to four digits). */
  function FormatDayFirst(d: Date): string
    requires IsRealDate(d)
  {
    DayFirstText(d.year, d.month, d.day)
  }

  lemma {:induction false} PadDigitsNoSeparator(n: nat, width: nat, c: char)
    requires n < Pow10(width) && !IsDigit(c)
    ensures c !in PadDigits(n, width)
  {
    var p := PadDigits(n, width);
    assert forall k :: 0 <= k < |p| ==> IsDigit(p[k]);
  }

  /** Well-shaped "dd/mm/yyyy" text is accepted exactly when it names a real
      calendar date, and then it names that date. */
  lemma DayFirstFields(year: nat, month: nat, day: nat)
    requires year <= 9999 && 1 <= month <= 12 && 1 <= day <= 31
    ensures ParseDayFirst(DayFirstText(year, month, day))
            == (if IsRealDate(Date(year, month, day)) then Some(Date(year, month, day)) else None)
  {
    var dd, mm, yy := PadDigits(day, 2), PadDigits(month, 2), PadDigits(year, 4);
    PadDigitsNoSeparator(day, 2, '/');
    PadDigitsNoSeparator(month, 2, '/');
    PadDigitsNoSeparator(year, 4, '/');
    JoinThree(dd, mm, yy, '/');
    SplitJoin([dd, mm, yy], '/');
    assert IsDayToken(dd) && DayTokenValue(dd) == day;
  }

  /** Parsing a formatted date gives the date back. */
  lemma DayFirstRoundTrip(d: Date)
    requires IsRealDate(d)
    ensures ParseDayFirst(FormatDayFirst(d)) == Some(d)
  {
    DayFirstFields(d.year, d.month, d.day);
  }

  /** "29/02/yyyy" is accepted exactly in leap years. */
  lemma LeapDay(year: nat)
    requires 1 <= year <= 9999
    ensures ParseDayFirst(DayFirstText(year, 2, 29)).Some? <==> IsLeapYear(year)
  {
    DayFirstFields(year, 2, 29);
  }

  /** `datetime.strptime(s, "%Y-%m")`: four year digits, '-', a month field;
      year 0 is refused. The result is (year, month). */
  function ParseYearMonth(s: string): (r: Option<(int, int)>)
    ensures r.Some? ==> 1 <= r.value.0 <= 9999 && 1 <= r.value.1 <= 12
  {
    var parts := Split(s, '-');
    if |parts| == 2 && IsYearToken(parts[0]) && IsMonthToken(parts[1]) then
      var y, m := DigitsValue(parts[0]), DigitsValue(parts[1]);
      DigitsValueBound(parts[0]);
      DigitsValueBound(parts[1]);
      if 1 <= y then Some((y, m)) else None
    else None
  }

  /** The "YYYY-MM" text pandas gives a month period
      (`dt.to_period('M').astype(str)`, `strftime("%Y-%m")`). */
  function MonthKeyOf(year: int, month: int): (r: string)
    requires 0 <= year <= 9999 && 1 <= month <= 12
    ensures |r| == 7
  {
    PadDigits(year, 4) + "-" + PadDigits(month, 2)
  }

  function MonthKey(d: Date): string
    requires IsRealDate(d)
  {
    MonthKeyOf(d.year, d.month)
  }

  /** Every "YYYY-MM" key parses back as the month it names. */
  lemma MonthKeyParses(year: int, month: int)
    requires 1 <= year <= 9999 && 1 <= month <= 12
    ensures ParseYearMonth(MonthKeyOf(year, month)) == Some((year, month))
  {
    var yy, mm := PadDigits(year, 4), PadDigits(month, 2);
    PadDigitsNoSeparator(year, 4, '-');
    PadDigitsNoSeparator(month, 2, '-');
    JoinTwo(yy, mm, '-');
    SplitJoin([yy, mm], '-');
  }

  /** Equal-width digit strings compare as the numbers they denote. */
  lemma {:induction false} PadDigitsOrder(x: nat, y: nat, width: nat)
    requires x < Pow10(width) && y < Pow10(width)
    ensures StrLess(PadDigits(x, width), PadDigits(y, width)) <==> x < y
  {
    if width > 0 {
      var px, py := PadDigits(x / 10, width - 1), PadDigits(y / 10, width - 1);
      var dx, dy := [DigitChar(x % 10)], [DigitChar(y % 10)];
      if x / 10 == y / 10 {
        StrLessCommonPrefix(px, dx, dy);
      } else {
        assert px != py by {
          assert DigitsValue(px) != DigitsValue(py);
        }
        StrLessEqualLength(px, py, dx, dy);
        PadDigitsOrder(x / 10, y / 10, width - 1);
      }
    }
  }

  /** The text order of month keys is the chronological order of months. */
  lemma MonthKeyChronological(y1: int, m1: int, y2: int, m2: int)
    requires 0 <= y1 <= 9999 && 1 <= m1 <= 12 && 0 <= y2 <= 9999 && 1 <= m2 <= 12
    ensures StrLess(MonthKeyOf(y1, m1), MonthKeyOf(y2, m2)) <==> (y1 < y2 || (y1 == y2 && m1 < m2))
  {
    var a, b := PadDigits(y1, 4), PadDigits(y2, 4);
    var ra, rb := "-" + PadDigits(m1, 2), "-" + PadDigits(m2, 2);
    assert MonthKeyOf(y1, m1) == a + ra && MonthKeyOf(y2, m2) == b + rb;
    if y1 == y2 {
      StrLessCommonPrefix(a, ra, rb);
      StrLessCommonPrefix("-", PadDigits(m1, 2), PadDigits(m2, 2));
      PadDigitsOrder(m1, m2, 2);
    } else {
      assert a != b by { assert DigitsValue(a) != DigitsValue(b); }
      StrLessEqualLength(a, b, ra, rb);
      PadDigitsOrder(y1, y2, 4);
    }
  }

  /** Two months share a key only when they are the same month. */
  lemma MonthKeyInjective(y1: int, m1: int, y2: int, m2: int)
    requires 0 <= y1 <= 9999 && 1 <= m1 <= 12 && 0 <= y2 <= 9999 && 1 <= m2 <= 12
    ensures MonthKeyOf(y1, m1) == MonthKeyOf(y2, m2) <==> (y1 == y2 && m1 == m2)
  {
    if MonthKeyOf(y1, m1) == MonthKeyOf(y2, m2) {
      MonthKeyChronological(y1, m1, y2, m2);
      MonthKeyChronological(y2, m2, y1, m1);
      StrLessIrreflexive(MonthKeyOf(y1, m1));
    }
  }


  /** `strftime("%B")` in the C locale. */
  function MonthName(m: int): string
    requires 1 <= m <= 12
  {
    ["January", "February", "March", "April", "May", "June", "July",
     "August", "September", "October", "November", "December"][m - 1]
  }

  /** `strftime("%B_%Y")`: the stem of history and summary file names. */
  function MonthStem(year: int, month: int): string
    requires 0 <= year <= 9999 && 1 <= month <= 12
  {
    MonthName(month) + "_" + PadDigits(year, 4)
  }

  /** Chronological order of dates. */
  predicate DateLess(a: Date, b: Date) {
    a.year < b.year
    || (a.year == b.year && a.month < b.month)
    || (a.year == b.year && a.month == b.month && a.day < b.day)
  }

  lemma DateLessIsStrictTotalOrder()
    ensures StrictTotalOrder(DateLess)
  {
  }

  function DaysBeforeYear(y: int): int {
    var p := y - 1;
    p * 365 + p / 4 - p / 100 + p / 400
  }

  function DaysBeforeMonth(y: int, m: int): (r: int)
    requires 1 <= m <= 12
    ensures r >= 0
  {
    if m == 1 then 0 else DaysBeforeMonth(y, m - 1) + DaysInMonth(y, m - 1)
  }

  /** `date.toordinal()`: 1 for 0001-01-01, one more for each following day.
      Day differences (`(a - b).days`) are differences of ordinals. */
  function Ordinal(d: Date): int
    requires 1 <= d.month <= 12
  {
    DaysBeforeYear(d.year) + DaysBeforeMonth(d.year, d.month) + d.day
  }

  lemma YearLength(y: int)
    ensures DaysBeforeYear(y + 1) - DaysBeforeYear(y) == DaysBeforeMonth(y, 12) + 31
  {
    var a, b, c := y / 4 - (y - 1) / 4, y / 100 - (y - 1) / 100, y / 400 - (y - 1) / 400;
    assert DaysBeforeYear(y + 1) - DaysBeforeYear(y) == 365 + a - b + c;
    LeapStep4(y);
    LeapStep100(y);
    LeapStep400(y);
    assert a - b + c == (if IsLeapYear(y) then 1 else 0) by {
      if y % 4 != 0 {
        assert y % 100 != 0 && y % 400 != 0;
      } else if y % 100 != 0 {
        assert y % 400 != 0;
      } else if y % 400 != 0 {
      }
    }
    DaysBeforeDecember(y);
  }

  /** Going from y - 1 to y adds one multiple of 4, of 100, of 400 exactly
      when y is one. */
  lemma LeapStep4(y: int)
    ensures y / 4 - (y - 1) / 4 == (if y % 4 == 0 then 1 else 0)
  {
  }

  lemma LeapStep100(y: int)
    ensures y / 100 - (y - 1) / 100 == (if y % 100 == 0 then 1 else 0)
  {
  }

  lemma LeapStep400(y: int)
    ensures y / 400 - (y - 1) / 400 == (if y % 400 == 0 then 1 else 0)
  {
  }

  lemma DaysBeforeDecember(y: int)
    ensures DaysBeforeMonth(y, 12) == 334 + (if IsLeapYear(y) then 1 else 0)
  {
    var leap := if IsLeapYear(y) then 1 else 0;
    assert DaysBeforeMonth(y, 2) == 31;
    assert DaysBeforeMonth(y, 3) == 59 + leap;
    assert DaysBeforeMonth(y, 4) == 90 + leap;
    assert DaysBeforeMonth(y, 5) == 120 + leap;
    assert DaysBeforeMonth(y, 6) == 151 + leap;
    assert DaysBeforeMonth(y, 7) == 181 + leap;
    assert DaysBeforeMonth(y, 8) == 212 + leap;
    assert DaysBeforeMonth(y, 9) == 243 + leap;
    assert DaysBeforeMonth(y, 10) == 273 + leap;
    assert DaysBeforeMonth(y, 11) == 304 + leap;
    assert DaysBeforeMonth(y, 12) == 334 + leap;
  }

  lemma {:induction false} DaysBeforeMonthGrows(y: int, m1: int, m2: int)
    requires 1 <= m1 < m2 <= 12
    ensures DaysBeforeMonth(y, m1) + DaysInMonth(y, m1) <= DaysBeforeMonth(y, m2)
    decreases m2 - m1
  {
    if m1 + 1 < m2 {
      DaysBeforeMonthGrows(y, m1 + 1, m2);
    }
  }

  lemma {:induction false} DaysBeforeYearGrows(y1: int, y2: int)
    requires y1 < y2
    ensures DaysBeforeYear(y1) + DaysBeforeMonth(y1, 12) + 31 <= DaysBeforeYear(y2)
    decreases y2 - y1
  {
    YearLength(y1);
    if y1 + 1 < y2 {
      DaysBeforeYearGrows(y1 + 1, y2);
      YearLength(y1 + 1);
    }
  }

  /** Later dates have larger ordinals. */
  lemma OrdinalMonotonic(a: Date, b: Date)
    requires IsRealDate(a) && IsRealDate(b) && DateLess(a, b)
    ensures Ordinal(a) < Ordinal(b)
  {
    if a.year < b.year {
      if a.month < 12 {
        DaysBeforeMonthGrows(a.year, a.month, 12);
      }
      DaysBeforeYearGrows(a.year, b.year);
    } else if a.month < b.month {
      DaysBeforeMonthGrows(a.year, a.month, b.month);
    }
  }

  /** Distinct dates have distinct ordinals. */
  lemma OrdinalInjective(a: Date, b: Date)
    requires IsRealDate(a) && IsRealDate(b) && a != b
    ensures Ordinal(a) != Ordinal(b)
  {
    if DateLess(a, b) {
      OrdinalMonotonic(a, b);
    } else {
      OrdinalMonotonic(b, a);
    }
  }
}

=== FILE: entry.dfy ===
/** `ExpenseTracker.add_expense` and its validators: the prompts, what each
    accepts, and the row appended to the live expense file. */
module Entry {
  import opened Options
  import opened Text
  import opened Numbers
  import opened Dates
  import opened Records
  import opened Prompts
  import opened CsvRow

  /** Text `strptime(s, "%d/%m/%Y")` accepts never holds a comma. */
  lemma AcceptedDateCommaFree(s: string)
    requires ParseDayFirst(s).Some?
    ensures ',' !in s
  {
    var parts := Split(s, '/');
    SplitPieces(s, '/');
    forall i | 0 <= i < |parts| ensures ',' !in parts[i] {
      assert forall k :: 0 <= k < |parts[i]| ==> IsDigit(parts[i][k]) || parts[i][k] == ' ';
    }
    JoinAvoids(parts, '/', ',');
  }

  /** `_validate_date`: the text names a calendar date as "dd/mm/yyyy". */
  function ValidateDate(s: string): (ok: bool)
    ensures ok ==> ',' !in s
  {
    var r := ParseDayFirst(s);
    if r.Some? then AcceptedDateCommaFree(s); true else false
  }

  /** Every real date, written the way the default is, is accepted. */
  lemma ValidateFormattedDate(d: Date)
    requires IsRealDate(d)
    ensures ValidateDate(FormatDayFirst(d))
  {
    DayFirstRoundTrip(d);
  }

  /** `_validate_amount`: a decimal comma is read as a point; negative
      amounts and text that is not a number give `None`. */
  function ValidateAmount(s: string): (r: Option<real>)
    ensures r.Some? ==> r.value >= 0.0
  {
    match ParseDecimal(Replace(s, ',', '.'))
    case None => None
    case Some(v) => if v >= 0.0 then Some(v) else None
  }

  lemma CentsTextCommaFree(n: nat)
    ensures ',' !in CentsText(n)
  {
    CentsTextShape(n);
  }

  /** A two-decimal amount reads back as the cents it was written from. */
  lemma AmountReadsCents(n: nat)
    ensures ValidateAmount(CentsText(n)) == Some(n as real / 100.0)
  {
    CentsTextCommaFree(n);
    ReplaceAbsent(CentsText(n), ',', '.');
    ParseCentsText(n);
  }

  /** "12.5" is the amount twelve and a half. */
  lemma AmountWithPoint(whole: string, frac: string)
    requires |whole| > 0 && AllDigits(whole) && |frac| > 0 && AllDigits(frac)
    ensures ValidateAmount(whole + "." + frac)
            == Some(DigitsValue(whole) as real + FractionDigits(frac))
  {
    var point := whole + "." + frac;
    CommaToPoint(whole, frac);
    ReplaceAbsent(point, ',', '.');
    ParseDecimalOfPoint(whole, frac);
  }

  /** "12,5" reads as "12.5". */
  lemma AmountWithComma(whole: string, frac: string)
    requires AllDigits(whole) && AllDigits(frac)
    ensures ValidateAmount(whole + "," + frac) == ValidateAmount(whole + "." + frac)
  {
    var point := whole + "." + frac;
    CommaToPoint(whole, frac);
    ReplaceAbsent(point, ',', '.');
    calc {
      ValidateAmount(whole + "," + frac);
      { assert Replace(whole + "," + frac, ',', '.') == point; }
      ValidateAmount(point);
    }
  }

  /** "12,5" and "12.5" are the same amount. */
  lemma AmountDecimalComma(whole: string, frac: string)
    requires |whole| > 0 && AllDigits(whole) && |frac| > 0 && AllDigits(frac)
    ensures ValidateAmount(whole + "," + frac) == ValidateAmount(whole + "." + frac)
    ensures ValidateAmount(whole + "," + frac)
            == Some(DigitsValue(whole) as real + FractionDigits(frac))
  {
    AmountWithComma(whole, frac);
    AmountWithPoint(whole, frac);
  }

  lemma CommaToPoint(whole: string, frac: string)
    requires AllDigits(whole) && AllDigits(frac)
    ensures Replace(whole + "," + frac, ',', '.') == whole + "." + frac
    ensures ',' !in whole + "." + frac
  {
    var point := whole + "." + frac;
    ReplaceAt(whole + "," + frac, ',', '.');
    assert forall k :: 0 <= k < |whole| ==> point[k] == whole[k];
    assert forall k :: |whole| < k < |point| ==> point[k] == frac[k - |whole| - 1];
  }

  /** A negative amount is refused. */
  lemma AmountRefusesNegative(n: nat)
    requires n > 0
    ensures ValidateAmount("-" + CentsText(n)) == None
  {
    var t := CentsText(n);
    CentsTextShape(n);
    assert ',' !in "-" + t;
    ReplaceAbsent("-" + t, ',', '.');
    ParseNegatedDecimal(t);
    DecimalCentsText(n);
  }

  /** The date prompt: blank takes today's date, otherwise the stripped
      answer when it is a valid date. */
  function DateAnswer(today: Date, answer: string): (r: Option<string>)
    requires IsRealDate(today)
    ensures r.Some? ==> ValidateDate(r.value)
    ensures Strip(answer) == "" ==> r == Some(FormatDayFirst(today))
    ensures Strip(answer) != "" ==> r.Some? ==> r.value == Strip(answer)
  {
    var u := Strip(answer);
    if u == "" then ValidateFormattedDate(today); Some(FormatDayFirst(today))
    else if ValidateDate(u) then Some(u)
    else None
  }

  /** A numbered menu: `int(answer)` between 1 and the number of items picks
      that item; anything else is asked again. */
  function MenuAnswer(items: seq<string>, answer: string): (r: Option<string>)
    ensures r.Some? ==> r.value in items
  {
    match ParseInt(answer)
    case Some(k) => if 1 <= k <= |items| then Some(items[k - 1]) else None
    case None => None
  }

  /** Typing a number picks exactly the item at that position. */
  lemma MenuPicks(items: seq<string>, k: int)
    ensures MenuAnswer(items, IntToString(k)) == (if 1 <= k <= |items| then Some(items[k - 1]) else None)
  {
    ParseIntText(k);
  }

  /** An answer without a digit picks nothing. */
  lemma MenuRefusesWords(items: seq<string>, answer: string)
    requires forall k :: 0 <= k < |answer| ==> !IsDigit(answer[k])
    ensures MenuAnswer(items, answer) == None
  {
    ParseIntNeedsDigit(answer);
  }

  /** The stored description: commas become spaces, surrounding white space
      goes, and an empty result becomes "No description". */
  function CleanDescription(answer: string): (r: string)
    ensures r != "" && ',' !in r && IsStripped(r)
  {
    var replaced := Replace(Strip(answer), ',', ' ');
    var d := Strip(replaced);
    StripAvoids(replaced, ',');
    StripIsStripped(replaced);
    NoDescriptionShape();
    if d == "" then NoDescription else d
  }

  /** A description without commas or surrounding spaces is kept as typed. */
  lemma DescriptionKept(answer: string)
    requires answer != "" && IsStripped(answer) && ',' !in answer
    ensures CleanDescription(answer) == answer
  {
    StripStripped(answer);
    ReplaceAbsent(answer, ',', ' ');
  }

  /** Commas inside a description become spaces; nothing else changes. */
  lemma DescriptionCommas(answer: string)
    requires answer != "" && IsStripped(answer)
    requires answer[0] != ',' && answer[|answer| - 1] != ','
    ensures CleanDescription(answer) == Replace(answer, ',', ' ')
  {
    var replaced := Replace(answer, ',', ' ');
    ReplaceAt(answer, ',', ' ');
    assert replaced[0] == answer[0] && replaced[|replaced| - 1] == answer[|answer| - 1];
    assert IsStripped(replaced);
    StripStripped(answer);
    StripStripped(replaced);
  }

  /** The amount prompt: the stripped answer, validated. */
  function AmountAnswer(answer: string): (r: Option<real>)
    ensures r.Some? ==> r.value >= 0.0
  {
    ValidateAmount(Strip(answer))
  }

  /** What one `add_expense` call stores: the five fields, the amount as
      entered, and how many input lines it read. */
  datatype Entered = Entered(row: seq<string>, amount: real, used: nat)

  /** Text `f"{v:.2f}"` writes for some non-negative amount. */
  ghost predicate IsCentsText(t: string) {
    exists n: nat :: t == CentsText(n)
  }

  /** A well-formed stored row: date, account, category, description and a
      two-decimal amount, none holding a comma. */
  ghost predicate IsEntryRow(row: seq<string>) {
    && |row| == 5
    && ValidateDate(row[0])
    && row[1] in Accounts
    && row[2] in Categories
    && row[3] != "" && ',' !in row[3]
    && IsCentsText(row[4])
  }

  /** The amount field of a well-formed row holds no comma and validates. */
  lemma EntryAmountReads(row: seq<string>)
    requires IsEntryRow(row)
    ensures ',' !in row[4]
    ensures ValidateAmount(row[4]).Some?
  {
    var n: nat :| row[4] == CentsText(n);
    CentsTextCommaFree(n);
    AmountReadsCents(n);
  }

  /** A well-formed row survives the CSV writer: read back, it is the same
      five fields. */
  lemma EntryRowRoundTrip(row: seq<string>)
    requires IsEntryRow(row)
    ensures ParseLine(FormatLine(row)) == row
  {
    EntryRowCommaFree(row);
    LineRoundTrip(row);
  }

  lemma EntryRowCommaFree(row: seq<string>)
    requires IsEntryRow(row)
    ensures CommaFree(row)
  {
    ListsCommaFree();
    EntryAmountReads(row);
    forall i | 0 <= i < |row| ensures ',' !in row[i] {
      if i == 0 {
      } else if i == 1 {
      } else if i == 2 {
      } else if i == 3 {
      } else {
        assert i == 4;
      }
    }
  }

  /** The row `add_expense` writes from its five accepted answers, the
      amount with two decimals. */
  function StoredRow(date: string, account: string, category: string, description: string, amount: real): (row: seq<string>)
    requires amount >= 0.0
    ensures row == [date, account, category, description, CentsText(RoundCents(amount))]
  {
    FormatFixed2NonNegative(amount);
    [date, account, category, description, FormatFixed2(amount)]
  }

  /** Accepted answers make a well-formed row. */
  lemma StoredRowWellFormed(date: string, account: string, category: string, description: string, amount: real)
    requires ValidateDate(date) && account in Accounts && category in Categories
    requires description != "" && ',' !in description && amount >= 0.0
    ensures IsEntryRow(StoredRow(date, account, category, description, amount))
  {
    var row := StoredRow(date, account, category, description, amount);
    assert row[0] == date && row[1] == account && row[2] == category && row[3] == description;
  }

  /** The account menu. */
  function AccountAnswer(answer: string): (r: Option<string>)
    ensures r.Some? ==> r.value in Accounts
  {
    MenuAnswer(Accounts, answer)
  }

  /** The category menu. */
  function CategoryAnswer(answer: string): (r: Option<string>)
    ensures r.Some? ==> r.value in Categories
  {
    MenuAnswer(Categories, answer)
  }

  /** A later stage's result, counting the `n` lines read before it. */
  function AfterLines(r: Option<Entered>, n: nat): (q: Option<Entered>)
    ensures q.Some? <==> r.Some?
    ensures q.Some? ==> q.value.row == r.value.row && q.value.amount == r.value.amount && q.value.used == n + r.value.used
  {
    match r
    case None => None
    case Some(e) => Some(Entered(e.row, e.amount, n + e.used))
  }

  /** The last two prompts: one description line, then the amount until it
      is acceptable. */
  function EnterDetails(date: string, account: string, category: string, answers: seq<string>): (r: Option<Entered>)
    ensures r.Some? ==> 2 <= r.value.used <= |answers| && r.value.amount >= 0.0
  {
    if |answers| == 0 then None
    else
      var description := CleanDescription(answers[0]);
      match FirstAccepted(answers[1..], AmountAnswer)
      case None => None
      case Some(amount) =>
        var row := StoredRow(date, account, category, description, amount.value);
        Some(Entered(row, amount.value, 1 + amount.used))
  }

  /** The two menus: the chosen account and category, and how many lines
      they took. */
  datatype Choice = Choice(account: string, category: string, used: nat)

  function Menus(answers: seq<string>): (r: Option<Choice>)
    ensures r.Some? ==> r.value.account in Accounts && r.value.category in Categories
    ensures r.Some? ==> 2 <= r.value.used <= |answers|
  {
    match FirstAccepted(answers, AccountAnswer)
    case None => None
    case Some(account) =>
      match FirstAccepted(answers[account.used..], CategoryAnswer)
      case None => None
      case Some(category) => Some(Choice(account.value, category.value, account.used + category.used))
  }

  /** The menus, then the details. */
  function EnterAfterDate(date: string, answers: seq<string>): (r: Option<Entered>)
    ensures r.Some? ==> 4 <= r.value.used <= |answers| && r.value.amount >= 0.0
  {
    match Menus(answers)
    case None => None
    case Some(c) => AfterLines(EnterDetails(date, c.account, c.category, answers[c.used..]), c.used)
  }

  /** The whole `add_expense` dialogue over the typed lines: date, account
      number, category number, description, amount, each asked again until
      acceptable. `None` when the input runs out first. The stored row is
      described by `AddExpenseWellFormed` and `AddExpenseFirstTry`. */
  function AddExpense(today: Date, answers: seq<string>): (r: Option<Entered>)
    requires IsRealDate(today)
    ensures r.Some? ==> 5 <= r.value.used <= |answers| && r.value.amount >= 0.0
  {
    match FirstAccepted(answers, a => DateAnswer(today, a))
    case None => None
    case Some(date) =>
      AfterLines(EnterAfterDate(date.value, answers[date.used..]), date.used)
  }

  /** The details stage stores a well-formed row whose amount field is the
      accepted amount written with two decimals. */
  lemma EnterDetailsWellFormed(date: string, account: string, category: string, answers: seq<string>)
    requires ValidateDate(date) && account in Accounts && category in Categories
    requires EnterDetails(date, account, category, answers).Some?
    ensures IsEntryRow(EnterDetails(date, account, category, answers).value.row)
    ensures EnterDetails(date, account, category, answers).value.row[0] == date
    ensures EnterDetails(date, account, category, answers).value.row[4]
            == CentsText(RoundCents(EnterDetails(date, account, category, answers).value.amount))
  {
    var amount := FirstAccepted(answers[1..], AmountAnswer).value.value;
    var description := CleanDescription(answers[0]);
    assert EnterDetails(date, account, category, answers).value.row == StoredRow(date, account, category, description, amount);
    StoredRowWellFormed(date, account, category, description, amount);
  }

  lemma EnterAfterDateWellFormed(date: string, answers: seq<string>)
    requires ValidateDate(date) && EnterAfterDate(date, answers).Some?
    ensures IsEntryRow(EnterAfterDate(date, answers).value.row)
    ensures EnterAfterDate(date, answers).value.row[0] == date
    ensures EnterAfterDate(date, answers).value.row[4]
            == CentsText(RoundCents(EnterAfterDate(date, answers).value.amount))
  {
    var c := Menus(answers).value;
    EnterDetailsWellFormed(date, c.account, c.category, answers[c.used..]);
  }

  /** The stored date is one the date prompt accepted. */
  lemma AddExpenseDate(today: Date, answers: seq<string>)
    requires IsRealDate(today) && AddExpense(today, answers).Some?
    ensures ValidateDate(FirstAccepted(answers, a => DateAnswer(today, a)).value.value)
  {
    var date := FirstAccepted(answers, a => DateAnswer(today, a)).value;
    assert DateAnswer(today, answers[date.used - 1]) == Some(date.value);
  }

  /** Whatever the dialogue stores is a well-formed row: an accepted date,
      a listed account and category, a clean description and the accepted
      amount with two decimals. */
  lemma AddExpenseWellFormed(today: Date, answers: seq<string>)
    requires IsRealDate(today) && AddExpense(today, answers).Some?
    ensures IsEntryRow(AddExpense(today, answers).value.row)
    ensures AddExpense(today, answers).value.row[4]
            == CentsText(RoundCents(AddExpense(today, answers).value.amount))
  {
    AddExpenseDate(today, answers);
    var date := FirstAccepted(answers, a => DateAnswer(today, a)).value;
    EnterAfterDateWellFormed(date.value, answers[date.used..]);
  }

  /** A typed date that is already in the stored form is taken as it is. */
  lemma DateAnswerOfFormatted(today: Date, d: Date)
    requires IsRealDate(today) && IsRealDate(d)
    ensures DateAnswer(today, FormatDayFirst(d)) == Some(FormatDayFirst(d))
  {
    ValidateFormattedDate(d);
    var dt := FormatDayFirst(d);
    assert dt[0] == PadDigits(d.day, 2)[0] && dt[|dt| - 1] == PadDigits(d.year, 4)[3];
    StripStripped(dt);
  }

  /** A typed two-decimal amount is taken as it is. */
  lemma AmountAnswerOfCents(n: nat)
    ensures AmountAnswer(CentsText(n)) == Some(n as real / 100.0)
  {
    var t := CentsText(n);
    assert t[0] == NatToString(n / 100)[0];
    assert IsStripped(t);
    StripStripped(t);
    AmountReadsCents(n);
  }

  /** An acceptable amount on the line after the description is taken at
      once: the row holds the cleaned description and the amount. */
  lemma EnterDetailsFirstTry(date: string, account: string, category: string, answers: seq<string>)
    requires |answers| >= 2 && AmountAnswer(answers[1]).Some?
    ensures EnterDetails(date, account, category, answers)
            == Some(Entered([date, account, category, CleanDescription(answers[0]), FormatFixed2(AmountAnswer(answers[1]).value)],
                            AmountAnswer(answers[1]).value, 2))
  {
    var amount := AmountAnswer(answers[1]).value;
    FirstAcceptedHead(answers[1..], AmountAnswer, amount);
  }

  /** Two acceptable menu numbers on the first two lines are taken at once. */
  lemma MenusFirstTry(answers: seq<string>)
    requires |answers| >= 2 && AccountAnswer(answers[0]).Some? && CategoryAnswer(answers[1]).Some?
    ensures Menus(answers) == Some(Choice(AccountAnswer(answers[0]).value, CategoryAnswer(answers[1]).value, 2))
  {
    FirstAcceptedHead(answers, AccountAnswer, AccountAnswer(answers[0]).value);
    FirstAcceptedHead(answers[1..], CategoryAnswer, CategoryAnswer(answers[1]).value);
  }

  /** Five answers each acceptable at the first try are taken as they come:
      the date (or today's for a blank line), the two menu items, the
      cleaned description and the amount written with two decimals. */
  lemma AddExpenseFirstTry(today: Date, answers: seq<string>)
    requires IsRealDate(today) && |answers| >= 5
    requires DateAnswer(today, answers[0]).Some?
    requires AccountAnswer(answers[1]).Some? && CategoryAnswer(answers[2]).Some?
    requires AmountAnswer(answers[4]).Some?
    ensures AddExpense(today, answers)
            == Some(Entered([DateAnswer(today, answers[0]).value, AccountAnswer(answers[1]).value,
                             CategoryAnswer(answers[2]).value, CleanDescription(answers[3]),
                             FormatFixed2(AmountAnswer(answers[4]).value)],
                            AmountAnswer(answers[4]).value, 5))
  {
    var date := DateAnswer(today, answers[0]).value;
    FirstAcceptedHead(answers, a => DateAnswer(today, a), date);
    var rest := answers[1..];
    MenusFirstTry(rest);
    assert rest[2..] == answers[3..];
    EnterDetailsFirstTry(date, AccountAnswer(answers[1]).value, CategoryAnswer(answers[2]).value, answers[3..]);
  }
}

=== FILE: grouping.dfy ===
/** The pandas operations the reports are built from: `groupby(key).sum()`,
    `sort_values`, `head`, `idxmax`, and totals. A grouped result is an
    association list ordered by key, one entry per distinct key. */
module Grouping {
  import opened Orders

  /** The values recorded under `k`, added up. The reference meaning of every
      group-by sum in the model. */
  function SumFor<K(==)>(ps: seq<(K, real)>, k: K): real {
    if |ps| == 0 then 0.0
    else SumFor(ps[..|ps| - 1], k) + (if ps[|ps| - 1].0 == k then ps[|ps| - 1].1 else 0.0)
  }

  /** All values added up: pandas `Series.sum()`, 0 for an empty series. */
  function Total<K>(ps: seq<(K, real)>): real {
    if |ps| == 0 then 0.0 else Total(ps[..|ps| - 1]) + ps[|ps| - 1].1
  }

  /** The keys that occur in `ps`. */
  function KeysOf<K>(ps: seq<(K, real)>): set<K> {
    set i | 0 <= i < |ps| :: ps[i].0
  }

  /** Keys strictly increasing: each key once, in order. */
  ghost predicate KeySorted<K>(al: seq<(K, real)>, less: (K, K) -> bool) {
    forall i, j :: 0 <= i < j < |al| ==> less(al[i].0, al[j].0)
  }

  /** The value stored under `k`, 0 when `k` is not a key. */
  function Lookup<K(==)>(al: seq<(K, real)>, k: K): real {
    if |al| == 0 then 0.0 else if al[0].0 == k then al[0].1 else Lookup(al[1..], k)
  }

  /** Adds `v` to the entry of `k`, creating it in its place if missing. */
  function Accumulate<K(==)>(al: seq<(K, real)>, k: K, v: real, less: (K, K) -> bool): seq<(K, real)> {
    if |al| == 0 then [(k, v)]
    else if al[0].0 == k then [(k, al[0].1 + v)] + al[1..]
    else if less(k, al[0].0) then [(k, v)] + al
    else [al[0]] + Accumulate(al[1..], k, v, less)
  }

  /** Accumulating adds `k` to the keys and nothing else. */
  lemma {:induction false} AccumulateKeys<K>(al: seq<(K, real)>, k: K, v: real, less: (K, K) -> bool)
    ensures KeysOf(Accumulate(al, k, v, less)) == KeysOf(al) + {k}
    decreases |al|
  {
    var r := Accumulate(al, k, v, less);
    if |al| == 0 {
      KeysOfHead(r);
    } else if al[0].0 == k {
      KeysOfHead(r);
      KeysOfHead(al);
      assert r[1..] == al[1..];
    } else if less(k, al[0].0) {
      KeysOfHead(r);
      assert r[1..] == al;
    } else {
      AccumulateKeys(al[1..], k, v, less);
      KeysOfHead(r);
      KeysOfHead(al);
      assert r[1..] == Accumulate(al[1..], k, v, less);
    }
  }

  /** Accumulating adds `v` to the grand total. */
  lemma {:induction false} AccumulateTotal<K>(al: seq<(K, real)>, k: K, v: real, less: (K, K) -> bool)
    ensures Total(Accumulate(al, k, v, less)) == Total(al) + v
    decreases |al|
  {
    var r := Accumulate(al, k, v, less);
    if |al| == 0 {
      TotalSplitsAtHead(r);
      assert r[1..] == al;
    } else {
      TotalSplitsAtHead(r);
      TotalSplitsAtHead(al);
      if al[0].0 == k {
        assert r[1..] == al[1..];
      } else if less(k, al[0].0) {
        assert r[1..] == al;
      } else {
        AccumulateTotal(al[1..], k, v, less);
        assert r[1..] == Accumulate(al[1..], k, v, less);
      }
    }
  }

  /** In a key-sorted list, a key below the first key is not a key at all. */
  lemma BelowHeadAbsent<K(!new)>(al: seq<(K, real)>, k: K, less: (K, K) -> bool)
    requires StrictTotalOrder(less) && KeySorted(al, less)
    requires |al| > 0 && less(k, al[0].0)
    ensures k !in KeysOf(al)
  {
    forall i | 0 <= i < |al| ensures al[i].0 != k {
      if i > 0 {
        assert less(al[0].0, al[i].0);
      }
    }
  }

  /** Accumulating changes only the value looked up under `k`, by `v`. */
  lemma {:induction false} AccumulateLookup<K(!new)>(al: seq<(K, real)>, k: K, v: real, less: (K, K) -> bool)
    requires StrictTotalOrder(less) && KeySorted(al, less)
    ensures forall j :: Lookup(Accumulate(al, k, v, less), j) == Lookup(al, j) + (if j == k then v else 0.0)
    decreases |al|
  {
    var r := Accumulate(al, k, v, less);
    if |al| == 0 {
    } else if al[0].0 == k {
      assert r[1..] == al[1..];
      LookupPastHead(al, k);
    } else if less(k, al[0].0) {
      assert r[1..] == al;
      BelowHeadAbsent(al, k, less);
      LookupAbsent(al, k);
    } else {
      assert KeySorted(al[1..], less);
      AccumulateLookup(al[1..], k, v, less);
      assert r[1..] == Accumulate(al[1..], k, v, less);
    }
  }

  /** Accumulating into a key-sorted list keeps it key-sorted. */
  lemma {:induction false} AccumulateSorted<K(!new)>(al: seq<(K, real)>, k: K, v: real, less: (K, K) -> bool)
    requires StrictTotalOrder(less) && KeySorted(al, less)
    ensures KeySorted(Accumulate(al, k, v, less), less)
    decreases |al|
  {
    var r := Accumulate(al, k, v, less);
    if |al| == 0 {
    } else if al[0].0 == k {
      assert forall i :: 1 <= i < |r| ==> r[i] == al[i];
    } else if less(k, al[0].0) {
      assert forall i :: 1 <= i < |r| ==> r[i] == al[i - 1];
    } else {
      var rest := Accumulate(al[1..], k, v, less);
      assert KeySorted(al[1..], less);
      AccumulateSorted(al[1..], k, v, less);
      AccumulateKeys(al[1..], k, v, less);
      assert r[1..] == rest;
      assert less(al[0].0, k);
      forall a, b | 0 <= a < b < |r| ensures less(r[a].0, r[b].0) {
        if a == 0 {
          assert r[b] == rest[b - 1];
          assert r[b].0 in KeysOf(rest);
          if r[b].0 != k {
            var i :| 0 <= i < |al[1..]| && al[1..][i].0 == r[b].0;
            assert al[i + 1].0 == r[b].0;
          }
        } else {
          assert r[a] == rest[a - 1] && r[b] == rest[b - 1];
        }
      }
    }
  }

  lemma KeysOfHead<K>(al: seq<(K, real)>)
    requires |al| > 0
    ensures KeysOf(al) == {al[0].0} + KeysOf(al[1..])
  {
    forall j | j in KeysOf(al) ensures j in {al[0].0} + KeysOf(al[1..]) {
      var i :| 0 <= i < |al| && al[i].0 == j;
      if i > 0 { assert al[1..][i - 1].0 == j; }
    }
    forall j | j in KeysOf(al[1..]) ensures j in KeysOf(al) {
      var i :| 0 <= i < |al[1..]| && al[1..][i].0 == j;
      assert al[i + 1].0 == j;
    }
  }

  /** A key that is not in the list looks up as 0. */
  lemma {:induction false} LookupAbsent<K>(al: seq<(K, real)>, k: K)
    requires k !in KeysOf(al)
    ensures Lookup(al, k) == 0.0
    decreases |al|
  {
    if |al| > 0 {
      KeysOfHead(al);
      LookupAbsent(al[1..], k);
    }
  }

  /** Past the first entry, a lookup of another key is a lookup in the rest;
      in a key-sorted list the head key is nowhere else. */
  lemma LookupPastHead<K>(al: seq<(K, real)>, k: K)
    requires |al| > 0
    ensures forall j :: j != al[0].0 ==> Lookup(al, j) == Lookup(al[1..], j)
  {
  }

  lemma {:induction false} TotalSplitsAtHead<K>(al: seq<(K, real)>)
    requires |al| > 0
    ensures Total(al) == al[0].1 + Total(al[1..])
    decreases |al|
  {
    if |al| > 1 {
      var init := al[..|al| - 1];
      TotalSplitsAtHead(init);
      assert init[1..] == al[1..][..|al[1..]| - 1];
    }
  }

  /** `groupby(key).sum()` on (key, value) rows, folded row by row; the
      `GroupSum...` lemmas state one entry per distinct key, keys in order,
      each holding that key's sum, and nothing lost. */
  function GroupSum<K(==)>(ps: seq<(K, real)>, less: (K, K) -> bool): seq<(K, real)> {
    if |ps| == 0 then []
    else Accumulate(GroupSum(ps[..|ps| - 1], less), ps[|ps| - 1].0, ps[|ps| - 1].1, less)
  }

  lemma KeysOfInit<K>(ps: seq<(K, real)>)
    requires |ps| > 0
    ensures KeysOf(ps) == KeysOf(ps[..|ps| - 1]) + {ps[|ps| - 1].0}
  {
    var init := ps[..|ps| - 1];
    forall j | j in KeysOf(ps) ensures j in KeysOf(init) + {ps[|ps| - 1].0} {
      var i :| 0 <= i < |ps| && ps[i].0 == j;
      if i < |ps| - 1 { assert init[i].0 == j; }
    }
    forall j | j in KeysOf(init) ensures j in KeysOf(ps) {
      var i :| 0 <= i < |init| && init[i].0 == j;
      assert ps[i].0 == j;
    }
  }

  /** The grouped keys are exactly the keys that occur. */
  lemma {:induction false} GroupSumKeys<K>(ps: seq<(K, real)>, less: (K, K) -> bool)
    ensures KeysOf(GroupSum(ps, less)) == KeysOf(ps)
    decreases |ps|
  {
    if |ps| > 0 {
      var init := ps[..|ps| - 1];
      GroupSumKeys(init, less);
      AccumulateKeys(GroupSum(init, less), ps[|ps| - 1].0, ps[|ps| - 1].1, less);
      KeysOfInit(ps);
    }
  }

  /** The grouped keys come out in increasing order, each once. */
  lemma {:induction false} GroupSumSorted<K(!new)>(ps: seq<(K, real)>, less: (K, K) -> bool)
    requires StrictTotalOrder(less)
    ensures KeySorted(GroupSum(ps, less), less)
    decreases |ps|
  {
    if |ps| > 0 {
      var init := ps[..|ps| - 1];
      GroupSumSorted(init, less);
      AccumulateSorted(GroupSum(init, less), ps[|ps| - 1].0, ps[|ps| - 1].1, less);
    }
  }

  /** Every key looks up the sum of its rows. */
  lemma {:induction false} GroupSumLookup<K(!new)>(ps: seq<(K, real)>, less: (K, K) -> bool)
    requires StrictTotalOrder(less)
    ensures forall k :: Lookup(GroupSum(ps, less), k) == SumFor(ps, k)
    decreases |ps|
  {
    if |ps| > 0 {
      var init := ps[..|ps| - 1];
      GroupSumLookup(init, less);
      GroupSumSorted(init, less);
      AccumulateLookup(GroupSum(init, less), ps[|ps| - 1].0, ps[|ps| - 1].1, less);
    }
  }

  /** Grouping loses nothing: the grouped values add up to the row total. */
  lemma {:induction false} GroupSumTotal<K>(ps: seq<(K, real)>, less: (K, K) -> bool)
    ensures Total(GroupSum(ps, less)) == Total(ps)
    decreases |ps|
  {
    if |ps| > 0 {
      var init := ps[..|ps| - 1];
      GroupSumTotal(init, less);
      AccumulateTotal(GroupSum(init, less), ps[|ps| - 1].0, ps[|ps| - 1].1, less);
    }
  }

  /** In a key-sorted list, every entry's value is what its key looks up. */
  lemma {:induction false} LookupAt<K(!new)>(al: seq<(K, real)>, less: (K, K) -> bool, i: nat)
    requires StrictTotalOrder(less) && KeySorted(al, less) && i < |al|
    ensures Lookup(al, al[i].0) == al[i].1
    decreases i
  {
    if i > 0 {
      assert less(al[0].0, al[i].0);
      assert al[0].0 != al[i].0;
      assert al[1..][i - 1] == al[i];
      LookupAt(al[1..], less, i - 1);
    }
  }

  /** Each group-by entry is the sum of its key's rows. */
  lemma GroupSumEntries<K(!new)>(ps: seq<(K, real)>, less: (K, K) -> bool)
    requires StrictTotalOrder(less)
    ensures forall i :: 0 <= i < |GroupSum(ps, less)| ==> GroupSum(ps, less)[i].1 == SumFor(ps, GroupSum(ps, less)[i].0)
  {
    var r := GroupSum(ps, less);
    GroupSumSorted(ps, less);
    GroupSumLookup(ps, less);
    forall i | 0 <= i < |r| ensures r[i].1 == SumFor(ps, r[i].0) {
      LookupAt(r, less, i);
    }
  }

  /** A key that never occurs sums to nothing. */
  lemma {:induction false} SumForAbsent<K>(ps: seq<(K, real)>, k: K)
    requires k !in KeysOf(ps)
    ensures SumFor(ps, k) == 0.0
    decreases |ps|
  {
    if |ps| > 0 {
      var init := ps[..|ps| - 1];
      assert k !in KeysOf(init) by {
        forall i | 0 <= i < |init| ensures init[i].0 != k {
          assert init[i] == ps[i];
          assert ps[i].0 in KeysOf(ps);
        }
      }
      SumForAbsent(init, k);
    }
  }

  /** Sums over two batches of rows add up. */
  lemma {:induction false} SumForAppend<K>(a: seq<(K, real)>, b: seq<(K, real)>, k: K)
    ensures SumFor(a + b, k) == SumFor(a, k) + SumFor(b, k)
    decreases |b|
  {
    if |b| > 0 {
      assert (a + b)[..|a + b| - 1] == a + b[..|b| - 1];
      assert (a + b)[|a + b| - 1] == b[|b| - 1];
      SumForAppend(a, b[..|b| - 1], k);
    } else {
      assert a + b == a;
    }
  }

  lemma {:induction false} TotalAppend<K>(a: seq<(K, real)>, b: seq<(K, real)>)
    ensures Total(a + b) == Total(a) + Total(b)
    decreases |b|
  {
    if |b| > 0 {
      assert (a + b)[..|a + b| - 1] == a + b[..|b| - 1];
      assert (a + b)[|a + b| - 1] == b[|b| - 1];
      TotalAppend(a, b[..|b| - 1]);
    } else {
      assert a + b == a;
    }
  }

  /** Largest `key` first. */
  predicate Descending<T>(s: seq<T>, key: T -> real) {
    forall i, j :: 0 <= i < j < |s| ==> key(s[i]) >= key(s[j])
  }

  /** Puts `x` in front of the first element whose key is not larger. */
  function InsertDesc<T>(x: T, s: seq<T>, key: T -> real): seq<T> {
    if |s| == 0 || key(x) >= key(s[0]) then [x] + s
    else [s[0]] + InsertDesc(x, s[1..], key)
  }

  /** `sort_values(..., ascending=False)` by `key`, as an insertion sort
      that keeps the earlier of two elements with equal keys first; the
      `SortDesc...` lemmas state that it is an ordering of its input. */
  function SortDesc<T>(s: seq<T>, key: T -> real): seq<T> {
    if |s| == 0 then [] else InsertDesc(s[0], SortDesc(s[1..], key), key)
  }

  lemma {:induction false} InsertDescPermutes<T>(x: T, s: seq<T>, key: T -> real)
    ensures multiset(InsertDesc(x, s, key)) == multiset(s) + multiset{x}
    decreases |s|
  {
    if |s| > 0 && key(x) < key(s[0]) {
      InsertDescPermutes(x, s[1..], key);
      assert s == [s[0]] + s[1..];
    }
  }

  lemma {:induction false} InsertDescSorted<T>(x: T, s: seq<T>, key: T -> real)
    requires Descending(s, key)
    ensures Descending(InsertDesc(x, s, key), key)
    decreases |s|
  {
    var r := InsertDesc(x, s, key);
    if |s| == 0 || key(x) >= key(s[0]) {
      assert forall i :: 1 <= i < |r| ==> r[i] == s[i - 1];
    } else {
      var rest := InsertDesc(x, s[1..], key);
      InsertDescSorted(x, s[1..], key);
      InsertDescPermutes(x, s[1..], key);
      assert r[1..] == rest;
      forall a, b | 0 <= a < b < |r| ensures key(r[a]) >= key(r[b]) {
        if a == 0 {
          var y := rest[b - 1];
          assert y in multiset(rest);
          if y != x {
            assert y in multiset(s[1..]);
            var i :| 0 <= i < |s[1..]| && s[1..][i] == y;
            assert s[i + 1] == y;
          }
        } else {
          assert r[a] == rest[a - 1] && r[b] == rest[b - 1];
        }
      }
    }
  }

  /** Sorting only reorders. */
  lemma {:induction false} SortDescPermutes<T>(s: seq<T>, key: T -> real)
    ensures multiset(SortDesc(s, key)) == multiset(s)
    decreases |s|
  {
    if |s| > 0 {
      SortDescPermutes(s[1..], key);
      InsertDescPermutes(s[0], SortDesc(s[1..], key), key);
      assert s == [s[0]] + s[1..];
    }
  }

  /** Sorting puts the largest keys first. */
  lemma {:induction false} SortDescSorted<T>(s: seq<T>, key: T -> real)
    ensures Descending(SortDesc(s, key), key)
    decreases |s|
  {
    if |s| > 0 {
      SortDescSorted(s[1..], key);
      InsertDescSorted(s[0], SortDesc(s[1..], key), key);
    }
  }

  /** Sorting moves values around without changing their total. */
  lemma {:induction false} InsertDescTotal<K>(x: (K, real), s: seq<(K, real)>, key: ((K, real)) -> real)
    ensures Total(InsertDesc(x, s, key)) == x.1 + Total(s)
    decreases |s|
  {
    var r := InsertDesc(x, s, key);
    TotalSplitsAtHead(r);
    if |s| > 0 && key(x) < key(s[0]) {
      InsertDescTotal(x, s[1..], key);
      TotalSplitsAtHead(s);
      assert r[1..] == InsertDesc(x, s[1..], key);
    } else {
      assert r[1..] == s;
    }
  }

  lemma {:induction false} SortDescTotal<K>(s: seq<(K, real)>, key: ((K, real)) -> real)
    ensures Total(SortDesc(s, key)) == Total(s)
    decreases |s|
  {
    if |s| > 0 {
      SortDescTotal(s[1..], key);
      InsertDescTotal(s[0], SortDesc(s[1..], key), key);
      TotalSplitsAtHead(s);
    }
  }

  lemma {:induction false} InsertDescLength<T>(x: T, s: seq<T>, key: T -> real)
    ensures |InsertDesc(x, s, key)| == |s| + 1
    decreases |s|
  {
    if |s| > 0 && key(x) < key(s[0]) {
      InsertDescLength(x, s[1..], key);
    }
  }

  lemma {:induction false} SortDescLength<T>(s: seq<T>, key: T -> real)
    ensures |SortDesc(s, key)| == |s|
    decreases |s|
  {
    if |s| > 0 {
      SortDescLength(s[1..], key);
      InsertDescLength(s[0], SortDesc(s[1..], key), key);
    }
  }

  /** The grouped value of an entry: the sort key of `sort_values` on a sum. */
  function Value<K>(e: (K, real)): real {
    e.1
  }

  /** `head(n)`: the first `n` entries, or all but the last `-n` when `n`
      is negative. */
  function Head<T>(s: seq<T>, n: int): (r: seq<T>)
    ensures r <= s
    ensures n >= 0 ==> |r| == (if n < |s| then n else |s|)
    ensures n < 0 ==> |r| == (if |s| + n > 0 then |s| + n else 0)
  {
    if n >= 0 then s[..if n < |s| then n else |s|]
    else s[..if |s| + n > 0 then |s| + n else 0]
  }

  /** `idxmax()`: the position of the first largest value. */
  function ArgMax<K>(al: seq<(K, real)>): (i: nat)
    requires |al| > 0
    ensures i < |al|
    ensures forall j :: 0 <= j < |al| ==> al[j].1 <= al[i].1
    ensures forall j :: 0 <= j < i ==> al[j].1 < al[i].1
  {
    if |al| == 1 then 0
    else
      var j := ArgMax(al[..|al| - 1]);
      if al[|al| - 1].1 > al[j].1 then |al| - 1 else j
  }

  /** Every key of `ps` paired with 1: counting rows is summing ones. */
  function Ones<K>(ks: seq<K>): (ps: seq<(K, real)>)
    ensures |ps| == |ks|
    ensures forall i :: 0 <= i < |ks| ==> ps[i] == (ks[i], 1.0)
  {
    if |ks| == 0 then [] else Ones(ks[..|ks| - 1]) + [(ks[|ks| - 1], 1.0)]
  }

  /** How many times `k` occurs. */
  function CountOf<K(==)>(ks: seq<K>, k: K): nat {
    if |ks| == 0 then 0 else CountOf(ks[..|ks| - 1], k) + (if ks[|ks| - 1] == k then 1 else 0)
  }

  /** Summing ones counts occurrences. */
  lemma {:induction false} SumOfOnes<K>(ks: seq<K>, k: K)
    ensures SumFor(Ones(ks), k) == CountOf(ks, k) as real
    decreases |ks|
  {
    if |ks| > 0 {
      assert Ones(ks)[..|ks| - 1] == Ones(ks[..|ks| - 1]);
      SumOfOnes(ks[..|ks| - 1], k);
    }
  }

  /** A column of rows as (key, value) pairs: what `groupby(key)[value]`
      works on. */
  function Pairs<T, K>(rows: seq<T>, key: T -> K, value: T -> real): (ps: seq<(K, real)>)
    ensures |ps| == |rows|
    ensures forall i :: 0 <= i < |rows| ==> ps[i] == (key(rows[i]), value(rows[i]))
  {
    seq(|rows|, i requires 0 <= i < |rows| => (key(rows[i]), value(rows[i])))
  }

  lemma PairsPrefix<T, K>(rows: seq<T>, key: T -> K, value: T -> real, n: nat)
    requires n <= |rows|
    ensures Pairs(rows, key, value)[..n] == Pairs(rows[..n], key, value)
  {
  }

  /** The sums of the keys `ks`, one after the other. */
  function SumOverKeys<K(==)>(ps: seq<(K, real)>, ks: seq<K>): real {
    if |ks| == 0 then 0.0 else SumOverKeys(ps, ks[..|ks| - 1]) + SumFor(ps, ks[|ks| - 1])
  }

  predicate Distinct<K(==)>(ks: seq<K>) {
    forall i, j :: 0 <= i < j < |ks| ==> ks[i] != ks[j]
  }

  /** One more row adds its value to the sum of its key, if that key is
      listed, and to no other. */
  lemma {:induction false} SumOverKeysStep<K>(ps: seq<(K, real)>, x: (K, real), ks: seq<K>)
    requires Distinct(ks)
    ensures SumOverKeys(ps + [x], ks) == SumOverKeys(ps, ks) + (if x.0 in ks then x.1 else 0.0)
    decreases |ks|
  {
    if |ks| > 0 {
      var init := ks[..|ks| - 1];
      assert Distinct(init);
      SumOverKeysStep(ps, x, init);
      assert (ps + [x])[..|ps + [x]| - 1] == ps;
      assert x.0 in ks <==> x.0 in init || x.0 == ks[|ks| - 1];
      assert x.0 == ks[|ks| - 1] ==> x.0 !in init;
    }
  }

  /** When every key is listed once, the per-key sums add up to the total:
      no row is counted twice or lost. */
  lemma {:induction false} TotalByKeys<K>(ps: seq<(K, real)>, ks: seq<K>)
    requires Distinct(ks)
    requires forall i :: 0 <= i < |ps| ==> ps[i].0 in ks
    ensures SumOverKeys(ps, ks) == Total(ps)
    decreases |ps|
  {
    if |ps| == 0 {
      SumOverKeysEmpty(ps, ks);
    } else {
      var init := ps[..|ps| - 1];
      TotalByKeys(init, ks);
      SumOverKeysStep(init, ps[|ps| - 1], ks);
      assert init + [ps[|ps| - 1]] == ps;
    }
  }

  lemma {:induction false} SumOverKeysEmpty<K>(ps: seq<(K, real)>, ks: seq<K>)
    requires |ps| == 0
    ensures SumOverKeys(ps, ks) == 0.0
    decreases |ks|
  {
    if |ks| > 0 {
      SumOverKeysEmpty(ps, ks[..|ks| - 1]);
    }
  }

  /** Each value as a percentage of `total` (`value / total * 100`). */
  function Shares<K>(al: seq<(K, real)>, total: real): (r: seq<(K, real)>)
    requires total != 0.0
    ensures |r| == |al|
    ensures forall i :: 0 <= i < |al| ==> r[i] == (al[i].0, al[i].1 / total * 100.0)
  {
    seq(|al|, i requires 0 <= i < |al| => (al[i].0, al[i].1 / total * 100.0))
  }

  /** The shares add up to the list's total as a percentage of `total`. */
  lemma {:induction false} TotalShares<K>(al: seq<(K, real)>, total: real)
    requires total != 0.0
    ensures Total(Shares(al, total)) == Total(al) / total * 100.0
    decreases |al|
  {
    if |al| > 0 {
      var init := al[..|al| - 1];
      var a, b := Total(init), al[|al| - 1].1;
      TotalShares(init, total);
      assert Shares(al, total)[..|al| - 1] == Shares(init, total);
      assert a / total * 100.0 + b / total * 100.0 == (a + b) / total * 100.0;
    }
  }

  /** `df[mask]`: the rows that pass `keep`, in their order. */
  function Filter<T>(rows: seq<T>, keep: T -> bool): (r: seq<T>)
    ensures |r| <= |rows|
    ensures forall i :: 0 <= i < |r| ==> keep(r[i])
  {
    if |rows| == 0 then []
    else
      var init := Filter(rows[..|rows| - 1], keep);
      if keep(rows[|rows| - 1]) then init + [rows[|rows| - 1]] else init
  }

  /** A row is kept exactly when it is a row that passes. */
  lemma {:induction false} FilterMembers<T>(rows: seq<T>, keep: T -> bool)
    ensures forall x :: x in Filter(rows, keep) <==> x in rows && keep(x)
    decreases |rows|
  {
    if |rows| > 0 {
      var init := rows[..|rows| - 1];
      FilterMembers(init, keep);
      assert rows == init + [rows[|rows| - 1]];
    }
  }

  /** Each item that occurs, exactly once: the values `unique()` lists and
      the keys of a dict built from them. Their order is not stated. */
  function Unique<K(==,!new)>(ks: seq<K>): (r: seq<K>)
    ensures Distinct(r)
    ensures forall x :: x in r <==> x in ks
  {
    if |ks| == 0 then []
    else
      var init := Unique(ks[..|ks| - 1]);
      var last := ks[|ks| - 1];
      assert forall x :: x in ks <==> x in ks[..|ks| - 1] || x == last by {
        assert ks == ks[..|ks| - 1] + [last];
      }
      if last in init then init else init + [last]
  }

  /** A strictly sorted list holds each of its keys once: as many keys as
      entries. */
  lemma {:induction false} SortedKeysCount<K(!new)>(al: seq<(K, real)>, less: (K, K) -> bool)
    requires StrictTotalOrder(less) && KeySorted(al, less)
    ensures |KeysOf(al)| == |al|
    decreases |al|
  {
    if |al| > 0 {
      var init := al[..|al| - 1];
      var last := al[|al| - 1].0;
      assert KeySorted(init, less);
      SortedKeysCount(init, less);
      KeysOfInit(al);
      forall i | 0 <= i < |init| ensures init[i].0 != last {
        assert less(al[i].0, al[|al| - 1].0);
      }
    }
  }

  /** A division undone by the matching multiplication. */
  lemma MeanTimesCount(t: real, n: nat)
    requires n > 0
    ensures t / (n as real) * (n as real) == t
  {
  }

  /** `mean()` of `n` values adding up to `t`: the value that, taken `n`
      times, gives `t` back. */
  function Mean(t: real, n: nat): (m: real)
    requires n > 0
    ensures m * (n as real) == t
  {
    MeanTimesCount(t, n);
    t / (n as real)
  }

  /** `groupby(key).sum().sort_values(ascending=False)`: largest first, one
      entry per key that occurs, each holding its key's sum, nothing lost. */
  lemma ByValueEntries<K(!new)>(ps: seq<(K, real)>, less: (K, K) -> bool)
    requires StrictTotalOrder(less)
    ensures var s := SortDesc(GroupSum(ps, less), Value);
            Descending(s, Value) && Total(s) == Total(ps) &&
            (forall i :: 0 <= i < |s| ==> s[i].1 == SumFor(ps, s[i].0)) &&
            (forall k :: k in KeysOf(ps) <==> exists i :: 0 <= i < |s| && s[i].0 == k)
  {
    var g := GroupSum(ps, less);
    var s := SortDesc(g, Value);
    GroupSumEntries(ps, less);
    GroupSumTotal(ps, less);
    GroupSumKeys(ps, less);
    SortDescTotal(g, Value);
    SortDescSorted(g, Value);
    SortDescPermutes(g, Value);
    forall i | 0 <= i < |s| ensures s[i].1 == SumFor(ps, s[i].0) && s[i].0 in KeysOf(g) {
      assert s[i] in multiset(g);
      var j :| 0 <= j < |g| && g[j] == s[i];
    }
    forall k | k in KeysOf(ps) ensures exists i :: 0 <= i < |s| && s[i].0 == k {
      var j :| 0 <= j < |g| && g[j].0 == k;
      assert g[j] in multiset(s);
      var i :| 0 <= i < |s| && s[i] == g[j];
    }
  }

  /** Taking the first entries and turning them into shares commute. */
  lemma HeadShares<K>(al: seq<(K, real)>, total: real, n: int)
    requires total != 0.0
    ensures Head(Shares(al, total), n) == Shares(Head(al, n), total)
  {
    var a, b := Head(Shares(al, total), n), Shares(Head(al, n), total);
    assert |a| == |b|;
    forall i | 0 <= i < |a| ensures a[i] == b[i] {
      assert a[i] == Shares(al, total)[i] && Head(al, n)[i] == al[i];
    }
  }

  /** The group-by has one entry per distinct key and keeps the total. */
  lemma GroupSumCount<K(!new)>(ps: seq<(K, real)>, less: (K, K) -> bool)
    requires StrictTotalOrder(less)
    ensures |GroupSum(ps, less)| == |KeysOf(ps)|
    ensures Total(GroupSum(ps, less)) == Total(ps)
  {
    GroupSumSorted(ps, less);
    GroupSumKeys(ps, less);
    GroupSumTotal(ps, less);
    SortedKeysCount(GroupSum(ps, less), less);
  }

  /** Sorting keeps exactly the same elements. */
  lemma SortDescMembers<T>(s: seq<T>, key: T -> real)
    ensures forall x :: x in SortDesc(s, key) <==> x in s
  {
    SortDescPermutes(s, key);
    forall x ensures x in SortDesc(s, key) <==> x in s {
      assert x in SortDesc(s, key) <==> x in multiset(SortDesc(s, key));
      assert x in s <==> x in multiset(s);
    }
  }

  /** In a strictly key-sorted list no entry occurs twice. */
  lemma {:induction false} SortedOnce<K(!new)>(al: seq<(K, real)>, less: (K, K) -> bool, x: (K, real))
    requires StrictTotalOrder(less) && KeySorted(al, less)
    ensures multiset(al)[x] <= 1
    decreases |al|
  {
    if |al| > 0 {
      var init := al[..|al| - 1];
      var last := al[|al| - 1];
      assert KeySorted(init, less);
      SortedOnce(init, less, x);
      assert al == init + [last];
      forall i | 0 <= i < |init| ensures init[i] != last {
        assert less(al[i].0, al[|al| - 1].0);
      }
      assert last !in init;
    }
  }

  /** Two positions holding the same element make it occur twice. */
  lemma CountedOnceDistinct<T>(s: seq<T>, i: nat, j: nat)
    requires i < j < |s| && multiset(s)[s[i]] <= 1
    ensures s[i] != s[j]
  {
    assert s == s[..j] + s[j..];
    assert s[..j][i] == s[i] && s[j..][0] == s[j];
    assert multiset(s) == multiset(s[..j]) + multiset(s[j..]);
  }

  /** The sorted group-by holds each key that occurs exactly once. */
  lemma ByValueDistinct<K(!new)>(ps: seq<(K, real)>, less: (K, K) -> bool)
    requires StrictTotalOrder(less)
    ensures var s := SortDesc(GroupSum(ps, less), Value);
            |s| == |KeysOf(ps)| && forall i, j :: 0 <= i < j < |s| ==> s[i].0 != s[j].0
  {
    var g := GroupSum(ps, less);
    var s := SortDesc(g, Value);
    GroupSumCount(ps, less);
    GroupSumSorted(ps, less);
    SortDescLength(g, Value);
    SortDescPermutes(g, Value);
    ByValueEntries(ps, less);
    forall i, j | 0 <= i < j < |s| ensures s[i].0 != s[j].0 {
      SortedOnce(g, less, s[i]);
      CountedOnceDistinct(s, i, j);
    }
  }

  /** `sort_values(ascending=False).head(n)` of a group-by: as many entries
      as `n` allows, each key once, each holding its key's sum, and any key
      larger than a listed entry is listed too. */
  lemma ByValueTop<K(!new)>(ps: seq<(K, real)>, less: (K, K) -> bool, n: nat)
    requires StrictTotalOrder(less)
    ensures var top := Head(SortDesc(GroupSum(ps, less), Value), n);
            |top| == (if n < |KeysOf(ps)| then n else |KeysOf(ps)|) &&
            Descending(top, Value) &&
            (forall i, j :: 0 <= i < j < |top| ==> top[i].0 != top[j].0) &&
            (forall i :: 0 <= i < |top| ==> top[i].1 == SumFor(ps, top[i].0)) &&
            (forall k, j :: k in KeysOf(ps) && 0 <= j < |top| && SumFor(ps, k) > top[j].1 ==>
               exists i :: 0 <= i < |top| && top[i].0 == k)
  {
    var s := SortDesc(GroupSum(ps, less), Value);
    var top := Head(s, n);
    ByValueEntries(ps, less);
    ByValueDistinct(ps, less);
    assert forall i :: 0 <= i < |top| ==> top[i] == s[i];
    forall k, j | k in KeysOf(ps) && 0 <= j < |top| && SumFor(ps, k) > top[j].1
      ensures exists i :: 0 <= i < |top| && top[i].0 == k
    {
      var m :| 0 <= m < |s| && s[m].0 == k;
      assert m <= j;
      assert top[m].0 == k;
    }
  }

  /** The first largest entry of a group-by: a key that occurs, holding its
      sum, no key holding more, and every smaller key holding less. */
  lemma ArgMaxOfGroupSum<K(!new)>(ps: seq<(K, real)>, less: (K, K) -> bool)
    requires StrictTotalOrder(less) && |ps| > 0
    ensures var g := GroupSum(ps, less);
            |g| > 0 &&
            var best := g[ArgMax(g)];
            best.0 in KeysOf(ps) && best.1 == SumFor(ps, best.0) &&
            forall k :: k in KeysOf(ps) ==> SumFor(ps, k) <= best.1 && (less(k, best.0) ==> SumFor(ps, k) < best.1)
  {
    var g := GroupSum(ps, less);
    GroupSumKeys(ps, less);
    GroupSumSorted(ps, less);
    GroupSumEntries(ps, less);
    assert ps[0].0 in KeysOf(g);
    var b := ArgMax(g);
    forall k | k in KeysOf(ps) ensures SumFor(ps, k) <= g[b].1 && (less(k, g[b].0) ==> SumFor(ps, k) < g[b].1) {
      var m :| 0 <= m < |g| && g[m].0 == k;
      if less(k, g[b].0) {
        assert m < b;
      }
    }
  }

  /** Summing the value of the kept rows equals summing, over all rows, the
      value of those whose `key2` is `k2`, when that is what keeping means. */
  lemma {:induction false} FilterTotal<T, K, J>(rows: seq<T>, keep: T -> bool, key: T -> K, key2: T -> J, k2: J, value: T -> real)
    requires forall x :: keep(x) <==> key2(x) == k2
    ensures Total(Pairs(Filter(rows, keep), key, value)) == SumFor(Pairs(rows, key2, value), k2)
    decreases |rows|
  {
    if |rows| > 0 {
      var init := rows[..|rows| - 1];
      var last := rows[|rows| - 1];
      var f := Filter(init, keep);
      FilterTotal(init, keep, key, key2, k2, value);
      PairsPrefix(rows, key2, value, |rows| - 1);
      if keep(last) {
        assert Pairs(f + [last], key, value)[..|f|] == Pairs(f, key, value);
      }
    }
  }

  /** Summing one key's values over the kept rows equals summing, over all
      rows, the values whose `key2` is `k2`, when that singles out exactly
      the kept rows with that key. */
  lemma {:induction false} FilterSum<T, K, J>(rows: seq<T>, keep: T -> bool, key: T -> K, k: K, key2: T -> J, k2: J, value: T -> real)
    requires forall x :: keep(x) && key(x) == k <==> key2(x) == k2
    ensures SumFor(Pairs(Filter(rows, keep), key, value), k) == SumFor(Pairs(rows, key2, value), k2)
    decreases |rows|
  {
    if |rows| > 0 {
      var init := rows[..|rows| - 1];
      var last := rows[|rows| - 1];
      var f := Filter(init, keep);
      FilterSum(init, keep, key, k, key2, k2, value);
      PairsPrefix(rows, key2, value, |rows| - 1);
      if keep(last) {
        assert Pairs(f + [last], key, value)[..|f|] == Pairs(f, key, value);
      }
    }
  }
}

=== FILE: insights.dfy ===
/** `DataAnalyzer.spending_insights`: the most expensive day and category,
    the average transaction, how many of the days in the data's span saw
    spending, the two recommendations, and what the small expenses add up
    to. */
module Insights {
  import opened Options
  import opened Orders
  import opened Dates
  import opened Records
  import opened Grouping
  import opened Reports
  import opened Analyzer

  /** What `spending_insights` prints. `smallTotal` is absent when no
      amount is below the threshold. */
  datatype InsightReport = InsightReport(
    bestDay: Date,
    bestDayTotal: real,
    bestCategory: string,
    bestCategoryTotal: real,
    averageTransaction: real,
    frequency: real,
    almostDaily: bool,
    largeAverage: bool,
    smallTotal: Option<real>)

  /** Amounts strictly below this count as small expenses. */
  const SmallAmount: real := 10.0

  /** The percentage of days with spending above which the report suggests
      spending-free days. */
  const AlmostDailyPercent: real := 80.0

  /** The average transaction above which the report suggests cutting
      large purchases. */
  const LargeAverage: real := 50.0

  /** Each category with its total, in ascending category order. */
  function CategoryTotals(rows: seq<Expense>): seq<(string, real)> {
    GroupSum(CategoryPairs(rows), StrLess)
  }

  lemma DailyNonEmpty(rows: seq<Expense>)
    requires |rows| > 0
    ensures |DailyTotals(rows)| > 0
  {
    GroupSumKeys(DayPairs(rows), DateLess);
    assert DayPairs(rows)[0].0 in KeysOf(DailyTotals(rows));
  }

  lemma CategoryTotalsNonEmpty(rows: seq<Expense>)
    requires |rows| > 0
    ensures |CategoryTotals(rows)| > 0
  {
    GroupSumKeys(CategoryPairs(rows), StrLess);
    assert CategoryPairs(rows)[0].0 in KeysOf(CategoryTotals(rows));
  }

  /** The day with the largest total, the first such day on a tie. */
  function BestDay(rows: seq<Expense>): (Date, real)
    requires |rows| > 0
  {
    DailyNonEmpty(rows);
    var d := DailyTotals(rows);
    d[ArgMax(d)]
  }

  /** The category with the largest total, the first such category on a
      tie. */
  function BestCategory(rows: seq<Expense>): (string, real)
    requires |rows| > 0
  {
    CategoryTotalsNonEmpty(rows);
    var c := CategoryTotals(rows);
    c[ArgMax(c)]
  }

  /** The mean of all amounts. */
  function AverageTransaction(rows: seq<Expense>): (m: real)
    requires |rows| > 0
    ensures m * (|rows| as real) == OverallTotal(rows)
  {
    Mean(OverallTotal(rows), |rows|)
  }

  /** The earliest and the latest day with an expense. */
  function FirstDay(rows: seq<Expense>): Date
    requires |rows| > 0
  {
    DailyNonEmpty(rows);
    DailyTotals(rows)[0].0
  }

  function LastDay(rows: seq<Expense>): Date
    requires |rows| > 0
  {
    DailyNonEmpty(rows);
    var d := DailyTotals(rows);
    d[|d| - 1].0
  }

  /** The number of calendar days from the first to the last, both
      included. */
  function DaySpan(rows: seq<Expense>): int
    requires |rows| > 0
  {
    DayNumber(LastDay(rows)) - DayNumber(FirstDay(rows)) + 1
  }

  /** `n` days out of `span` as a percentage. */
  function Percent(n: nat, span: int): (p: real)
    requires 0 < n <= span
    ensures 0.0 < p <= 100.0
    ensures p > AlmostDailyPercent <==> 5 * n > 4 * span
  {
    var q := (n as real) / (span as real);
    assert q * (span as real) == n as real;
    RatioBounds(n as real, span as real, q);
    q * 100.0
  }

  /** A ratio of `n` to `s`, for `0 < n <= s`, lies in (0, 1], and is
      above 0.8 exactly when `n` is more than four fifths of `s`. */
  lemma RatioBounds(n: real, s: real, q: real)
    requires 0.0 < n <= s && q * s == n
    ensures 0.0 < q <= 1.0
    ensures q > 0.8 <==> 5.0 * n > 4.0 * s
  {
    if q <= 0.0 {
      ProductSign(-q, s);
    }
    if q > 1.0 {
      ProductSign(q - 1.0, s);
    }
    if q > 0.8 {
      AboveFourFifths(n, s, q);
    } else {
      ProductSign(0.8 - q, s);
    }
  }

  lemma AboveFourFifths(n: real, s: real, q: real)
    requires s > 0.0 && q * s == n && q > 0.8
    ensures 5.0 * n > 4.0 * s
  {
    ProductSign(q - 0.8, s);
  }

  lemma ProductSign(a: real, b: real)
    requires a >= 0.0 && b > 0.0
    ensures a * b >= 0.0 && (a > 0.0 ==> a * b > 0.0)
  {
  }

  /** The share of the days in the span on which something was spent. */
  function Frequency(rows: seq<Expense>): (f: real)
    requires |rows| > 0 && ParsedDates(rows)
    ensures 0.0 < f <= 100.0
  {
    DaySpanCoversDays(rows);
    Percent(|DailyTotals(rows)|, DaySpan(rows))
  }

  predicate IsSmall(e: Expense) {
    e.amount < SmallAmount
  }

  /** The total of the small expenses, absent when there are none. */
  function SmallTotal(rows: seq<Expense>): Option<real> {
    var small := Filter(rows, IsSmall);
    if |small| == 0 then None else Some(OverallTotal(small))
  }

  /** `spending_insights`: nothing without data. The dates came through
      `pd.to_datetime`, which raises on any it cannot parse. */
  function SpendingInsights(rows: seq<Expense>): (r: Option<InsightReport>)
    requires ParsedDates(rows)
    ensures r.None? <==> |rows| == 0
  {
    if |rows| == 0 then None
    else
      var day := BestDay(rows);
      var category := BestCategory(rows);
      var average := AverageTransaction(rows);
      var frequency := Frequency(rows);
      Some(InsightReport(day.0, day.1, category.0, category.1, average, frequency,
                         frequency > AlmostDailyPercent, average > LargeAverage, SmallTotal(rows)))
  }

  /** Every day of the daily totals is some row's date. */
  lemma DailyDaysOccur(rows: seq<Expense>)
    ensures var d := DailyTotals(rows);
            forall k :: 0 <= k < |d| ==> exists i :: 0 <= i < |rows| && rows[i].date == d[k].0
  {
    var d := DailyTotals(rows);
    GroupSumKeys(DayPairs(rows), DateLess);
    forall k | 0 <= k < |d| ensures exists i :: 0 <= i < |rows| && rows[i].date == d[k].0 {
      assert d[k].0 in KeysOf(DayPairs(rows));
      var i :| 0 <= i < |rows| && DayPairs(rows)[i].0 == d[k].0;
      assert rows[i].date == d[k].0;
    }
  }

  /** Every row's date is a day of the daily totals. */
  lemma RowDaysListed(rows: seq<Expense>)
    ensures var d := DailyTotals(rows);
            forall i :: 0 <= i < |rows| ==> exists k :: 0 <= k < |d| && d[k].0 == rows[i].date
  {
    var d := DailyTotals(rows);
    GroupSumKeys(DayPairs(rows), DateLess);
    forall i | 0 <= i < |rows| ensures exists k :: 0 <= k < |d| && d[k].0 == rows[i].date {
      assert DayPairs(rows)[i].0 in KeysOf(d);
    }
  }

  /** The first and last days are the earliest and latest row dates, which
      is what subtracting the smallest date from the largest measures. */
  lemma DaySpanEnds(rows: seq<Expense>)
    requires |rows| > 0
    ensures exists i :: 0 <= i < |rows| && rows[i].date == FirstDay(rows)
    ensures exists i :: 0 <= i < |rows| && rows[i].date == LastDay(rows)
    ensures forall i :: 0 <= i < |rows| ==> !DateLess(rows[i].date, FirstDay(rows)) && !DateLess(LastDay(rows), rows[i].date)
  {
    var d := DailyTotals(rows);
    DailyNonEmpty(rows);
    DailyDaysOccur(rows);
    RowDaysListed(rows);
    DateLessIsStrictTotalOrder();
    GroupSumSorted(DayPairs(rows), DateLess);
    forall i | 0 <= i < |rows| ensures !DateLess(rows[i].date, FirstDay(rows)) && !DateLess(LastDay(rows), rows[i].date) {
      var k :| 0 <= k < |d| && d[k].0 == rows[i].date;
      SortedEnds(d, DateLess, k);
    }
  }

  /** In a key-sorted list the first key is the least and the last the
      greatest. */
  lemma SortedEnds<K(!new)>(al: seq<(K, real)>, less: (K, K) -> bool, k: nat)
    requires StrictTotalOrder(less) && KeySorted(al, less) && k < |al|
    ensures !less(al[k].0, al[0].0) && !less(al[|al| - 1].0, al[k].0)
  {
    if 0 < k {
      assert less(al[0].0, al[k].0);
    }
    if k < |al| - 1 {
      assert less(al[k].0, al[|al| - 1].0);
    }
  }

  /** Strictly increasing real dates lie at least one day apart. */
  lemma {:induction false} SortedDatesSpread(al: seq<(Date, real)>, i: nat, j: nat)
    requires KeySorted(al, DateLess) && i <= j < |al|
    requires forall k :: 0 <= k < |al| ==> IsRealDate(al[k].0)
    ensures DayNumber(al[j].0) - DayNumber(al[i].0) >= j - i
    decreases j - i
  {
    if i < j {
      SortedDatesSpread(al, i, j - 1);
      assert IsRealDate(al[j - 1].0) && IsRealDate(al[j].0);
      OrdinalMonotonic(al[j - 1].0, al[j].0);
    }
  }

  /** The span counts calendar days from the first date to the last, and
      holds at least one day per distinct date. */
  lemma DaySpanCoversDays(rows: seq<Expense>)
    requires |rows| > 0 && ParsedDates(rows)
    ensures IsRealDate(FirstDay(rows)) && IsRealDate(LastDay(rows))
    ensures DaySpan(rows) == Ordinal(LastDay(rows)) - Ordinal(FirstDay(rows)) + 1 > 0
    ensures 0 < |DailyTotals(rows)| <= DaySpan(rows)
  {
    var d := DailyTotals(rows);
    DailyNonEmpty(rows);
    DailyDaysAreReal(rows);
    DateLessIsStrictTotalOrder();
    GroupSumSorted(DayPairs(rows), DateLess);
    SortedDatesSpread(d, 0, |d| - 1);
  }

  lemma DailyDaysAreReal(rows: seq<Expense>)
    requires ParsedDates(rows)
    ensures forall k :: 0 <= k < |DailyTotals(rows)| ==> IsRealDate(DailyTotals(rows)[k].0)
  {
    DailyDaysOccur(rows);
  }

  /** The number of days with expenses is the number of distinct row
      dates. */
  lemma DistinctDays(rows: seq<Expense>)
    ensures |DailyTotals(rows)| == |set i | 0 <= i < |rows| :: rows[i].date|
  {
    DateLessIsStrictTotalOrder();
    GroupSumCount(DayPairs(rows), DateLess);
    assert KeysOf(DayPairs(rows)) == set i | 0 <= i < |rows| :: rows[i].date by {
      forall x | x in set i | 0 <= i < |rows| :: rows[i].date ensures x in KeysOf(DayPairs(rows)) {
        var i :| 0 <= i < |rows| && rows[i].date == x;
        assert DayPairs(rows)[i].0 == x;
      }
    }
  }

  /** The most expensive day: a day with expenses, holding that day's sum,
      no day holding more, and every earlier day holding less. */
  lemma MostExpensiveDay(rows: seq<Expense>)
    requires |rows| > 0
    ensures var (day, total) := BestDay(rows);
            (exists i :: 0 <= i < |rows| && rows[i].date == day) &&
            total == SumFor(DayPairs(rows), day) &&
            forall i :: 0 <= i < |rows| ==>
              SumFor(DayPairs(rows), rows[i].date) <= total &&
              (DateLess(rows[i].date, day) ==> SumFor(DayPairs(rows), rows[i].date) < total)
  {
    DateLessIsStrictTotalOrder();
    ArgMaxOfGroupSum(DayPairs(rows), DateLess);
    var (day, total) := BestDay(rows);
    assert day in KeysOf(DayPairs(rows));
    forall i | 0 <= i < |rows| ensures rows[i].date in KeysOf(DayPairs(rows)) {
      assert DayPairs(rows)[i].0 == rows[i].date;
    }
  }

  /** The most expensive category: a category that occurs, holding its sum,
      no category holding more, and every category ordered before it
      holding less. */
  lemma MostExpensiveCategory(rows: seq<Expense>)
    requires |rows| > 0
    ensures var (category, total) := BestCategory(rows);
            (exists i :: 0 <= i < |rows| && rows[i].category == category) &&
            total == SumFor(CategoryPairs(rows), category) &&
            forall i :: 0 <= i < |rows| ==>
              SumFor(CategoryPairs(rows), rows[i].category) <= total &&
              (StrLess(rows[i].category, category) ==> SumFor(CategoryPairs(rows), rows[i].category) < total)
  {
    StrLessIsStrictTotalOrder();
    ArgMaxOfGroupSum(CategoryPairs(rows), StrLess);
    var (category, total) := BestCategory(rows);
    assert category in KeysOf(CategoryPairs(rows));
    forall i | 0 <= i < |rows| ensures rows[i].category in KeysOf(CategoryPairs(rows)) {
      assert CategoryPairs(rows)[i].0 == rows[i].category;
    }
  }

  /** The spending-free-days advice appears exactly when more than four
      days in five of the span saw spending. */
  lemma AlmostDailyAdvice(rows: seq<Expense>)
    requires |rows| > 0 && ParsedDates(rows)
    ensures var r := SpendingInsights(rows).value;
            r.frequency == Frequency(rows) &&
            (r.almostDaily <==> 5 * |set i | 0 <= i < |rows| :: rows[i].date| > 4 * DaySpan(rows))
  {
    DaySpanCoversDays(rows);
    DistinctDays(rows);
    assert SpendingInsights(rows).value.almostDaily == (Frequency(rows) > AlmostDailyPercent);
  }

  /** A mean is above `x` exactly when the total is above `x` per item. */
  lemma AboveMean(t: real, n: nat, x: real)
    requires n > 0
    ensures Mean(t, n) > x <==> t > x * (n as real)
  {
    var m := Mean(t, n);
    if m > x {
      assert m * (n as real) > x * (n as real);
    } else {
      assert m * (n as real) <= x * (n as real);
    }
  }

  /** The large-purchase advice appears exactly when the amounts add up to
      more than 50 per transaction. */
  lemma LargeAverageAdvice(rows: seq<Expense>)
    requires |rows| > 0 && ParsedDates(rows)
    ensures var r := SpendingInsights(rows).value;
            r.averageTransaction == AverageTransaction(rows) &&
            (r.largeAverage <==> OverallTotal(rows) > LargeAverage * (|rows| as real))
  {
    assert SpendingInsights(rows).value.largeAverage == (AverageTransaction(rows) > LargeAverage);
    AboveMean(OverallTotal(rows), |rows|, LargeAverage);
  }

  /** The small-expense total is present exactly when some amount is below
      10, and is then the sum of exactly those amounts. */
  lemma SmallTotalIsSum(rows: seq<Expense>)
    ensures SmallTotal(rows).Some? <==> exists i :: 0 <= i < |rows| && rows[i].amount < SmallAmount
    ensures SmallTotal(rows).Some? ==>
              SmallTotal(rows).value == SumFor(Pairs(rows, IsSmall, (e: Expense) => e.amount), true)
  {
    var small := Filter(rows, IsSmall);
    FilterMembers(rows, IsSmall);
    if exists i :: 0 <= i < |rows| && rows[i].amount < SmallAmount {
      var i :| 0 <= i < |rows| && rows[i].amount < SmallAmount;
      assert rows[i] in small;
    }
    FilterTotal(rows, IsSmall, (e: Expense) => e.account, IsSmall, true, (e: Expense) => e.amount);
  }
}

=== FILE: legacy_entry.dfy ===
/** The older one-shot entry script: five answers, each coerced rather than
    asked again, and one comma-joined line appended to the text file. */
module LegacyEntry {
  import opened Options
  import opened Text
  import opened Numbers
  import opened Dates
  import opened Records
  import opened Entry

  /** The date answer: blank takes today's date as dd/mm/yyyy; anything else
      is kept, stripped, without being checked. */
  function LegacyDate(today: Date, answer: string): (r: string)
    requires IsRealDate(today)
    ensures Strip(answer) == "" ==> r == FormatDayFirst(today)
    ensures Strip(answer) != "" ==> r == Strip(answer) && IsStripped(r)
  {
    var u := Strip(answer);
    StripIsStripped(answer);
    if u == "" then FormatDayFirst(today) else u
  }

  /** Whenever the newer prompt accepts a date answer, the older script
      keeps the same text. */
  lemma LegacyDateAgrees(today: Date, answer: string)
    requires IsRealDate(today) && DateAnswer(today, answer).Some?
    ensures LegacyDate(today, answer) == DateAnswer(today, answer).value
  {
  }

  /** The account answer: kept when it is exactly one of the accounts,
      "Commun" otherwise. */
  function LegacyAccount(answer: string): (r: string)
    ensures r in Accounts
    ensures Strip(answer) in Accounts <==> r == Strip(answer)
  {
    var u := Strip(answer);
    if u in Accounts then u
    else
      assert u != Accounts[0] && u != Accounts[1] && u != Accounts[2];
      Accounts[0]
  }

  /** Coercing an account a second time changes nothing. */
  lemma LegacyAccountIdempotent(answer: string)
    ensures LegacyAccount(LegacyAccount(answer)) == LegacyAccount(answer)
  {
    var r := LegacyAccount(answer);
    assert IsStripped(Accounts[0]) && IsStripped(Accounts[1]) && IsStripped(Accounts[2]);
    StripStripped(r);
  }

  /** The category answer: `int(answer)` between 1 and 14 picks that
      category; an out-of-range number or a non-number gives "Autre". */
  function LegacyCategory(answer: string): (r: string)
    ensures r in Categories
  {
    match ParseInt(Strip(answer))
    case Some(k) => if 0 <= k - 1 < |Categories| then Categories[k - 1] else Categories[13]
    case None => Categories[13]
  }

  /** The legacy category is the numbered menu's pick, with "Autre" in place
      of asking again. */
  lemma LegacyCategoryIsMenuOrAutre(answer: string)
    ensures MenuAnswer(Categories, Strip(answer)).Some? ==> LegacyCategory(answer) == MenuAnswer(Categories, Strip(answer)).value
    ensures MenuAnswer(Categories, Strip(answer)).None? ==> LegacyCategory(answer) == "Autre"
  {
  }

  /** Typing the number k picks the k-th category exactly when 1 <= k <= 14. */
  lemma LegacyCategoryPicks(k: int)
    ensures 1 <= k <= 14 ==> LegacyCategory(IntToString(k)) == Categories[k - 1]
    ensures !(1 <= k <= 14) ==> LegacyCategory(IntToString(k)) == "Autre"
  {
    var t := IntToString(k);
    assert t != "" && !IsSpace(t[0]) && !IsSpace(t[|t| - 1]) by {
      ParseIntText(k);
      assert !IsSpace(t[0]) && !IsSpace(t[|t| - 1]);
    }
    StripStripped(t);
    ParseIntText(k);
  }

  /** The description answer: stripped, then every comma deleted. */
  function LegacyDescription(answer: string): (r: string)
    ensures ',' !in r
    ensures multiset(r) == multiset(Strip(answer))[',' := 0]
  {
    RemoveAll(Strip(answer), ',')
  }

  /** Deleting commas from text that has none keeps it as it is. */
  lemma {:induction false} RemoveAllAbsent(s: string, a: char)
    requires a !in s
    ensures RemoveAll(s, a) == s
    decreases |s|
  {
    if |s| > 0 {
      RemoveAllAbsent(s[1..], a);
      assert s == [s[0]] + s[1..];
    }
  }

  /** A stripped description without commas is stored as typed. */
  lemma LegacyDescriptionKept(answer: string)
    requires IsStripped(answer) && ',' !in answer
    ensures LegacyDescription(answer) == answer
  {
    StripStripped(answer);
    RemoveAllAbsent(answer, ',');
  }

  /** Comma-free parts joined by commas are stored glued together, in order. */
  lemma {:induction false} RemoveCommasJoined(parts: seq<string>)
    requires forall i :: 0 <= i < |parts| ==> ',' !in parts[i]
    ensures RemoveAll(Join(parts, ','), ',') == Flatten(parts)
    decreases |parts|
  {
    if |parts| == 1 {
      RemoveAllAbsent(parts[0], ',');
      assert Flatten(parts[1..]) == "";
    } else if |parts| > 1 {
      var rest := Join(parts[1..], ',');
      RemoveCommasJoined(parts[1..]);
      RemoveAllAppend(parts[0] + [','], rest, ',');
      RemoveAllAppend(parts[0], [','], ',');
      RemoveAllChar(',', ',');
      RemoveAllAbsent(parts[0], ',');
      assert parts[0] + [','] + rest == (parts[0] + [',']) + rest;
    }
  }

  /** The description of an answer whose stripped text is comma-free pieces
      joined by commas is those pieces, in order, with nothing between them. */
  lemma LegacyDescriptionJoined(answer: string, parts: seq<string>)
    requires Strip(answer) == Join(parts, ',')
    requires forall i :: 0 <= i < |parts| ==> ',' !in parts[i]
    ensures LegacyDescription(answer) == Flatten(parts)
  {
    RemoveCommasJoined(parts);
  }

  /** Deleting the commas keeps every other character in its order: the
      description of "t,u" is the description of t followed by that of u. */
  lemma LegacyDescriptionInOrder(answer: string, t: string, u: string)
    requires Strip(answer) == t + u
    ensures LegacyDescription(answer) == RemoveAll(t, ',') + RemoveAll(u, ',')
  {
    RemoveAllAppend(t, u, ',');
  }

  /** The text appended to the file: a newline, then the five fields joined
      by commas. */
  function LegacyLine(date: string, account: string, category: string, description: string, amount: string): (line: string)
    ensures |line| >= 1 && line[0] == '\n'
  {
    "\n" + Join([date, account, category, description, amount], ',')
  }

  /** The whole script over its five answers (date, account, category,
      description, amount); `None` when the answers run out first. */
  function AddNewExpense(today: Date, answers: seq<string>): (line: Option<string>)
    requires IsRealDate(today)
    ensures |answers| < 5 <==> line.None?
  {
    if |answers| < 5 then None
    else
      Some(LegacyLine(LegacyDate(today, answers[0]), LegacyAccount(answers[1]), LegacyCategory(answers[2]),
                      LegacyDescription(answers[3]), Strip(answers[4])))
  }

  /** When the date and the amount hold no comma, splitting the appended line
      (after its newline) on commas gives back the five fields. */
  lemma LegacyLineSplits(date: string, account: string, category: string, description: string, amount: string)
    requires ',' !in date && ',' !in amount && ',' !in description
    requires account in Accounts && category in Categories
    ensures var line := LegacyLine(date, account, category, description, amount);
            Split(line[1..], ',') == [date, account, category, description, amount]
  {
    ListsCommaFree();
    var fields := [date, account, category, description, amount];
    assert "\n" + Join(fields, ',') == LegacyLine(date, account, category, description, amount);
    assert LegacyLine(date, account, category, description, amount)[1..] == Join(fields, ',');
    SplitJoin(fields, ',');
  }

  /** The line the script appends splits back into its five fields, the
      account one of the accounts and the category one of the categories,
      whenever the typed date and amount hold no comma. */
  lemma AddNewExpenseSplits(today: Date, answers: seq<string>)
    requires IsRealDate(today) && |answers| >= 5
    requires ',' !in Strip(answers[0]) && ',' !in Strip(answers[4])
    ensures var fields := Split(AddNewExpense(today, answers).value[1..], ',');
            |fields| == 5 && fields[1] in Accounts && fields[2] in Categories && ',' !in fields[3] &&
            fields[4] == Strip(answers[4])
  {
    var date := LegacyDate(today, answers[0]);
    if Strip(answers[0]) == "" {
      ValidateFormattedDate(today);
    }
    LegacyLineSplits(date, LegacyAccount(answers[1]), LegacyCategory(answers[2]),
                     LegacyDescription(answers[3]), Strip(answers[4]));
  }
}

=== FILE: monitor.dfy ===
/** The monthly monitor script: for the "Personal" and "Shared" accounts of
    the English-schema file, the (month, category) sums, one summary file
    per month. */
module Monitor {
  import opened Options
  import opened Orders
  import opened Text
  import opened Dates
  import opened Records
  import opened Grouping
  import opened Reports

  /** The accounts the script summarises, in loop order. */
  const MonitorAccounts: seq<string> := ["Personal", "Shared"]

  /** One table row: ((month, category), amount). */
  type Line = ((string, string), real)

  /** The movements of one account, in their order. */
  function AccountMovements(ms: seq<Movement>, account: string): seq<Movement> {
    Filter(ms, (m: Movement) => m.account == account)
  }

  /** The ((Month, Category), Amount) pairs of the movements. */
  function MovementPairs(ms: seq<Movement>): seq<Line> {
    Pairs(ms, (m: Movement) => (PeriodKey(m.date), m.category), (m: Movement) => m.amount)
  }

  /** One account's movements summed per (month, category), in ascending
      (month, category) order. */
  function MonitorTable(ms: seq<Movement>, account: string): seq<Line> {
    GroupSum(MovementPairs(AccountMovements(ms, account)), StrPairLess)
  }

  /** The month of every table row, in table order. */
  function MonthsOf(t: seq<Line>): (months: seq<string>)
    ensures |months| == |t| && forall i :: 0 <= i < |t| ==> months[i] == t[i].0.0
  {
    seq(|t|, i requires 0 <= i < |t| => t[i].0.0)
  }

  /** The table rows of one month, in table order. */
  function MonthLines(t: seq<Line>, month: string): seq<Line> {
    Filter(t, (l: Line) => l.0.0 == month)
  }

  /** "Summary/<MonthName>_<Year>_summary_<account in lower case>.csv" for a
      "YYYY-MM" month; the month text is read back as its first day. A month
      key that names no month gives no file name. */
  function MonitorPath(month: string, account: string): (p: Option<string>)
    ensures ParseYearMonth(month).Some? <==> p.Some?
  {
    match ParseYearMonth(month)
    case Some((y, m)) => Some("Summary/" + MonthStem(y, m) + "_summary_" + ToLowerAscii(account) + ".csv")
    case None => None
  }

  /** One `to_csv` call: the file, and the lines written to it. */
  datatype Written = Written(path: Option<string>, account: string, month: string, lines: seq<Line>)

  /** The inner loop: one file per distinct month of the table. */
  function AccountOutputs(t: seq<Line>, account: string): (out: seq<Written>)
    ensures |out| == |Unique(MonthsOf(t))|
    ensures forall i :: 0 <= i < |out| ==> out[i].account == account
  {
    var months := Unique(MonthsOf(t));
    seq(|months|, i requires 0 <= i < |months| =>
      Written(MonitorPath(months[i], account), account, months[i], MonthLines(t, months[i])))
  }

  /** The whole script: the files of "Personal", then those of "Shared". */
  function MonitorRun(ms: seq<Movement>): seq<Written> {
    AccountOutputs(MonitorTable(ms, MonitorAccounts[0]), MonitorAccounts[0])
      + AccountOutputs(MonitorTable(ms, MonitorAccounts[1]), MonitorAccounts[1])
  }

  /** A movement of any other account changes no file. */
  lemma OtherAccountIgnored(ms: seq<Movement>, m: Movement)
    requires m.account !in MonitorAccounts
    ensures MonitorRun(ms + [m]) == MonitorRun(ms)
  {
    assert (ms + [m])[..|ms|] == ms;
    assert AccountMovements(ms + [m], MonitorAccounts[0]) == AccountMovements(ms, MonitorAccounts[0]);
    assert AccountMovements(ms + [m], MonitorAccounts[1]) == AccountMovements(ms, MonitorAccounts[1]);
  }

  /** Each table line is one (month, category) pair that occurs, holding the
      sum of that pair's amounts; the lines come in (month, category) order
      and every pair that occurs has a line. */
  lemma MonitorTableSums(ms: seq<Movement>, account: string)
    ensures var ps := MovementPairs(AccountMovements(ms, account));
            var t := MonitorTable(ms, account);
            KeySorted(t, StrPairLess) &&
            KeysOf(t) == KeysOf(ps) &&
            forall i :: 0 <= i < |t| ==> t[i].1 == SumFor(ps, t[i].0)
  {
    var ps := MovementPairs(AccountMovements(ms, account));
    StrPairLessIsStrictTotalOrder();
    GroupSumSorted(ps, StrPairLess);
    GroupSumEntries(ps, StrPairLess);
    GroupSumKeys(ps, StrPairLess);
  }

  /** The pairs that occur for an account are those of its movements. */
  lemma MonitorKeys(ms: seq<Movement>, account: string, month: string, category: string)
    ensures (month, category) in KeysOf(MonitorTable(ms, account)) <==>
            exists i :: 0 <= i < |ms| && ms[i].account == account && PeriodKey(ms[i].date) == month && ms[i].category == category
  {
    var mine := AccountMovements(ms, account);
    var ps := MovementPairs(mine);
    GroupSumKeys(ps, StrPairLess);
    FilterMembers(ms, (m: Movement) => m.account == account);
    if (month, category) in KeysOf(ps) {
      var j :| 0 <= j < |ps| && ps[j].0 == (month, category);
      assert mine[j] in ms;
      var i :| 0 <= i < |ms| && ms[i] == mine[j];
    }
    if exists i :: 0 <= i < |ms| && ms[i].account == account && PeriodKey(ms[i].date) == month && ms[i].category == category {
      var i :| 0 <= i < |ms| && ms[i].account == account && PeriodKey(ms[i].date) == month && ms[i].category == category;
      assert ms[i] in mine;
      var j :| 0 <= j < |mine| && mine[j] == ms[i];
      assert ps[j].0 == (month, category);
    }
  }

  /** Each file holds only its month's lines, no two files of an account are
      for the same month, and every line of the table is in the file of its
      month. */
  lemma AccountOutputsSplit(t: seq<Line>, account: string)
    ensures var out := AccountOutputs(t, account);
            (forall i :: 0 <= i < |out| ==> forall l :: l in out[i].lines <==> l in t && l.0.0 == out[i].month) &&
            (forall i, j :: 0 <= i < j < |out| ==> out[i].month != out[j].month) &&
            (forall l :: l in t ==> exists i :: 0 <= i < |out| && out[i].month == l.0.0 && l in out[i].lines)
  {
    var out := AccountOutputs(t, account);
    var months := Unique(MonthsOf(t));
    forall i | 0 <= i < |out| ensures forall l :: l in out[i].lines <==> l in t && l.0.0 == out[i].month {
      FilterMembers(t, (l: Line) => l.0.0 == months[i]);
    }
    forall l | l in t ensures exists i :: 0 <= i < |out| && out[i].month == l.0.0 && l in out[i].lines {
      var k :| 0 <= k < |t| && t[k] == l;
      assert MonthsOf(t)[k] == l.0.0;
      assert l.0.0 in MonthsOf(t);
      assert l.0.0 in months;
      var i :| 0 <= i < |months| && months[i] == l.0.0;
      FilterMembers(t, (l: Line) => l.0.0 == months[i]);
      assert out[i].month == l.0.0 && l in out[i].lines;
    }
  }

  /** The file of a movement's month is named after that month: a real date
      always yields a name. */
  lemma MonitorPathOfDate(d: Date, account: string)
    requires IsRealDate(d)
    ensures MonitorPath(PeriodKey(d), account) ==
            Some("Summary/" + MonthStem(d.year, d.month) + "_summary_" + ToLowerAscii(account) + ".csv")
  {
    MonthKeyParses(d.year, d.month);
  }
}

=== FILE: numbers.dfy ===
/** Python's number conversions as the scripts use them: `int(text)` for menu
    choices, `float(text)` for amounts, and `f"{amount:.2f}"` for the stored
    amount field. */
module Numbers {
  import opened Options
  import opened Text

  /** One or more decimal digits: the numerals `int()` and `float()` accept
      in this model. */
  predicate IsNumeral(s: string) {
    |s| > 0 && AllDigits(s)
  }

  /** Splits an optional leading sign off an already stripped numeral. */
  function Unsigned(t: string): string {
    if |t| > 0 && (t[0] == '-' || t[0] == '+') then t[1..] else t
  }

  predicate IsNegative(t: string) {
    |t| > 0 && t[0] == '-'
  }

  /** Python's `int(s)` in base 10: surrounding white space, one optional
      sign, then a digit group. `None` is the `ValueError`. */
  function ParseInt(s: string): Option<int> {
    var t := Strip(s);
    var body := Unsigned(t);
    if IsNumeral(body) then
      var n: int := DigitsValue(body);
      Some(if IsNegative(t) then -n else n)
    else None
  }

  /** `str(n)` for any integer. */
  function IntToString(n: int): string {
    if n < 0 then "-" + NatToString(-n) else NatToString(n)
  }

  /** `int(str(n)) == n`, and white space around the text does not matter. */
  lemma ParseIntRoundTrip(n: int, pad: string)
    requires forall k :: 0 <= k < |pad| ==> IsSpace(pad[k])
    ensures ParseInt(pad + IntToString(n) + pad) == Some(n)
  {
    var d := NatToString(if n < 0 then -n else n);
    var t := IntToString(n);
    assert !IsSpace(t[0]) && !IsSpace(t[|t| - 1]);
    StripPadded(pad, t);
    UnsignedIntText(n);
  }

  /** Writing an integer in decimal and parsing it back gives it back. */
  lemma ParseIntText(n: int)
    ensures ParseInt(IntToString(n)) == Some(n)
  {
    var d := NatToString(if n < 0 then -n else n);
    var t := IntToString(n);
    assert !IsSpace(t[0]) && !IsSpace(t[|t| - 1]);
    StripStripped(t);
    UnsignedIntText(n);
  }

  lemma UnsignedIntText(n: int)
    ensures Unsigned(IntToString(n)) == NatToString(if n < 0 then -n else n)
    ensures IsNegative(IntToString(n)) <==> n < 0
  {
    var t := IntToString(n);
    if n < 0 {
      assert t[1..] == NatToString(-n);
    }
  }

  lemma StripPadded(pad: string, t: string)
    requires forall k :: 0 <= k < |pad| ==> IsSpace(pad[k])
    requires |t| > 0 && !IsSpace(t[0]) && !IsSpace(t[|t| - 1])
    ensures Strip(pad + t + pad) == t
  {
    assert pad + t + pad == pad + (t + pad);
    StripLeftPadding(pad, t + pad);
    StripRightPadding(t, pad);
  }

  /** Text holding no digit is never an integer. */
  lemma ParseIntNeedsDigit(s: string)
    requires forall k :: 0 <= k < |s| ==> !IsDigit(s[k])
    ensures ParseInt(s) == None
  {
    var t := Strip(s);
    var body := Unsigned(t);
    StripSlice(s);
    if |body| > 0 {
      var j := LeadingSpaces(s) + (|t| - |body|);
      assert s[j] == body[0];
    }
  }

  /** The value of plain digits read after a decimal point: "5" is one
      half, "25" one quarter. */
  function FractionDigits(digits: string): (r: real)
    requires AllDigits(digits)
    ensures 0.0 <= r < 1.0
  {
    if |digits| == 0 then 0.0
    else ((digits[0] as int - '0' as int) as real + FractionDigits(digits[1..])) / 10.0
  }

  /** Two digits after the point count hundredths. */
  lemma TwoDigitFraction(t: string)
    requires |t| == 2 && AllDigits(t)
    ensures FractionDigits(t) == DigitsValue(t) as real / 100.0
  {
    assert t[1..][1..] == "";
    assert t[..1][..0] == "";
    var d0, d1 := (t[0] as int - '0' as int) as real, (t[1] as int - '0' as int) as real;
    assert FractionDigits(t[1..]) == d1 / 10.0;
    assert DigitsValue(t) as real == d0 * 10.0 + d1;
  }

  /** The value of a numeral already cut at its decimal points: one
      numeral, or digits, a point and digits with a digit on at least one
      side. */
  function PiecesValue(parts: seq<string>): Option<real> {
    if |parts| == 1 then
      if IsNumeral(parts[0]) then Some(DigitsValue(parts[0]) as real) else None
    else if |parts| == 2 then
      var whole, frac := parts[0], parts[1];
      if AllDigits(whole) && AllDigits(frac) && (whole != "" || frac != "") then
        Some(DigitsValue(whole) as real + FractionDigits(frac))
      else None
    else None
  }

  /** The value of an unsigned decimal numeral "12", "12.5", "12." or ".5",
      at least one digit; `None` for anything else. */
  function DecimalValue(body: string): Option<real> {
    PiecesValue(Split(body, '.'))
  }

  /** Python's `float(s)` on decimal numerals: surrounding white space, one
      optional sign, digits with an optional fractional part. */
  function ParseDecimal(s: string): Option<real> {
    var t := Strip(s);
    match DecimalValue(Unsigned(t))
    case None => None
    case Some(v) => Some(if IsNegative(t) then -v else v)
  }

  /** The amount in whole cents, rounded half up. */
  function RoundCents(v: real): int {
    (v * 100.0 + 0.5).Floor
  }

  function CentsText(n: nat): (r: string)
  {
    NatToString(n / 100) + "." + PadDigits(n % 100, 2)
  }

  /** `f"{v:.2f}"`: the amount with exactly two decimals. */
  function FormatFixed2(v: real): string {
    var c := RoundCents(v);
    if c < 0 then "-" + CentsText(-c) else CentsText(c)
  }

  lemma SplitAtPoint(whole: string, frac: string)
    requires AllDigits(whole) && AllDigits(frac)
    ensures Split(whole + "." + frac, '.') == [whole, frac]
  {
    assert whole + "." + frac == Join([whole, frac], '.');
    assert '.' !in whole && '.' !in frac by {
      assert forall k :: 0 <= k < |whole| ==> IsDigit(whole[k]);
      assert forall k :: 0 <= k < |frac| ==> IsDigit(frac[k]);
    }
    SplitJoin([whole, frac], '.');
  }

  lemma PiecesValueOfDigits(whole: string, frac: string)
    requires |whole| > 0 && AllDigits(whole) && |frac| > 0 && AllDigits(frac)
    ensures PiecesValue([whole, frac])
            == Some(DigitsValue(whole) as real + FractionDigits(frac))
  {
    var parts := [whole, frac];
    assert |parts| == 2 && parts[0] == whole && parts[1] == frac;
  }

  /** `float("whole.frac")` for two plain digit strings. */
  lemma ParseDecimalOfPoint(whole: string, frac: string)
    requires |whole| > 0 && AllDigits(whole) && |frac| > 0 && AllDigits(frac)
    ensures ParseDecimal(whole + "." + frac)
            == Some(DigitsValue(whole) as real + FractionDigits(frac))
  {
    var t := whole + "." + frac;
    assert t[0] == whole[0] && t[|t| - 1] == frac[|frac| - 1];
    ParsePlainDecimal(t);
    DecimalValueOfPoint(whole, frac);
  }

  /** The value of "whole.frac" for two plain digit strings. */
  lemma DecimalValueOfPoint(whole: string, frac: string)
    requires |whole| > 0 && AllDigits(whole) && |frac| > 0 && AllDigits(frac)
    ensures DecimalValue(whole + "." + frac)
            == Some(DigitsValue(whole) as real + FractionDigits(frac))
  {
    SplitAtPoint(whole, frac);
    PiecesValueOfDigits(whole, frac);
  }

  /** The text of a cent amount: digits, one point, digits. */
  lemma CentsTextShape(n: nat)
    ensures |CentsText(n)| >= 4
    ensures IsDigit(CentsText(n)[0]) && IsDigit(CentsText(n)[|CentsText(n)| - 1])
    ensures forall k :: 0 <= k < |CentsText(n)| ==> IsDigit(CentsText(n)[k]) || CentsText(n)[k] == '.'
  {
    var whole, frac := NatToString(n / 100), PadDigits(n % 100, 2);
    var t := CentsText(n);
    assert t == whole + "." + frac;
    assert forall k :: 0 <= k < |whole| ==> t[k] == whole[k];
    assert forall k :: |whole| < k < |t| ==> t[k] == frac[k - |whole| - 1];
  }

  lemma DecimalCentsText(n: nat)
    ensures DecimalValue(CentsText(n)) == Some(n as real / 100.0)
  {
    var whole, frac := NatToString(n / 100), PadDigits(n % 100, 2);
    assert CentsText(n) == whole + "." + frac;
    DecimalValueOfPoint(whole, frac);
    var v := DigitsValue(whole) as real + FractionDigits(frac);
    TwoDigitFraction(frac);
    assert v == (n / 100) as real + (n % 100) as real / 100.0;
    assert v == n as real / 100.0;
  }

  /** A numeral with no surrounding space and no sign is read as its
      decimal value. */
  lemma ParsePlainDecimal(t: string)
    requires |t| > 0 && IsDigit(t[0]) && IsDigit(t[|t| - 1])
    ensures ParseDecimal(t) == DecimalValue(t)
  {
    assert !IsSpace(t[0]) && !IsSpace(t[|t| - 1]);
    StripStripped(t);
    assert Unsigned(t) == t && !IsNegative(t);
  }

  /** Reading back a two-decimal amount gives the cents it was written from. */
  lemma ParseCentsText(n: nat)
    ensures ParseDecimal(CentsText(n)) == Some(n as real / 100.0)
  {
    CentsTextShape(n);
    ParsePlainDecimal(CentsText(n));
    DecimalCentsText(n);
  }

  /** A minus sign in front of a numeral negates its value. */
  lemma ParseNegatedDecimal(t: string)
    requires |t| > 0 && IsDigit(t[0]) && IsDigit(t[|t| - 1])
    ensures ParseDecimal("-" + t) == (match DecimalValue(t) case None => None case Some(v) => Some(-v))
  {
    var s := ['-'] + t;
    assert s[0] == '-' && s[1..] == t;
    assert s[|s| - 1] == t[|t| - 1];
    StripStripped(s);
  }

  /** A non-negative amount is written as its cents. */
  lemma FormatFixed2NonNegative(v: real)
    requires v >= 0.0
    ensures RoundCents(v) >= 0
    ensures FormatFixed2(v) == CentsText(RoundCents(v))
  {
  }

  /** An amount already exact to the cent is written and read back unchanged. */
  lemma FormatFixed2RoundTrip(n: nat)
    ensures ParseDecimal(FormatFixed2(n as real / 100.0)) == Some(n as real / 100.0)
  {
    assert RoundCents(n as real / 100.0) == n;
    ParseCentsText(n);
  }
}

=== FILE: options.dfy ===
/** The optional-value datatype used for every "may fail" result of the model:
    a rejected input, an absent file, a value the program could not compute. */
module Options {

  datatype Option<+T> = None | Some(value: T) {

    /** The contained value, or `default` when there is none. */
    function GetOr(default: T): T {
      match this
      case Some(v) => v
      case None => default
    }
  }
}

=== FILE: orders.dfy ===
/** Orderings used by the group-by and sort operations: the laws they must obey,
    and the string order Python applies to `str` keys. */
module Orders {

  /** `less` is irreflexive, transitive and relates any two distinct keys:
      the order pandas uses for group keys and sorted indexes. */
  ghost predicate StrictTotalOrder<K(!new)>(less: (K, K) -> bool) {
    && (forall a :: !less(a, a))
    && (forall a, b, c :: less(a, b) && less(b, c) ==> less(a, c))
    && (forall a, b :: a != b ==> less(a, b) || less(b, a))
  }

  /** `le` ("may come before") compares any two values and is transitive:
      the shape of a sort key that may have ties. */
  ghost predicate TotalPreorder<T(!new)>(le: (T, T) -> bool) {
    && (forall a, b :: le(a, b) || le(b, a))
    && (forall a, b, c :: le(a, b) && le(b, c) ==> le(a, c))
  }

  ghost predicate StrictlySorted<K>(ks: seq<K>, less: (K, K) -> bool) {
    forall i, j :: 0 <= i < j < |ks| ==> less(ks[i], ks[j])
  }

  ghost predicate SortedBy<T>(s: seq<T>, le: (T, T) -> bool) {
    forall i, j :: 0 <= i < j < |s| ==> le(s[i], s[j])
  }

  /** Python's `<` on `str`: code point by code point, a proper prefix first. */
  predicate StrLess(a: string, b: string)
    decreases |a|
  {
    if |a| == 0 then |b| > 0
    else if |b| == 0 then false
    else a[0] < b[0] || (a[0] == b[0] && StrLess(a[1..], b[1..]))
  }

  lemma StrLessIrreflexive(a: string)
    ensures !StrLess(a, a)
  {
  }

  lemma {:induction false} StrLessTransitive(a: string, b: string, c: string)
    requires StrLess(a, b) && StrLess(b, c)
    ensures StrLess(a, c)
    decreases |a|
  {
    if |a| > 0 && |b| > 0 && |c| > 0 && a[0] == b[0] && b[0] == c[0] {
      StrLessTransitive(a[1..], b[1..], c[1..]);
    }
  }

  lemma {:induction false} StrLessTotal(a: string, b: string)
    requires a != b
    ensures StrLess(a, b) || StrLess(b, a)
    decreases |a|
  {
    if |a| > 0 && |b| > 0 && a[0] == b[0] {
      assert a == [a[0]] + a[1..] && b == [b[0]] + b[1..];
      StrLessTotal(a[1..], b[1..]);
    }
  }

  lemma StrLessIsStrictTotalOrder()
    ensures StrictTotalOrder(StrLess)
  {
    forall a: string { StrLessIrreflexive(a); }
    forall a: string, b: string, c: string | StrLess(a, b) && StrLess(b, c) {
      StrLessTransitive(a, b, c);
    }
    forall a: string, b: string | a != b {
      StrLessTotal(a, b);
    }
  }

  /** Comparing two strings that share a prefix compares what follows it. */
  lemma {:induction false} StrLessCommonPrefix(p: string, a: string, b: string)
    ensures StrLess(p + a, p + b) <==> StrLess(a, b)
    decreases |p|
  {
    if |p| > 0 {
      var pa, pb := p + a, p + b;
      assert |pa| > 0 && |pb| > 0 && pa[0] == pb[0];
      assert pa[1..] == p[1..] + a && pb[1..] == p[1..] + b;
      assert StrLess(pa, pb) == StrLess(pa[1..], pb[1..]);
      StrLessCommonPrefix(p[1..], a, b);
    } else {
      assert p + a == a && p + b == b;
    }
  }

  /** Two strings of equal length that differ are ordered by their first
      difference, whatever follows them. */
  lemma {:induction false} StrLessEqualLength(a: string, b: string, x: string, y: string)
    requires |a| == |b| && a != b
    ensures StrLess(a + x, b + y) <==> StrLess(a, b)
    decreases |a|
  {
    assert |a| > 0;
    if a[0] == b[0] {
      assert a[1..] != b[1..] by {
        assert a == [a[0]] + a[1..] && b == [b[0]] + b[1..];
      }
      assert (a + x)[1..] == a[1..] + x && (b + y)[1..] == b[1..] + y;
      StrLessEqualLength(a[1..], b[1..], x, y);
    }
  }

  /** Lexicographic order on pairs of strings: the order pandas gives a
      two-column group key such as (Month, Categorie). */
  predicate StrPairLess(p: (string, string), q: (string, string)) {
    StrLess(p.0, q.0) || (p.0 == q.0 && StrLess(p.1, q.1))
  }

  lemma StrPairLessIsStrictTotalOrder()
    ensures StrictTotalOrder(StrPairLess)
  {
    StrLessIsStrictTotalOrder();
  }
}

=== FILE: prompts.dfy ===
/** The "ask again until the answer is acceptable" loops of the interactive
    scripts, read over the sequence of lines the user types. */
module Prompts {
  import opened Options

  /** The value an accepted answer yields, and how many lines were read to
      get it (the rejected ones and the accepted one). */
  datatype Accepted<T> = Accepted(value: T, used: nat)

  /** Reads answers until `check` accepts one. `None` means the input ran
      out first (Python raises `EOFError` there). */
  function FirstAccepted<T>(answers: seq<string>, check: string -> Option<T>): (r: Option<Accepted<T>>)
    ensures r.Some? ==> 1 <= r.value.used <= |answers|
    ensures r.Some? ==> check(answers[r.value.used - 1]) == Some(r.value.value)
  {
    if |answers| == 0 then None
    else
      match check(answers[0])
      case Some(v) => Some(Accepted(v, 1))
      case None =>
        match FirstAccepted(answers[1..], check)
        case None => None
        case Some(a) => Some(Accepted(a.value, a.used + 1))
  }

  /** Every line before the accepted one was rejected. */
  lemma {:induction false} FirstAcceptedSkips<T>(answers: seq<string>, check: string -> Option<T>)
    requires FirstAccepted(answers, check).Some?
    ensures forall k :: 0 <= k < FirstAccepted(answers, check).value.used - 1 ==> check(answers[k]).None?
    decreases |answers|
  {
    if check(answers[0]).None? {
      FirstAcceptedSkips(answers[1..], check);
      assert forall k :: 1 <= k < |answers| ==> answers[k] == answers[1..][k - 1];
    }
  }

  /** Nothing is accepted exactly when every line is rejected. */
  lemma {:induction false} FirstAcceptedNone<T>(answers: seq<string>, check: string -> Option<T>)
    ensures FirstAccepted(answers, check).None? <==> forall k :: 0 <= k < |answers| ==> check(answers[k]).None?
    decreases |answers|
  {
    if |answers| > 0 {
      FirstAcceptedNone(answers[1..], check);
      assert forall k :: 1 <= k < |answers| ==> answers[k] == answers[1..][k - 1];
    }
  }

  /** Lines typed after an acceptable answer do not change what is read. */
  lemma {:induction false} FirstAcceptedIgnoresLater<T>(answers: seq<string>, later: seq<string>, check: string -> Option<T>)
    requires FirstAccepted(answers, check).Some?
    ensures FirstAccepted(answers + later, check) == FirstAccepted(answers, check)
    decreases |answers|
  {
    if check(answers[0]).None? {
      assert (answers + later)[1..] == answers[1..] + later;
      FirstAcceptedIgnoresLater(answers[1..], later, check);
    }
  }

  /** An acceptable first answer is taken at once. */
  lemma FirstAcceptedHead<T>(answers: seq<string>, check: string -> Option<T>, v: T)
    requires |answers| > 0 && check(answers[0]) == Some(v)
    ensures FirstAccepted(answers, check) == Some(Accepted(v, 1))
  {
  }
}

=== FILE: records.dfy ===
/** The expense record and the closed lists an entry is chosen from. */
module Records {
  import opened Dates
  import opened Text

  /** What `row['Sous-categorie'] if 'Sous-categorie' in row else None` yields
      for one row: the file has no such column, the cell is blank (pandas
      reads it as NaN), or it names a subcategory. */
  datatype SubcategoryCell = NoColumn | Blank | Named(name: string)

  /** One parsed row of an expense file in the French schema
      (Date, Compte, Categorie, [Sous-categorie], Description, Montant). */
  datatype Expense = Expense(
    date: Date,
    account: string,
    category: string,
    subcategory: SubcategoryCell,
    description: string,
    amount: real)

  /** One parsed row of the English-schema file the monitor script reads
      (Date, Account, Category, Amount). It is a separate view: the two
      schemas are never mixed. */
  datatype Movement = Movement(date: Date, account: string, category: string, amount: real)

  /** Every date came through `pd.to_datetime`, so it is a real date. */
  predicate ParsedDates(rs: seq<Expense>) {
    forall i :: 0 <= i < |rs| ==> IsRealDate(rs[i].date)
  }

  predicate ParsedMovementDates(ms: seq<Movement>) {
    forall i :: 0 <= i < |ms| ==> IsRealDate(ms[i].date)
  }

  /** The household accounts, in menu order. */
  const Accounts: seq<string> := ["Commun", "Luc", "Laura"]

  /** The expense categories, in menu order. */
  const Categories: seq<string> := [
    "Maison", "Transport", "Santé", "Restaurant", "Courses", "Bien-être", "Culture",
    "Sport", "Shopping", "Saucisse", "Liquide", "Economie", "Cadeau", "Autre"]

  /** The header row written to a fresh or freshly archived expense file. */
  const Header: seq<string> := ["Date", "Compte", "Categorie", "Description", "Montant"]

  /** The description stored when the user gives none. */
  const NoDescription: string := "No description"

  lemma NoDescriptionShape()
    ensures NoDescription != "" && ',' !in NoDescription && IsStripped(NoDescription)
  {
  }

  /** None of the fixed names holds a comma, so none needs CSV quoting. */
  lemma ListsCommaFree()
    ensures forall a :: a in Accounts ==> ',' !in a
    ensures forall c :: c in Categories ==> ',' !in c
  {
  }
}

=== FILE: reports.dfy ===
/** The read side of `ExpenseTracker`: the recent-expenses view, the
    per-account and overall totals of the monthly summary, the summary
    files it saves, and the monthly summary loop as it is written. */
module Reports {
  import opened Options
  import opened Orders
  import opened Dates
  import opened Text
  import opened Records
  import opened Grouping

  /** A number that orders real dates the way time does. */
  function DateRank(d: Date): real {
    ((d.year * 100 + d.month) * 100 + d.day) as real
  }

  lemma DateRankOrder(a: Date, b: Date)
    requires IsRealDate(a) && IsRealDate(b)
    ensures DateLess(a, b) <==> DateRank(a) < DateRank(b)
    ensures a == b <==> DateRank(a) == DateRank(b)
  {
  }

  function ExpenseRank(e: Expense): real {
    DateRank(e.date)
  }

  /** The rows newest first, cut to `limit` as `head` cuts a table. */
  function RecentRows(rows: seq<Expense>, limit: int): seq<Expense> {
    Head(SortDesc(rows, ExpenseRank), limit)
  }

  /** `view_recent_expenses`: nothing to show without a live file or
      without rows in it; otherwise at most `limit` rows, newest first. */
  function ViewRecent(live: Option<seq<Expense>>, limit: int): (r: Option<seq<Expense>>)
    ensures r.None? <==> live.None? || |live.value| == 0
    ensures r.Some? && limit >= 0 ==> |r.value| <= limit
    ensures r.Some? && limit >= 0 ==> |r.value| == if limit < |live.value| then limit else |live.value|
  {
    match live
    case None => None
    case Some(rows) =>
      if |rows| == 0 then None
      else
        SortDescLength(rows, ExpenseRank);
        Some(RecentRows(rows, limit))
  }

  /** The rows shown are newest first. */
  lemma RecentNewestFirst(rows: seq<Expense>, limit: int)
    requires ParsedDates(rows)
    ensures forall i, j :: 0 <= i < j < |RecentRows(rows, limit)| ==>
              !DateLess(RecentRows(rows, limit)[i].date, RecentRows(rows, limit)[j].date)
  {
    var sorted := SortDesc(rows, ExpenseRank);
    var r := RecentRows(rows, limit);
    SortDescSorted(rows, ExpenseRank);
    SortDescPermutes(rows, ExpenseRank);
    forall i, j | 0 <= i < j < |r| ensures !DateLess(r[i].date, r[j].date) {
      assert r[i] == sorted[i] && r[j] == sorted[j];
      assert sorted[i] in multiset(rows) && sorted[j] in multiset(rows);
      DateRankOrder(r[i].date, r[j].date);
    }
  }

  /** The rows shown are rows of the file, each at most as often as there. */
  lemma RecentFromFile(rows: seq<Expense>, limit: int)
    ensures multiset(RecentRows(rows, limit)) <= multiset(rows)
  {
    var sorted := SortDesc(rows, ExpenseRank);
    var r := RecentRows(rows, limit);
    SortDescPermutes(rows, ExpenseRank);
    assert sorted == r + sorted[|r|..];
  }

  /** No row left out is newer than a row shown. */
  lemma RecentAreLatest(rows: seq<Expense>, limit: int)
    requires ParsedDates(rows)
    ensures forall x, i :: x in multiset(rows) - multiset(RecentRows(rows, limit)) && 0 <= i < |RecentRows(rows, limit)| ==>
              !DateLess(RecentRows(rows, limit)[i].date, x.date)
  {
    var sorted := SortDesc(rows, ExpenseRank);
    var r := RecentRows(rows, limit);
    var rest := sorted[|r|..];
    SortDescSorted(rows, ExpenseRank);
    SortDescPermutes(rows, ExpenseRank);
    assert sorted == r + rest;
    assert multiset(rows) - multiset(r) == multiset(rest);
    forall x, i | x in multiset(rest) && 0 <= i < |r| ensures !DateLess(r[i].date, x.date) {
      LeftOutNotNewer(rows, sorted, |r|, x, i);
    }
  }

  lemma LeftOutNotNewer(rows: seq<Expense>, sorted: seq<Expense>, n: nat, x: Expense, i: nat)
    requires ParsedDates(rows) && multiset(sorted) == multiset(rows) && Descending(sorted, ExpenseRank)
    requires i < n <= |sorted| && x in multiset(sorted[n..])
    ensures !DateLess(sorted[i].date, x.date)
  {
    var j :| n <= j < |sorted| && sorted[j] == x by {
      var k :| 0 <= k < |sorted[n..]| && sorted[n..][k] == x;
      assert sorted[n + k] == x;
    }
    assert sorted[i] in multiset(rows) && x in multiset(rows);
    DateRankOrder(sorted[i].date, x.date);
  }

  /** Each row's (account, amount). */
  function AccountPairs(rows: seq<Expense>): seq<(string, real)> {
    Pairs(rows, (e: Expense) => e.account, (e: Expense) => e.amount)
  }

  /** Each row's (category, amount). */
  function CategoryPairs(rows: seq<Expense>): seq<(string, real)> {
    Pairs(rows, (e: Expense) => e.category, (e: Expense) => e.amount)
  }

  /** The rows of one account, in their order. */
  function AccountRows(rows: seq<Expense>, account: string): (r: seq<Expense>)
    ensures forall i :: 0 <= i < |r| ==> r[i].account == account
    ensures |r| == 0 <==> forall i :: 0 <= i < |rows| ==> rows[i].account != account
  {
    if |rows| == 0 then []
    else
      var init := AccountRows(rows[..|rows| - 1], account);
      assert forall i :: 0 <= i < |rows| - 1 ==> rows[..|rows| - 1][i] == rows[i];
      if rows[|rows| - 1].account == account then init + [rows[|rows| - 1]] else init
  }

  /** What one account spent: the sum of its rows' amounts. */
  function AccountTotal(rows: seq<Expense>, account: string): real {
    Total(AccountPairs(AccountRows(rows, account)))
  }

  /** What all accounts spent together: the sum of every amount. */
  function OverallTotal(rows: seq<Expense>): real {
    Total(AccountPairs(rows))
  }

  /** The filtered total is the sum of the account's amounts. */
  lemma {:induction false} AccountTotalIsSum(rows: seq<Expense>, account: string)
    ensures AccountTotal(rows, account) == SumFor(AccountPairs(rows), account)
    decreases |rows|
  {
    if |rows| > 0 {
      var init := rows[..|rows| - 1];
      var last := rows[|rows| - 1];
      AccountTotalIsSum(init, account);
      PairsPrefix(rows, (e: Expense) => e.account, (e: Expense) => e.amount, |rows| - 1);
      var sub := AccountRows(init, account);
      if last.account == account {
        assert AccountRows(rows, account) == sub + [last];
        PairsPrefix(sub + [last], (e: Expense) => e.account, (e: Expense) => e.amount, |sub|);
        assert (sub + [last])[..|sub|] == sub;
      } else {
        assert AccountRows(rows, account) == sub;
      }
    }
  }

  /** When every row belongs to one of the three accounts, the overall total
      is the sum of the three account totals. */
  lemma OverallIsSumOfAccounts(rows: seq<Expense>)
    requires forall i :: 0 <= i < |rows| ==> rows[i].account in Accounts
    ensures OverallTotal(rows) == AccountTotal(rows, "Commun") + AccountTotal(rows, "Luc") + AccountTotal(rows, "Laura")
  {
    var ps := AccountPairs(rows);
    TotalByKeys(ps, Accounts);
    AccountTotalIsSum(rows, "Commun");
    AccountTotalIsSum(rows, "Luc");
    AccountTotalIsSum(rows, "Laura");
    var two, one: seq<string> := ["Commun", "Luc"], ["Commun"];
    assert Accounts[..2] == two && two[..1] == one && one[..0] == [];
    assert Distinct(Accounts);
    assert SumOverKeys(ps, Accounts) == SumOverKeys(ps, two) + SumFor(ps, "Laura");
    assert SumOverKeys(ps, two) == SumOverKeys(ps, one) + SumFor(ps, "Luc");
    assert SumOverKeys(ps, one) == SumOverKeys(ps, []) + SumFor(ps, "Commun");
  }

  /** Each category that occurs with the sum of its amounts, largest sum
      first: one account's spending per category. */
  function CategoryBreakdown(rows: seq<Expense>): seq<(string, real)> {
    SortDesc(GroupSum(CategoryPairs(rows), StrLess), Value)
  }

  /** The breakdown has an entry exactly when there is a row. */
  lemma CategoryBreakdownSize(rows: seq<Expense>)
    ensures |CategoryBreakdown(rows)| == 0 <==> |rows| == 0
  {
    var gs := GroupSum(CategoryPairs(rows), StrLess);
    SortDescLength(gs, Value);
    GroupSumKeys(CategoryPairs(rows), StrLess);
    if |rows| > 0 {
      assert CategoryPairs(rows)[0].0 in KeysOf(CategoryPairs(rows));
    }
  }

  /** The breakdown adds up to the account's total. */
  lemma CategoryBreakdownTotal(rows: seq<Expense>, account: string)
    ensures Total(CategoryBreakdown(AccountRows(rows, account))) == AccountTotal(rows, account)
  {
    var ar := AccountRows(rows, account);
    GroupSumTotal(CategoryPairs(ar), StrLess);
    SortDescTotal(GroupSum(CategoryPairs(ar), StrLess), Value);
    SameAmounts(ar);
  }

  lemma {:induction false} SameAmounts(rows: seq<Expense>)
    ensures Total(CategoryPairs(rows)) == Total(AccountPairs(rows))
    decreases |rows|
  {
    if |rows| > 0 {
      SameAmounts(rows[..|rows| - 1]);
      PairsPrefix(rows, (e: Expense) => e.category, (e: Expense) => e.amount, |rows| - 1);
      PairsPrefix(rows, (e: Expense) => e.account, (e: Expense) => e.amount, |rows| - 1);
    }
  }

  /** One category line of an account's summary: the amount and its share
      of the account's total, in percent. */
  datatype CategoryLine = CategoryLine(category: string, amount: real, percent: real)

  datatype AccountSummary = AccountSummary(account: string, total: real, lines: seq<CategoryLine>)

  /** The per-account breakdown the summary's category loop evidently means
      to print: every category with its amount and share, largest first. A
      zero account total has no shares (pandas would print NaN). */
  function AccountLines(rows: seq<Expense>, account: string): (r: seq<CategoryLine>)
    ensures |r| == |CategoryBreakdown(AccountRows(rows, account))|
  {
    var total := AccountTotal(rows, account);
    var al := CategoryBreakdown(AccountRows(rows, account));
    if total == 0.0 then seq(|al|, i requires 0 <= i < |al| => CategoryLine(al[i].0, al[i].1, 0.0))
    else
      var sh := Shares(al, total);
      seq(|al|, i requires 0 <= i < |al| => CategoryLine(al[i].0, al[i].1, sh[i].1))
  }

  function Percents(lines: seq<CategoryLine>): seq<(string, real)> {
    seq(|lines|, i requires 0 <= i < |lines| => (lines[i].category, lines[i].percent))
  }

  /** With a non-zero account total, the shares add up to 100 percent. */
  lemma AccountSharesAddUp(rows: seq<Expense>, account: string)
    requires AccountTotal(rows, account) != 0.0
    ensures Total(Percents(AccountLines(rows, account))) == 100.0
  {
    var total := AccountTotal(rows, account);
    var al := CategoryBreakdown(AccountRows(rows, account));
    CategoryBreakdownTotal(rows, account);
    TotalShares(al, total);
    assert Percents(AccountLines(rows, account)) == Shares(al, total);
  }

  /** The monthly summary's account sections, corrected: one per account
      that has rows, in menu order. */
  function AccountSections(rows: seq<Expense>, accounts: seq<string>): (r: seq<AccountSummary>)
    ensures |r| <= |accounts|
    ensures forall i :: 0 <= i < |r| ==> r[i].account in accounts && |AccountRows(rows, r[i].account)| > 0
  {
    if |accounts| == 0 then []
    else
      var rest := AccountSections(rows, accounts[1..]);
      var a := accounts[0];
      if |AccountRows(rows, a)| == 0 then rest
      else [AccountSummary(a, AccountTotal(rows, a), AccountLines(rows, a))] + rest
  }

  /** The corrected `monthly_summary`: the account sections and the overall
      total. */
  datatype MonthlySummary = MonthlySummary(sections: seq<AccountSummary>, total: real)

  function MonthlySummaryOf(rows: seq<Expense>): MonthlySummary {
    MonthlySummary(AccountSections(rows, Accounts), OverallTotal(rows))
  }

  /** The summary's category loop as written: it walks the bare amounts and
      unpacks each single amount into a category and an amount, which
      raises `TypeError`. `None` is that error; it happens as
      soon as there is one amount to walk. */
  function UnpackAmounts(amounts: seq<real>): (r: Option<seq<CategoryLine>>)
    ensures r.Some? <==> |amounts| == 0
  {
    if |amounts| == 0 then Some([]) else None
  }

  function Amounts(al: seq<(string, real)>): seq<real> {
    seq(|al|, i requires 0 <= i < |al| => al[i].1)
  }

  /** The account loop of `monthly_summary` as written; `None` is the
      `TypeError` that ends the call before the overall total and the save. */
  function AccountSectionsAsWritten(rows: seq<Expense>, accounts: seq<string>): Option<seq<AccountSummary>> {
    if |accounts| == 0 then Some([])
    else
      var a := accounts[0];
      if |AccountRows(rows, a)| == 0 then AccountSectionsAsWritten(rows, accounts[1..])
      else
        match UnpackAmounts(Amounts(CategoryBreakdown(AccountRows(rows, a))))
        case None => None
        case Some(lines) =>
          match AccountSectionsAsWritten(rows, accounts[1..])
          case None => None
          case Some(rest) => Some([AccountSummary(a, AccountTotal(rows, a), lines)] + rest)
  }

  function MonthlySummaryAsWritten(rows: seq<Expense>): Option<MonthlySummary> {
    match AccountSectionsAsWritten(rows, Accounts)
    case None => None
    case Some(sections) => Some(MonthlySummary(sections, OverallTotal(rows)))
  }

  /** As written, the summary fails exactly when some row belongs to one of
      the listed accounts: the only runs that reach the save are those with
      nothing to save. */
  lemma {:induction false} AsWrittenFails(rows: seq<Expense>, accounts: seq<string>)
    ensures AccountSectionsAsWritten(rows, accounts).None? <==>
            exists i, j :: 0 <= i < |rows| && 0 <= j < |accounts| && rows[i].account == accounts[j]
    decreases |accounts|
  {
    if |accounts| > 0 {
      var a := accounts[0];
      AsWrittenFails(rows, accounts[1..]);
      var ar := AccountRows(rows, a);
      CategoryBreakdownSize(ar);
      if |ar| == 0 {
        assert forall j :: 1 <= j < |accounts| ==> accounts[j] == accounts[1..][j - 1];
        if exists i, j :: 0 <= i < |rows| && 0 <= j < |accounts| && rows[i].account == accounts[j] {
          var i, j :| 0 <= i < |rows| && 0 <= j < |accounts| && rows[i].account == accounts[j];
          assert j > 0 && accounts[1..][j - 1] == accounts[j];
        }
      } else {
        var i :| 0 <= i < |rows| && rows[i].account == a;
        assert rows[i].account == accounts[0];
      }
    }
  }

  /** A live file with one row for "Commun" makes the summary fail. */
  lemma AsWrittenFailsOnOneRow(e: Expense)
    requires e.account == "Commun"
    ensures MonthlySummaryAsWritten([e]).None?
    ensures MonthlySummaryOf([e]).sections != []
  {
    AsWrittenFails([e], Accounts);
    assert [e][0].account == Accounts[0];
    assert |AccountRows([e], "Commun")| > 0;
  }

  /** Where the loop does not fail, it agrees with the corrected summary. */
  lemma AsWrittenAgreesWhenNoRows(rows: seq<Expense>)
    requires forall i :: 0 <= i < |rows| ==> rows[i].account !in Accounts
    ensures MonthlySummaryAsWritten(rows) == Some(MonthlySummaryOf(rows))
    ensures MonthlySummaryOf(rows).sections == []
  {
    NoSections(rows, Accounts);
  }

  lemma {:induction false} NoSections(rows: seq<Expense>, accounts: seq<string>)
    requires forall i :: 0 <= i < |rows| ==> rows[i].account !in accounts
    ensures AccountSectionsAsWritten(rows, accounts) == Some([])
    ensures AccountSections(rows, accounts) == []
    decreases |accounts|
  {
    if |accounts| > 0 {
      assert |AccountRows(rows, accounts[0])| == 0;
      NoSections(rows, accounts[1..]);
    }
  }

  /** Each row's ((month, category), amount). */
  function MonthCategoryPairs(rows: seq<Expense>): seq<((string, string), real)> {
    Pairs(rows, (e: Expense) => (PeriodKey(e.date), e.category), (e: Expense) => e.amount)
  }

  /** `dt.to_period('M').astype(str)` of a parsed date. */
  function PeriodKey(d: Date): string {
    if 0 <= d.year <= 9999 && 1 <= d.month <= 12 then MonthKeyOf(d.year, d.month) else ""
  }

  /** "Summary/<Month>_<Year>_summary_<account in lower case>.csv". */
  function SummaryPath(today: Date, account: string): string
    requires IsRealDate(today)
  {
    "Summary/" + MonthStem(today.year, today.month) + "_summary_" + ToLowerAscii(account) + ".csv"
  }

  /** One saved table: the account's ((month, category), amount) sums. */
  function SavedTable(rows: seq<Expense>, account: string): seq<((string, string), real)> {
    GroupSum(MonthCategoryPairs(AccountRows(rows, account)), StrPairLess)
  }

  /** `_save_monthly_summary`: for each account with rows, in list order, a
      table of the sums per (month, category) over all of that account's
      rows, whatever their month, written under the
      current month's name. */
  function SaveMonthlySummary(rows: seq<Expense>, today: Date, accounts: seq<string>): map<string, seq<((string, string), real)>>
    requires IsRealDate(today)
  {
    if |accounts| == 0 then map[]
    else
      var a := accounts[|accounts| - 1];
      var out := SaveMonthlySummary(rows, today, accounts[..|accounts| - 1]);
      if |AccountRows(rows, a)| > 0 then out[SummaryPath(today, a) := SavedTable(rows, a)] else out
  }

  /** The files written are those of the accounts that have rows. */
  lemma {:induction false} SavedPaths(rows: seq<Expense>, today: Date, accounts: seq<string>)
    requires IsRealDate(today)
    ensures SaveMonthlySummary(rows, today, accounts).Keys ==
            set a | a in accounts && |AccountRows(rows, a)| > 0 :: SummaryPath(today, a)
    decreases |accounts|
  {
    if |accounts| > 0 {
      var init := accounts[..|accounts| - 1];
      SavedPaths(rows, today, init);
      assert accounts == init + [accounts[|accounts| - 1]];
    }
  }

  /** The file name holds the lower-cased account name after a fixed stem. */
  lemma SummaryPathAt(today: Date, account: string, k: nat)
    requires IsRealDate(today) && k < |account|
    ensures var stem := "Summary/" + MonthStem(today.year, today.month) + "_summary_";
            |stem| + k < |SummaryPath(today, account)| &&
            SummaryPath(today, account)[|stem| + k] == ToLowerAscii(account)[k]
  {
  }

  /** The three accounts save to three different files. */
  lemma SummaryPathsDistinct(today: Date)
    requires IsRealDate(today)
    ensures forall i, j :: 0 <= i < j < |Accounts| ==> SummaryPath(today, Accounts[i]) != SummaryPath(today, Accounts[j])
  {
    var stem := "Summary/" + MonthStem(today.year, today.month) + "_summary_";
    SummaryPathAt(today, Accounts[0], 0);
    SummaryPathAt(today, Accounts[1], 0);
    SummaryPathAt(today, Accounts[1], 1);
    SummaryPathAt(today, Accounts[2], 0);
    SummaryPathAt(today, Accounts[2], 1);
    assert SummaryPath(today, Accounts[0])[|stem|] == 'c';
    assert SummaryPath(today, Accounts[1])[|stem|] == 'l' && SummaryPath(today, Accounts[1])[|stem| + 1] == 'u';
    assert SummaryPath(today, Accounts[2])[|stem|] == 'l' && SummaryPath(today, Accounts[2])[|stem| + 1] == 'a';
  }

  /** An account whose file name no other account shares ends up with its
      own table. */
  lemma {:induction false} SavedTableFor(rows: seq<Expense>, today: Date, accounts: seq<string>, k: nat)
    requires IsRealDate(today)
    requires k < |accounts| && |AccountRows(rows, accounts[k])| > 0
    requires forall i, j :: 0 <= i < j < |accounts| ==> SummaryPath(today, accounts[i]) != SummaryPath(today, accounts[j])
    ensures SummaryPath(today, accounts[k]) in SaveMonthlySummary(rows, today, accounts)
    ensures SaveMonthlySummary(rows, today, accounts)[SummaryPath(today, accounts[k])] == SavedTable(rows, accounts[k])
    decreases |accounts|
  {
    var init := accounts[..|accounts| - 1];
    if k < |accounts| - 1 {
      assert init[k] == accounts[k];
      assert forall i, j :: 0 <= i < j < |init| ==> init[i] == accounts[i] && init[j] == accounts[j];
      SavedTableFor(rows, today, init, k);
    }
  }

  /** Each account with rows gets its own table. */
  lemma SavedTables(rows: seq<Expense>, today: Date, k: nat)
    requires IsRealDate(today) && k < |Accounts| && |AccountRows(rows, Accounts[k])| > 0
    ensures SummaryPath(today, Accounts[k]) in SaveMonthlySummary(rows, today, Accounts)
    ensures SaveMonthlySummary(rows, today, Accounts)[SummaryPath(today, Accounts[k])] == SavedTable(rows, Accounts[k])
  {
    SummaryPathsDistinct(today);
    SavedTableFor(rows, today, Accounts, k);
  }

  /** A saved table has one line for each (month, category) pair of the
      account's rows and no other, each holding the pair's sum, in (month,
      category) order. */
  lemma SavedTableSums(rows: seq<Expense>, account: string)
    ensures var ps := MonthCategoryPairs(AccountRows(rows, account));
            var t := SavedTable(rows, account);
            KeySorted(t, StrPairLess) &&
            KeysOf(t) == KeysOf(ps) &&
            forall i :: 0 <= i < |t| ==> t[i].1 == SumFor(ps, t[i].0)
  {
    var ps := MonthCategoryPairs(AccountRows(rows, account));
    StrPairLessIsStrictTotalOrder();
    GroupSumSorted(ps, StrPairLess);
    GroupSumEntries(ps, StrPairLess);
    GroupSumKeys(ps, StrPairLess);
  }
}

=== FILE: statistics.dfy ===
/** `DataAnalyzer.category_analysis`: per-category total, mean and count
    over the combined data. */
module Statistics {
  import opened Options
  import opened Orders
  import opened Dates
  import opened Records
  import opened Grouping
  import opened Reports
  import opened Analyzer

  /** One line of the category statistics. */
  datatype CategoryStat = CategoryStat(category: string, total: real, average: real, count: nat)

  function StatTotal(s: CategoryStat): real {
    s.total
  }

  /** Each row's category. */
  function CategoryNames(rows: seq<Expense>): (names: seq<string>)
    ensures |names| == |rows| && forall i :: 0 <= i < |rows| ==> names[i] == rows[i].category
  {
    seq(|rows|, i requires 0 <= i < |rows| => rows[i].category)
  }

  /** A key that occurs is counted at least once. */
  lemma {:induction false} CountOfPresent(ks: seq<string>, k: string)
    requires k in ks
    ensures CountOf(ks, k) >= 1
    decreases |ks|
  {
    if ks[|ks| - 1] != k {
      assert k in ks[..|ks| - 1] by {
        var i :| 0 <= i < |ks| && ks[i] == k;
        assert ks[..|ks| - 1][i] == k;
      }
      CountOfPresent(ks[..|ks| - 1], k);
    }
  }

  /** Every grouped category is the category of some row. */
  lemma GroupedCategoryCounted(rows: seq<Expense>, i: nat)
    requires i < |GroupSum(CategoryPairs(rows), StrLess)|
    ensures CountOf(CategoryNames(rows), GroupSum(CategoryPairs(rows), StrLess)[i].0) >= 1
  {
    var g := GroupSum(CategoryPairs(rows), StrLess);
    GroupSumKeys(CategoryPairs(rows), StrLess);
    assert g[i].0 in KeysOf(g);
    var j :| 0 <= j < |rows| && CategoryPairs(rows)[j].0 == g[i].0;
    assert CategoryNames(rows)[j] == g[i].0;
    CountOfPresent(CategoryNames(rows), g[i].0);
  }

  /** The statistics of one category: its total, the mean of its amounts
      and the number of its rows. */
  function StatOf(rows: seq<Expense>, category: string, total: real): (l: CategoryStat)
    requires CountOf(CategoryNames(rows), category) >= 1
    ensures l.category == category && l.total == total && l.count == CountOf(CategoryNames(rows), category)
    ensures l.total == l.average * (l.count as real)
  {
    var n := CountOf(CategoryNames(rows), category);
    CategoryStat(category, total, Mean(total, n), n)
  }

  /** One line per category, in ascending category order, with its total,
      mean and number of rows. */
  function StatLines(rows: seq<Expense>): (r: seq<CategoryStat>)
    ensures |r| == |GroupSum(CategoryPairs(rows), StrLess)|
  {
    var g := GroupSum(CategoryPairs(rows), StrLess);
    assert forall i :: 0 <= i < |g| ==> CountOf(CategoryNames(rows), g[i].0) >= 1 by {
      forall i | 0 <= i < |g| ensures CountOf(CategoryNames(rows), g[i].0) >= 1 {
        GroupedCategoryCounted(rows, i);
      }
    }
    seq(|g|, i requires 0 <= i < |g| => StatOf(rows, g[i].0, g[i].1))
  }

  /** `category_analysis`: nothing without data; otherwise the statistics,
      largest total first. */
  function CategoryAnalysis(rows: seq<Expense>): (r: Option<seq<CategoryStat>>)
    ensures r.None? <==> |rows| == 0
  {
    if |rows| == 0 then None else Some(SortDesc(StatLines(rows), StatTotal))
  }

  /** A statistics line: at least one row, the count of the category's
      rows, the sum of its amounts, and the average times the count giving
      the total. */
  predicate StatHolds(rows: seq<Expense>, l: CategoryStat) {
    l.count >= 1 && l.count == CountOf(CategoryNames(rows), l.category) &&
    l.total == SumFor(CategoryPairs(rows), l.category) &&
    l.total == l.average * (l.count as real)
  }

  /** Line `i` of the statistics, spelled out. */
  lemma StatLineAt(rows: seq<Expense>, i: nat)
    requires i < |GroupSum(CategoryPairs(rows), StrLess)|
    ensures var g := GroupSum(CategoryPairs(rows), StrLess);
            CountOf(CategoryNames(rows), g[i].0) >= 1 && StatLines(rows)[i] == StatOf(rows, g[i].0, g[i].1)
  {
    GroupedCategoryCounted(rows, i);
  }

  /** Every statistics line holds its category's figures. */
  lemma StatLineHolds(rows: seq<Expense>, i: nat)
    requires i < |StatLines(rows)|
    ensures StatHolds(rows, StatLines(rows)[i])
  {
    StatLineAt(rows, i);
    GroupedCategorySum(rows, i);
  }

  /** The grouped total of a category is the sum of its rows' amounts. */
  lemma GroupedCategorySum(rows: seq<Expense>, i: nat)
    requires i < |GroupSum(CategoryPairs(rows), StrLess)|
    ensures GroupSum(CategoryPairs(rows), StrLess)[i].1 == SumFor(CategoryPairs(rows), GroupSum(CategoryPairs(rows), StrLess)[i].0)
  {
    StrLessIsStrictTotalOrder();
    GroupSumEntries(CategoryPairs(rows), StrLess);
  }

  /** The lines are those of the categories that occur. */
  lemma StatLinesCategories(rows: seq<Expense>)
    ensures forall c :: c in CategoryNames(rows) <==> exists l :: l in StatLines(rows) && l.category == c
  {
    var ps := CategoryPairs(rows);
    var g := GroupSum(ps, StrLess);
    var lines := StatLines(rows);
    var names := CategoryNames(rows);
    GroupSumKeys(ps, StrLess);
    forall c | c in names ensures exists l :: l in lines && l.category == c {
      var j :| 0 <= j < |names| && names[j] == c;
      assert ps[j].0 == c;
      assert c in KeysOf(g);
      var k :| 0 <= k < |g| && g[k].0 == c;
      StatLineAt(rows, k);
      assert lines[k] in lines;
    }
    forall l | l in lines ensures l.category in names {
      var i :| 0 <= i < |lines| && lines[i] == l;
      StatLineAt(rows, i);
      assert g[i].0 in KeysOf(g);
      var k :| 0 <= k < |ps| && ps[k].0 == g[i].0;
      assert names[k] == g[i].0;
    }
  }

  lemma StatLinesHold(rows: seq<Expense>)
    ensures forall l :: l in StatLines(rows) ==> StatHolds(rows, l)
    ensures forall c :: c in CategoryNames(rows) <==> exists l :: l in StatLines(rows) && l.category == c
  {
    var lines := StatLines(rows);
    forall l | l in lines ensures StatHolds(rows, l) {
      var i :| 0 <= i < |lines| && lines[i] == l;
      StatLineHolds(rows, i);
    }
    StatLinesCategories(rows);
  }

  /** Every category that occurs has one line, the lines are ordered by
      total, largest first, and every line holds its category's figures. */
  lemma CategoryStats(rows: seq<Expense>)
    requires |rows| > 0
    ensures var s := CategoryAnalysis(rows).value;
            Descending(s, StatTotal) &&
            (forall c :: c in CategoryNames(rows) <==> exists i :: 0 <= i < |s| && s[i].category == c) &&
            forall i :: 0 <= i < |s| ==> StatHolds(rows, s[i])
  {
    var lines := StatLines(rows);
    var s := SortDesc(lines, StatTotal);
    StatLinesHold(rows);
    SortDescSorted(lines, StatTotal);
    SortDescMembers(lines, StatTotal);
    forall c | c in CategoryNames(rows) ensures exists i :: 0 <= i < |s| && s[i].category == c {
      var l :| l in lines && l.category == c;
      var i :| 0 <= i < |s| && s[i] == l;
    }
  }
}

=== FILE: store.dfy ===
/** The expense tracker's files, as a map from a path (relative to the
    project directory) to the rows the file holds, header included. A path
    absent from the map is a file that does not exist. */
module Store {
  import opened Options
  import opened Dates
  import opened Records
  import opened CsvRow
  import opened Entry

  type Files = map<string, seq<seq<string>>>

  /** The live expense file and the two files created alongside it. */
  const LivePath: string := "Expenses/expenses_working.csv"
  const FixedChargesPath: string := "budget/charges_fixes.csv"
  const IncomePath: string := "budget/income.csv"

  /** Creates `path` holding only the header row, unless it already exists. */
  function InitializeFile(fs: Files, path: string): (r: Files)
    ensures path in r && r.Keys == fs.Keys + {path}
    ensures path in fs ==> r[path] == fs[path]
    ensures path !in fs ==> r[path] == [Header]
    ensures forall p :: p in fs && p != path ==> r[p] == fs[p]
  {
    if path in fs then fs else fs[path := [Header]]
  }

  /** How the start-up initialisation ends: with all three files in place,
      or with an error after the live file was created. */
  datatype Startup = Started(files: Files) | Crashed(files: Files)

  /** `_initialize_files`: the header-only files for the live expenses, the
      fixed charges and the income, each only where it is missing. The
      tracker creates the `Expenses/` directory beforehand but never
      `budget/`: when `budget/` does not exist (`budgetDir` false), creating
      either budget file fails, after the live file was written. */
  function InitializeFiles(fs: Files, budgetDir: bool): (r: Startup)
    ensures r.Crashed? <==> !budgetDir && (FixedChargesPath !in fs || IncomePath !in fs)
    ensures r.Started? ==> r.files.Keys == fs.Keys + {LivePath, FixedChargesPath, IncomePath}
    ensures r.Crashed? ==> r.files.Keys == fs.Keys + {LivePath}
    ensures forall p :: p in fs ==> p in r.files && r.files[p] == fs[p]
    ensures LivePath !in fs ==> r.files[LivePath] == [Header]
    ensures r.Started? ==> forall p :: p in {FixedChargesPath, IncomePath} && p !in fs ==> r.files[p] == [Header]
  {
    var live := InitializeFile(fs, LivePath);
    if !budgetDir && (FixedChargesPath !in fs || IncomePath !in fs) then Crashed(live)
    else Started(InitializeFile(InitializeFile(live, FixedChargesPath), IncomePath))
  }

  /** Running the initialisation a second time changes nothing, whether the
      first run completed or failed. */
  lemma InitializeFilesIdempotent(fs: Files, budgetDir: bool)
    ensures InitializeFiles(InitializeFiles(fs, budgetDir).files, budgetDir) == InitializeFiles(fs, budgetDir)
  {
  }

  /** Opening `path` for appending and writing one row; the file is created
      (without a header) if it does not exist. */
  function AppendRow(fs: Files, path: string, row: seq<string>): (r: Files)
    ensures path in r && r.Keys == fs.Keys + {path}
    ensures path in fs ==> r[path] == fs[path] + [row]
    ensures path !in fs ==> r[path] == [row]
    ensures forall p :: p in fs && p != path ==> r[p] == fs[p]
  {
    fs[path := (if path in fs then fs[path] else []) + [row]]
  }

  /** The history file `archive_month` writes for the month of `today`:
      "History/<MonthName>_<Year>_expenses.csv". */
  function ArchivePath(today: Date): (p: string)
    requires IsRealDate(today)
    ensures p != LivePath
  {
    var p := "History/" + MonthStem(today.year, today.month) + "_expenses.csv";
    assert p[0] != LivePath[0];
    p
  }

  /** `archive_month`: with no live file nothing happens; otherwise the live
      rows are copied to the month's history file, replacing whatever it
      held, and the live file is reset to the header alone. */
  function ArchiveMonth(fs: Files, today: Date): (r: Files)
    requires IsRealDate(today)
    ensures LivePath !in fs ==> r == fs
    ensures LivePath in fs ==> r.Keys == fs.Keys + {ArchivePath(today)}
    ensures LivePath in fs ==> r[ArchivePath(today)] == fs[LivePath] && r[LivePath] == [Header]
    ensures forall p :: p in fs && p != LivePath && p != ArchivePath(today) ==> r[p] == fs[p]
  {
    if LivePath !in fs then fs
    else fs[ArchivePath(today) := fs[LivePath]][LivePath := [Header]]
  }

  /** Archiving twice in the same month keeps only what was entered in
      between: the first archive is overwritten. */
  lemma ArchiveTwiceOverwrites(fs: Files, today: Date, rows: seq<seq<string>>)
    requires IsRealDate(today) && LivePath in fs
    ensures var once := ArchiveMonth(fs, today);
            var twice := ArchiveMonth(once[LivePath := once[LivePath] + rows], today);
            twice[ArchivePath(today)] == [Header] + rows && twice[LivePath] == [Header]
  {
  }

  /** `add_expense`: the answers are read, and the row they make is
      appended to the live file. Nothing is written when the answers run
      out. */
  function AddExpenseToFiles(fs: Files, today: Date, answers: seq<string>): (r: Option<Files>)
    requires IsRealDate(today)
    ensures r.None? <==> AddExpense(today, answers).None?
  {
    match AddExpense(today, answers)
    case None => None
    case Some(e) => Some(AppendRow(fs, LivePath, e.row))
  }

  /** Adding an expense appends exactly one well-formed row to the live
      file, a row that reads back unchanged, and touches no other file. */
  lemma AddExpenseAppends(fs: Files, today: Date, answers: seq<string>)
    requires IsRealDate(today) && AddExpense(today, answers).Some?
    ensures var r := AddExpenseToFiles(fs, today, answers).value;
            var row := AddExpense(today, answers).value.row;
            r.Keys == fs.Keys + {LivePath} &&
            r[LivePath] == (if LivePath in fs then fs[LivePath] else []) + [row] &&
            IsEntryRow(row) && ParseLine(FormatLine(row)) == row &&
            forall p :: p in fs && p != LivePath ==> r[p] == fs[p]
  {
    var row := AddExpense(today, answers).value.row;
    AddExpenseWellFormed(today, answers);
    EntryRowRoundTrip(row);
  }
}

=== FILE: text.dfy ===
/** The handful of Python `str` operations the scripts rely on: `strip`,
    `replace`, `split`, `join`, `lower`, and decimal digit strings. */
module Text {

  /** Python's `str.isspace`: the characters `strip()` removes. */
  predicate IsSpace(c: char) {
    || ('\t' <= c <= '\r')
    || ('\U{1C}' <= c <= '\U{1F}')
    || c == ' '
    || c == '\U{85}'
    || c == '\U{A0}'
    || c == '\U{1680}'
    || ('\U{2000}' <= c <= '\U{200A}')
    || c == '\U{2028}'
    || c == '\U{2029}'
    || c == '\U{202F}'
    || c == '\U{205F}'
    || c == '\U{3000}'
  }

  /** True when `s` neither starts nor ends with white space. */
  predicate IsStripped(s: string) {
    s == "" || (!IsSpace(s[0]) && !IsSpace(s[|s| - 1]))
  }

  /** The first position at or after `i` not holding white space (`|s|`
      when there is none). */
  function FirstNonSpace(s: string, i: nat): (k: nat)
    requires i <= |s|
    ensures i <= k <= |s|
    ensures k == |s| || !IsSpace(s[k])
    decreases |s| - i
  {
    if i < |s| && IsSpace(s[i]) then FirstNonSpace(s, i + 1) else i
  }

  lemma {:induction false} FirstNonSpaceSkips(s: string, i: nat)
    requires i <= |s|
    ensures forall k :: i <= k < FirstNonSpace(s, i) ==> IsSpace(s[k])
    decreases |s| - i
  {
    if i < |s| && IsSpace(s[i]) {
      FirstNonSpaceSkips(s, i + 1);
    }
  }

  /** When only white space lies between `i` and a non-space character at
      `n`, the scan from `i` stops at `n`. */
  lemma {:induction false} FirstNonSpaceAt(s: string, i: nat, n: nat)
    requires i <= n < |s| && !IsSpace(s[n])
    requires forall k :: i <= k < n ==> IsSpace(s[k])
    ensures FirstNonSpace(s, i) == n
    decreases n - i
  {
    if i < n {
      FirstNonSpaceAt(s, i + 1, n);
    }
  }

  /** The end of `s[..j]` once its trailing white space is dropped. */
  function EndNonSpace(s: string, j: nat): (k: nat)
    requires j <= |s|
    ensures k <= j
    ensures k == 0 || !IsSpace(s[k - 1])
    decreases j
  {
    if j > 0 && IsSpace(s[j - 1]) then EndNonSpace(s, j - 1) else j
  }

  lemma {:induction false} EndNonSpaceSkips(s: string, j: nat)
    requires j <= |s|
    ensures forall k :: EndNonSpace(s, j) <= k < j ==> IsSpace(s[k])
    decreases j
  {
    if j > 0 && IsSpace(s[j - 1]) {
      EndNonSpaceSkips(s, j - 1);
    }
  }

  /** When only white space lies between a non-space character at `n - 1`
      and `j`, the scan back from `j` stops at `n`. */
  lemma {:induction false} EndNonSpaceAt(s: string, j: nat, n: nat)
    requires 0 < n <= j <= |s| && !IsSpace(s[n - 1])
    requires forall k :: n <= k < j ==> IsSpace(s[k])
    ensures EndNonSpace(s, j) == n
    decreases j - n
  {
    if n < j {
      EndNonSpaceAt(s, j - 1, n);
    }
  }

  /** `lstrip()`: a suffix of `s` not starting with white space;
      `StripLeftSpaces` says that only white space was dropped. */
  function StripLeft(s: string): (r: string)
    ensures |r| <= |s| && r == s[|s| - |r|..]
    ensures r == "" || !IsSpace(r[0])
  {
    s[FirstNonSpace(s, 0)..]
  }

  lemma StripLeftSpaces(s: string)
    ensures forall k :: 0 <= k < |s| - |StripLeft(s)| ==> IsSpace(s[k])
  {
    FirstNonSpaceSkips(s, 0);
  }

  /** `rstrip()`: a prefix of `s` not ending with white space;
      `StripRightSpaces` says that only white space was dropped. */
  function StripRight(s: string): (r: string)
    ensures |r| <= |s| && r == s[..|r|]
    ensures r == "" || !IsSpace(r[|r| - 1])
  {
    s[..EndNonSpace(s, |s|)]
  }

  lemma StripRightSpaces(s: string)
    ensures forall k :: |StripRight(s)| <= k < |s| ==> IsSpace(s[k])
  {
    EndNonSpaceSkips(s, |s|);
  }

  /** White space in front of a text starting with a non-space character is
      exactly what `lstrip()` removes. */
  lemma StripLeftPadding(pad: string, u: string)
    requires forall k :: 0 <= k < |pad| ==> IsSpace(pad[k])
    requires |u| > 0 && !IsSpace(u[0])
    ensures StripLeft(pad + u) == u
  {
    var s := pad + u;
    assert forall k :: 0 <= k < |pad| ==> s[k] == pad[k];
    assert s[|pad|] == u[0];
    FirstNonSpaceAt(s, 0, |pad|);
    assert s[|pad|..] == u;
  }

  /** White space after a text ending with a non-space character is exactly
      what `rstrip()` removes. */
  lemma StripRightPadding(u: string, pad: string)
    requires forall k :: 0 <= k < |pad| ==> IsSpace(pad[k])
    requires |u| > 0 && !IsSpace(u[|u| - 1])
    ensures StripRight(u + pad) == u
  {
    var s := u + pad;
    assert forall k :: |u| <= k < |s| ==> s[k] == pad[k - |u|];
    assert s[|u| - 1] == u[|u| - 1];
    EndNonSpaceAt(s, |s|, |u|);
    assert s[..|u|] == u;
  }

  /** How many white-space characters `strip()` removes from the front. */
  function LeadingSpaces(s: string): nat {
    |s| - |StripLeft(s)|
  }

  /** Python's `s.strip()`; `StripSlice` states which slice of `s` it is. */
  function Strip(s: string): (r: string)
    ensures |r| <= |s|
  {
    StripRight(StripLeft(s))
  }

  /** What `strip()` returns neither starts nor ends with white space. */
  lemma StripIsStripped(s: string)
    ensures IsStripped(Strip(s))
  {
    var left := StripLeft(s);
    var r := StripRight(left);
    if r != "" {
      assert r[0] == left[0];
    }
  }

  /** `strip()` keeps the slice that starts at the first and ends at the last
      non-space character; only white space lies outside it, and the result
      is empty exactly when everything is white space. */
  lemma StripSlice(s: string)
    ensures LeadingSpaces(s) + |Strip(s)| <= |s|
    ensures Strip(s) == s[LeadingSpaces(s)..LeadingSpaces(s) + |Strip(s)|]
    ensures forall k :: 0 <= k < LeadingSpaces(s) ==> IsSpace(s[k])
    ensures forall k :: LeadingSpaces(s) + |Strip(s)| <= k < |s| ==> IsSpace(s[k])
    ensures Strip(s) == "" <==> forall k :: 0 <= k < |s| ==> IsSpace(s[k])
  {
    var left := StripLeft(s);
    var r := StripRight(left);
    var i := |s| - |left|;
    StripLeftSpaces(s);
    StripRightSpaces(left);
    assert Strip(s) == r;
    assert LeadingSpaces(s) == i;
    assert r == s[i..i + |r|];
    assert forall k :: i + |r| <= k < |s| ==> s[k] == left[k - i];
  }

  lemma StripKeepsCharacters(s: string, c: char)
    requires c in Strip(s)
    ensures c in s
  {
    var r := Strip(s);
    var i := LeadingSpaces(s);
    StripSlice(s);
    var k :| 0 <= k < |r| && r[k] == c;
    assert s[i + k] == c;
  }

  lemma StripAvoids(s: string, c: char)
    requires c !in s
    ensures c !in Strip(s)
  {
    var r := Strip(s);
    var i := LeadingSpaces(s);
    StripSlice(s);
    assert forall k :: 0 <= k < |r| ==> r[k] == s[i + k];
  }

  /** A string that already has no surrounding white space is left alone. */
  lemma StripStripped(s: string)
    requires IsStripped(s)
    ensures Strip(s) == s
  {
    var r := Strip(s);
    StripSlice(s);
    if s != "" {
      assert !IsSpace(s[0]) && !IsSpace(s[|s| - 1]);
      assert LeadingSpaces(s) == 0;
      assert |r| == |s|;
    }
  }

  /** Python's `s.replace(a, b)` for single characters; `ReplaceAt` says
      what each position holds. */
  function Replace(s: string, a: char, b: char): (r: string)
    ensures |r| == |s|
    ensures a != b ==> a !in r
  {
    seq(|s|, i requires 0 <= i < |s| => if s[i] == a then b else s[i])
  }

  lemma ReplaceAt(s: string, a: char, b: char)
    ensures forall i :: 0 <= i < |s| ==> Replace(s, a, b)[i] == (if s[i] == a then b else s[i])
  {
  }

  lemma ReplaceAbsent(s: string, a: char, b: char)
    requires a !in s
    ensures Replace(s, a, b) == s
  {
    var r := Replace(s, a, b);
    ReplaceAt(s, a, b);
    assert forall i :: 0 <= i < |s| ==> r[i] == s[i];
  }

  /** The characters of `s` other than `a`, in order. */
  function Kept(s: string, a: char): string {
    if |s| == 0 then ""
    else (if s[0] == a then "" else [s[0]]) + Kept(s[1..], a)
  }

  lemma {:induction false} KeptMultiset(s: string, a: char)
    ensures a !in Kept(s, a)
    ensures multiset(Kept(s, a)) == multiset(s)[a := 0]
    decreases |s|
  {
    if |s| > 0 {
      KeptMultiset(s[1..], a);
      assert s == [s[0]] + s[1..];
    }
  }

  /** Kept from two texts put together is kept from each in turn. */
  lemma {:induction false} KeptAppend(s: string, t: string, a: char)
    ensures Kept(s + t, a) == Kept(s, a) + Kept(t, a)
    decreases |s|
  {
    if |s| == 0 {
      assert s + t == t;
    } else {
      KeptAppend(s[1..], t, a);
      assert (s + t)[0] == s[0] && (s + t)[1..] == s[1..] + t;
    }
  }

  /** Python's `s.replace(a, '')`: every `a` dropped, the rest in order. */
  function RemoveAll(s: string, a: char): (r: string)
    ensures a !in r
    ensures multiset(r) == multiset(s)[a := 0]
  {
    KeptMultiset(s, a);
    Kept(s, a)
  }

  /** Deleting from two texts put together deletes from each in turn: what
      remains keeps its order. */
  lemma RemoveAllAppend(s: string, t: string, a: char)
    ensures RemoveAll(s + t, a) == RemoveAll(s, a) + RemoveAll(t, a)
  {
    KeptAppend(s, t, a);
  }

  /** One character: dropped if it is `a`, kept otherwise. */
  lemma RemoveAllChar(c: char, a: char)
    ensures RemoveAll([c], a) == (if c == a then "" else [c])
  {
    assert [c][1..] == "";
    assert Kept([c], a) == (if c == a then "" else [c]) + Kept("", a);
  }

  /** The parts written one after the other: Python's `''.join(parts)`. */
  function Flatten(parts: seq<string>): string {
    if |parts| == 0 then "" else parts[0] + Flatten(parts[1..])
  }

  /** Python's `sep.join(parts)`. */
  function Join(parts: seq<string>, sep: char): string {
    if |parts| == 0 then ""
    else if |parts| == 1 then parts[0]
    else parts[0] + [sep] + Join(parts[1..], sep)
  }

  /** A character in no part, other than the separator, is not in the join. */
  lemma {:induction false} JoinAvoids(parts: seq<string>, sep: char, c: char)
    requires c != sep
    requires forall i :: 0 <= i < |parts| ==> c !in parts[i]
    ensures c !in Join(parts, sep)
    decreases |parts|
  {
    if |parts| > 1 {
      JoinAvoids(parts[1..], sep, c);
    }
  }

  lemma JoinTwo(a: string, b: string, sep: char)
    ensures Join([a, b], sep) == a + [sep] + b
  {
    assert [a, b][1..] == [b];
  }

  lemma JoinThree(a: string, b: string, c: string, sep: char)
    ensures Join([a, b, c], sep) == a + [sep] + b + [sep] + c
  {
    assert [a, b, c][1..] == [b, c];
    JoinTwo(b, c, sep);
  }

  /** Python's `s.split(sep)`: the pieces between separators, never none;
      `SplitPieces` states that they hold no separator and join back to `s`. */
  function Split(s: string, sep: char): (parts: seq<string>)
    ensures |parts| >= 1
  {
    if |s| == 0 then [""]
    else
      var rest := Split(s[1..], sep);
      if s[0] == sep then [""] + rest
      else [[s[0]] + rest[0]] + rest[1..]
  }

  lemma {:induction false} SplitPieces(s: string, sep: char)
    ensures forall i :: 0 <= i < |Split(s, sep)| ==> sep !in Split(s, sep)[i]
    ensures Join(Split(s, sep), sep) == s
    decreases |s|
  {
    if |s| > 0 {
      var rest := Split(s[1..], sep);
      SplitPieces(s[1..], sep);
      var parts := Split(s, sep);
      if s[0] == sep {
        assert parts == [""] + rest;
        assert parts[1..] == rest;
        assert forall i :: 1 <= i < |parts| ==> parts[i] == rest[i - 1];
      } else {
        assert parts == [[s[0]] + rest[0]] + rest[1..];
        assert forall i :: 1 <= i < |parts| ==> parts[i] == rest[i];
        if |rest| > 1 {
          assert parts[1..] == rest[1..];
          assert Join(rest, sep) == rest[0] + [sep] + Join(rest[1..], sep);
        }
      }
    }
  }

  /** Splitting a joined list of separator-free pieces gives the pieces back. */
  lemma {:induction false} SplitJoin(parts: seq<string>, sep: char)
    requires |parts| >= 1
    requires forall i :: 0 <= i < |parts| ==> sep !in parts[i]
    ensures Split(Join(parts, sep), sep) == parts
    decreases |parts|
  {
    if |parts| == 1 {
      SplitNoSeparator(parts[0], sep);
    } else {
      SplitJoin(parts[1..], sep);
      SplitAfterPiece(parts[0], Join(parts[1..], sep), sep);
      assert parts == [parts[0]] + parts[1..];
    }
  }

  lemma {:induction false} SplitNoSeparator(s: string, sep: char)
    requires sep !in s
    ensures Split(s, sep) == [s]
    decreases |s|
  {
    if |s| > 0 {
      SplitNoSeparator(s[1..], sep);
      assert s == [s[0]] + s[1..];
    }
  }

  lemma {:induction false} SplitAfterPiece(p: string, rest: string, sep: char)
    requires sep !in p
    ensures Split(p + [sep] + rest, sep) == [p] + Split(rest, sep)
    decreases |p|
  {
    var s := p + [sep] + rest;
    if |p| == 0 {
      assert s[1..] == rest;
    } else {
      assert s[1..] == p[1..] + [sep] + rest;
      SplitAfterPiece(p[1..], rest, sep);
      assert p == [p[0]] + p[1..];
    }
  }

  /** Python's `str.lower()` restricted to ASCII letters; the model only
      lower-cases the fixed, ASCII account names. */
  function ToLowerAscii(s: string): (r: string)
    ensures |r| == |s|
    ensures forall i :: 0 <= i < |s| ==> r[i] == (if 'A' <= s[i] <= 'Z' then (s[i] as int + 32) as char else s[i])
  {
    if |s| == 0 then ""
    else [if 'A' <= s[0] <= 'Z' then (s[0] as int + 32) as char else s[0]] + ToLowerAscii(s[1..])
  }

  predicate IsDigit(c: char) {
    '0' <= c <= '9'
  }

  predicate AllDigits(s: string) {
    forall i :: 0 <= i < |s| ==> IsDigit(s[i])
  }

  function DigitChar(n: nat): (c: char)
    requires n < 10
    ensures IsDigit(c) && c as int - '0' as int == n
  {
    ('0' as int + n) as char
  }

  /** The number a string of ASCII digits denotes, most significant first. */
  function DigitsValue(s: string): nat
    requires AllDigits(s)
  {
    if |s| == 0 then 0
    else DigitsValue(s[..|s| - 1]) * 10 + (s[|s| - 1] as int - '0' as int)
  }

  lemma {:induction false} DigitsValueBound(s: string)
    requires AllDigits(s)
    ensures DigitsValue(s) < Pow10(|s|)
    decreases |s|
  {
    if |s| > 0 {
      DigitsValueBound(s[..|s| - 1]);
    }
  }

  function Pow10(n: nat): (r: nat)
    ensures r >= 1
  {
    if n == 0 then 1 else 10 * Pow10(n - 1)
  }

  /** `n` written with exactly `width` digits, zero-padded on the left
      (Python's `f"{n:0{width}d}"` and strftime's `%d`, `%m`, `%Y`). */
  function PadDigits(n: nat, width: nat): (r: string)
    requires n < Pow10(width)
    ensures |r| == width && AllDigits(r)
    ensures DigitsValue(r) == n
  {
    if width == 0 then ""
    else
      var r := PadDigits(n / 10, width - 1) + [DigitChar(n % 10)];
      assert r[..|r| - 1] == PadDigits(n / 10, width - 1);
      r
  }

  /** `str(n)` for a natural number: decimal digits without leading zeros. */
  function NatToString(n: nat): (r: string)
    ensures |r| >= 1 && AllDigits(r)
    ensures DigitsValue(r) == n
    ensures |r| > 1 ==> r[0] != '0'
  {
    if n < 10 then [DigitChar(n)]
    else
      var r := NatToString(n / 10) + [DigitChar(n % 10)];
      assert r[..|r| - 1] == NatToString(n / 10);
      r
  }
}
